=== FILE: README.md ===
# Djaty Node agent: context engine and submission pipeline, in Dafny

This project models the core of the Djaty Node.js agent. The agent records what happens
during each HTTP request and submits bug reports to the Djaty collector. The model covers:

- the per-request **context store**. `getContext`/`setContext` pick the global context, the
  context of one of the agent's request domains, or a throw-away context for a foreign domain.
- the bounded **timeline buffer** (`trackTimelineItem`, `resetCtxTimeline`). It trims on
  overflow and keeps the inbound-request marker.
- **payload assembly** (`prepareSubmissionPayload` and the anonymous crash report).
- the agent's **submission state machine** (`init`, `destroy`, `requestHandler`,
  `errorHandler`, `setUser`, the filter and custom-data registrations, `trackBug`,
  `captureError`, `process`, `handleSubmissionErr`, `sendUserFilterError`,
  `submitDjatyCrashReport`). Each public call, each transport reply and each expiring timer
  is an `Event` of the function `Agent.Step`. Callbacks handed to the transport or to
  `setTimeout` are stored as continuations keyed by a fresh number. `trackBug` promises are
  a sequence of promise states.
- the helpers of `src/utils.ts`: URL parameter removal, the `asyncLoop` chain, error and
  console-item parsing, and the request IP.
- the decision logic of `src/transport.ts`: header lookup, proxy options, request paths,
  and how a response or a request error becomes a callback.
- the user-configuration schema of `src/userConfigValidation.ts`, written as a predicate.

Files:

| file | module | models |
|---|---|---|
| `wrappers.dfy` | `Wrappers` | `Option`, `Result` |
| `text.dfy` | `Text` | string helpers (`substr`, `split`, `join`, lower-casing, number rendering) |
| `types.dfy` | `Types` | the shared records: contexts, timeline items, users, errors, acknowledge codes |
| `utils.dfy` | `Utils` | `src/utils.ts` |
| `transport.dfy` | `Transport` | `src/transport.ts` |
| `config_validation.dfy` | `ConfigValidation` | `src/userConfigValidation.ts` |
| `timeline.dfy` | `TimelineBuffer` | append and reset on one context |
| `context_store.dfy` | `ContextStore` | `getContext`, `setContext`, tracking into the store |
| `payload.dfy` | `Payload` | `prepareSubmissionPayload`, the crash payload |
| `agent.dfy` | `Agent` | the `Djaty` class as a state machine |
| `agent_properties.dfy` | `AgentProperties` | properties of every step and every run |
| `agent_scenarios.dfy` | `AgentScenarios` | the submission flows, event by event |

The proofs that carry the model are inductions over whole runs: `TimelineBuffer.AppendAllFromFresh`
and `TimelineBuffer.AppendAllBounded` describe the timeline after any sequence of appends,
`ContextStore.TrackAllIsolated` keeps the contexts of different domains apart, and
`AgentProperties.RunMonotone` carries the state machine's invariant over every run of events.

Behaviours of the code that a reader might not expect, each shown by a lemma:

- Trimming moves the request marker of a request context into `trimmedItems`
  (src/index.ts:588-603). A later reset looks only at the live timeline
  (src/index.ts:1079-1090), no longer finds the marker there, and drops it. For every limit of at
  least 2 and every overflowing run of appends whose only request marker is its first item,
  the reset context reports only the trimming marker
  (`TimelineBuffer.ResetAfterTrimLosesRequest`). A request marker appended after the trim
  heads the live timeline instead, and the reset keeps that one
  (`TimelineBuffer.LaterMarkerSurvivesReset`).
- The configuration schema has no key for the submission timeout
  (src/userConfigValidation.ts:8-164), so a `submissionTimeout` option makes `init` throw
  (`ConfigValidation.SubmissionTimeoutRejected`).
- `timelineLimit` is only checked to be an integer (src/userConfigValidation.ts:154-156;
  `ConfigValidation.TimelineLimitUnbounded`). The live part stays within
  `maxTimelineItems - 1` for every limit of at least 1 (`TimelineBuffer.AppendLiveBounded`);
  the trimmed prefix and the live part together stay within the limit only for a limit of
  at least 2 (`TimelineBuffer.AppendBounded`). With a limit of 1 a request context reports
  two items (`TimelineBuffer.UnitLimitReportsTwo`).
  With a limit of 2, a request context keeps only its first item and the trimming marker
  (`TimelineBuffer.TightLimitDropsNewItems`).
- On the crash-report path only a successful send marks the attempt sent
  (src/index.ts:1003-1011). A failed send calls the callback with the request error, and the
  armed timer later calls it a second time with the timeout error
  (`AgentScenarios.CrashReportCallsBackTwice`).
- Until an `init` with tracking on sets them, `maxTimelineItems` and `maxStacktraceFramesNo`
  are undefined (src/index.ts:62-63, 184-186). The public `trackTimelineItem` then never
  trims (`Agent.UnsetLimitNeverTrims`), and `parseError` keeps no stack line.

Errors the agent constructs itself (`new Error(...)`, `DjatyError`, `RequestError`, and the
`TypeError`s of its own property accesses) carry the stack V8 records at construction: a
`name: message` line followed by call-site frames. The frames are the parameter
`errorFrames` (`Types.MadeError`); `Utils.ParseAgentMadeError` shows what `parseError`
makes of such an error.

## Model

| member | source | states |
|---|---|---|
| Utils.EncodeUriComponent | src/utils.ts:213 | the encoding holds only unreserved characters, `%` and upper-case hex digits; a string of unreserved characters is unchanged |
| Utils.UrlBase | src/utils.ts:204-208 | the part before the first `?` contains no `?` |
| Utils.KeepParts | src/utils.ts:217-222 | the kept query parts are exactly the parts not starting with `name=`, and there are no more of them than parts |
| Utils.SpliceOutPrefixed | src/utils.ts:216-222 | the backwards splice loop keeps exactly the parts `KeepParts` keeps, in order |
| Utils.RemoveUrlParameter | src/utils.ts:203-228 | a URL without `?` comes back unchanged; otherwise the base, `?`, and the kept parts joined by `&` |
| Utils.RemoveUrlParameterQuery | src/utils.ts:203-228 | the result has the same base, its query parts are the kept parts, and none of them starts with `name=` |
| Utils.RemoveUrlParameterIdempotent | src/utils.ts:203-228 | removing a parameter twice is removing it once |
| Utils.AsyncLoop | src/utils.ts:259-306 | an empty chain yields its input; a first function that throws ends the chain with that error |
| Utils.AsyncLoopConcat | src/utils.ts:273-289 | running two chains one after the other is running their concatenation, and an error in the first skips the second |
| Utils.AsyncLoopStopsAtThrow | src/utils.ts:285-305 | the first function that throws decides the outcome; later functions never run |
| Utils.RunChain | src/utils.ts:259-306 | the iterative runner returns what the chain semantics `AsyncLoop` gives |
| Utils.SliceEnd | src/utils.ts:107-109 | `slice(0, end)` keeps `end` lines, counts a negative `end` from the back, and never goes past the list |
| Utils.FilterFrames | src/utils.ts:110 | the kept frames are exactly those that are not the agent's own, in order |
| Utils.KeptFrames | src/utils.ts:106-111 | no more frames than the `maxFramesNo + 1` window, and none of the agent's own |
| Utils.ParseError | src/utils.ts:100-129 | an exception item with the error's name, the message text (or `[no message]`), the hash of agent id, tracker name, message and first frame, and the filtered stack |
| Utils.ParseErrorStack | src/utils.ts:106-111 | the reported stack lines are exactly the window's lines without the agent's frames |
| Utils.IsAgentFrame | src/utils.ts:110 | an agent frame starts with a space and contains the agent's `dist` path |
| Utils.ParseAgentMadeError | src/utils.ts:100-119 | an error the agent constructs is reported with its `name: message` line first, and hashed over the first line of its call-site frames |
| Utils.ParseErrorHashDeterminants | src/utils.ts:113-119 | two errors with the same message and first stack frame get the same hash, whatever the frame limit |
| Utils.FormatConsoleItem | src/utils.ts:334-351 | a console item of the given method and parameters, with a hash exactly when the method is `error` |
| Utils.ConsoleHashByRendering | src/utils.ts:344-348 | two `console.error` calls with the same rendering get the same hash |
| Utils.GetReqIP | src/utils.ts:131-142 | `req.ip`, else the socket's remote address, with `::1` reported as `127.0.0.1`; never `::1` |
| Utils.ClassifyDomain | src/utils.ts:361-363 | a domain is the agent's request domain exactly when its name is `djatyReqWrapDomain`; any other active domain is foreign |
| Transport.FindIndexIgnoringCase | src/transport.ts:161-166 | the index of the first header whose lower-cased name matches, or -1 exactly when none matches |
| Transport.FindHeaderVal | src/transport.ts:161-166 | the value of the first header matching case-insensitively; without a match, the lookup of the key `undefined` |
| Transport.FindHeaderValAbsent | src/transport.ts:161-166 | without a matching header and without a header named `undefined`, the value is absent |
| Transport.IsServerErr | src/transport.ts:168-173 | a server error is exactly one of the four retryable socket codes or a status of 500 or more |
| Transport.ConnRefusedIsNotServerErr | src/transport.ts:168-173 | a refused connection below status 500 is not a server error |
| Transport.SetRequestHeader | src/transport.ts:134 | the set header has the new value and every other header is unchanged |
| Transport.GetProxyReqOptions | src/transport.ts:132-153 | the `Host` header and host are the proxy's, other headers are kept, and a missing or zero port becomes 443 or 80 by `secure` |
| Transport.BuildReqOptions | src/transport.ts:24-40 | a POST to the server's API path plus `/bugs`; a configured proxy overrides host and `Host` header, and JSON content type is always sent |
| Transport.GetReqOptions | src/transport.ts:175-179 | only the path may change; it always extends the original path, changes exactly for a crash report, and then gains the crash-report query |
| Transport.RequestPaths | src/transport.ts:175-179 | the crash-report path extends the bug path |
| Transport.ResponseReasons | src/transport.ts:82-83 | the reported errors when the body has them, else a text reason |
| Transport.ClassifyResponse | src/transport.ts:57-102 | a redirect with a location is refused with its own code; success exactly for 2xx without reported errors; no callback exactly for status 500 or more; other HTTP errors carry the status, the reasons and the sent body; every delivered error has the stack of its construction in the agent |
| Transport.OnRequestError | src/transport.ts:105-127 | after a callback nothing more is delivered; a retryable network code delivers nothing; any other error delivers its message once |
| Transport.RequestErrorsCallBackAtMostOnce | src/transport.ts:105-127 | over any sequence of request errors, the callback fires at most once, and never for a retryable code |
| Transport.RequestErrorsDeliverFirstFatal | src/transport.ts:105-127 | the first non-retryable error is the one delivered, with its message |
| ConfigValidation.ValidUserConfig | src/userConfigValidation.ts:8-164 | a valid configuration is an object with string `apiKey` and `apiSecret`, no `submissionTimeout`, a stage from the four stages, at most ten tags and a release of 1..100 characters |
| ConfigValidation.UnknownKeyRejected | src/userConfigValidation.ts:8-164 | any top-level key outside the schema makes the configuration invalid |
| ConfigValidation.SubmissionTimeoutRejected | src/userConfigValidation.ts:8-164 | a `submissionTimeout` key is rejected |
| ConfigValidation.KeysRequiredAndSufficient | src/userConfigValidation.ts:10-15 | the two keys alone are valid; a missing key or a non-string key is invalid |
| ConfigValidation.ServerPortRange | src/userConfigValidation.ts:60-83 | a server port is valid exactly when it is an integer in 1..65535 |
| ConfigValidation.TimelineLimitUnbounded | src/userConfigValidation.ts:151-156 | every integer timeline limit is accepted, and no fractional one |
| ConfigValidation.TagRules | src/userConfigValidation.ts:93-102 | a tag can be added to a valid list exactly when the list is below ten, the tag has 1..45 characters and is not yet there; longer lists and lists with a repeated tag are rejected |
| ConfigValidation.StageValues | src/userConfigValidation.ts:87-92 | a stage is valid exactly when it is `Prod`, `Stag`, `Dev` or `Test` |
| ConfigValidation.CustomLoggerNeedsName | src/userConfigValidation.ts:107-139 | a custom logger needs a name, and is valid exactly when the name is an allowed logger |
| TimelineBuffer.Append | src/index.ts:570-605 | only the timeline fields change; a trimmed timeline stays trimmed with its prefix and length; an append without overflow adds the item at the end; an overflow trims and keeps the request marker for a request context |
| TimelineBuffer.AppendLiveBounded | src/index.ts:576-603 | for every limit, an append keeps the live timeline within `maxTimelineItems - 1` |
| TimelineBuffer.UnitLimitReportsTwo | src/index.ts:586-600 | with a limit of 1 the live timeline stays empty, yet a request context reports its first item and the trimming marker, more than the limit |
| TimelineBuffer.AppendBounded | src/index.ts:578-603 | with a limit of at least 2, an append keeps the live timeline within `maxTimelineItems - 1` and the whole report within the limit |
| TimelineBuffer.AppendTrimConsistent | src/index.ts:596-602 | a trimmed prefix always ends in the trimming marker, and after an append there is something to report |
| TimelineBuffer.AppendAllBounded | src/index.ts:578-603 | any number of appends keeps the bound |
| TimelineBuffer.AppendAllFrame | src/index.ts:564-606 | any number of appends changes only the timeline fields |
| TimelineBuffer.FirstOverflow | src/index.ts:588-603 | the first overflow moves the request marker into the prefix and drops the oldest live item |
| TimelineBuffer.Slide | src/index.ts:580-585 | a trimmed timeline acts as a ring buffer: the item is added and the oldest one dropped |
| TimelineBuffer.AppendAllFromFresh | src/index.ts:564-606 | from an empty context, up to `max - 1` items are kept as they are; more items leave the prefix and the last `max - 2` (request) or `max - 1` items |
| TimelineBuffer.Reset | src/index.ts:1075-1094 | the trim flag is cleared and the timeline becomes the request marker and a trimming marker, or the trimming marker alone |
| TimelineBuffer.ResetIdempotent | src/index.ts:1075-1094 | resetting twice is resetting once |
| TimelineBuffer.ResetBounded | src/index.ts:1075-1094 | a reset context is within any limit of at least 3 and consistent about its prefix |
| TimelineBuffer.ResetAfterTrimLosesRequest | src/index.ts:1079-1092 | for every limit of at least 2 and every overflowing run whose only request marker is its first item, the marker sits in the trimmed prefix and a reset reports only the trimming marker |
| TimelineBuffer.LaterMarkerSurvivesReset | src/index.ts:1079-1092 | a request marker appended after the trim heads the live timeline, and a reset keeps it with the trimming marker |
| TimelineBuffer.TightLimitDropsNewItems | src/index.ts:588-603 | with a limit of 2, every new item of a request context is dropped and only the first item and the marker are reported |
| ContextStore.GetContext | src/index.ts:739-754 | no domain reads the global context; a foreign domain reads a fresh empty context; an unseen request domain starts empty |
| ContextStore.SetContext | src/index.ts:1060-1073 | a foreign domain changes nothing; a request domain leaves the global context alone |
| ContextStore.GetAfterSet | src/index.ts:739-754 | reading back what was set gives it, except in a foreign domain |
| ContextStore.SetIsolated | src/index.ts:1060-1073 | setting one domain's context leaves every other domain's context as it was |
| ContextStore.Track | src/index.ts:564-606 | tracking appends to the domain's own context, and nothing in a foreign domain |
| ContextStore.TrackAllIsolated | src/index.ts:564-606 | under any interleaving of requests, each context holds exactly its own items, appended in order |
| ContextStore.NewRequestSeesOwnItems | src/index.ts:564-606 | a new request's timeline holds exactly the items tracked in it, untrimmed, while they fit |
| Payload.TitledArgs | src/index.ts:533-538 | titles are the first 255 characters of the text (the whole text when shorter, exactly 255 when longer) and the long title repeats the short one |
| Payload.ChosenTimeline | src/index.ts:888-895 | the context's timeline, with the trimmed prefix in front when trimmed; without a context timeline, the global one |
| Payload.FilterList | src/index.ts:848 | the filters run are the global ones, then the context's |
| Payload.ReportedLocalIp | src/index.ts:935 | the IPv6 loopback is reported as `127.0.0.1`; any other address unchanged |
| Payload.LoopbackRuleShared | src/utils.ts:131-142 | a request's address and the server's address follow the same loopback rule |
| Payload.PrepareSubmissionPayload | src/index.ts:881-940 | fails exactly when there is no timeline to report; otherwise one bug typed by the last item, with the context's or global request id, `isTemp` exactly without auto-submission and with a request id, global then context custom data, and the merged user; in a request domain the user is always reported, with an address key |
| Payload.PrepareAfterAppendSucceeds | src/index.ts:881-895 | after an append to a consistent context, a submission from it has a timeline to report |
| Payload.ForeignReportsGlobalTimeline | src/index.ts:888-895 | a submission from a foreign domain reports the global timeline |
| Payload.CrashPayload | src/index.ts:984-1001 | one exception bug with the parsed error as its only item and the project key only in the custom data; no keys, release, stage, tags, request id or user |
| Agent.TimelineLimit | src/index.ts:588 | the configured limit once set; while undefined, a limit the next append cannot exceed |
| Agent.TrackItem | src/index.ts:564-568 | before `init` nothing is tracked; afterwards the item goes into the domain's context |
| Agent.UnsetLimitNeverTrims | src/index.ts:588 | while the limit is undefined, an untrimmed timeline only grows by the item |
| Agent.TrackException | src/index.ts:1235-1253 | exactly with auto-submission or a request id, the parsed error is appended to the domain's context and returned; otherwise nothing changes |
| Agent.TrackStringError | src/index.ts:789-802 | the tracked `console.error` item carries the hash the bug is reported with, and the titles are the rendered arguments cut to 255 characters; before `init` nothing changes |
| Agent.TrackConsoleError | src/index.ts:764-767 | the hashed `console.error` item of the arguments is appended to the domain's context; before `init` nothing changes |
| Agent.Send | src/transport.ts:42-48 | one request is handed to the transport and its continuation awaits the reply under a fresh number |
| Agent.AfterHandled | src/index.ts:769-778 | the error is marked handled and the process exits exactly when `exitOnUncaughtExceptions` is set |
| Agent.Settle | src/index.ts:492-552 | a pending promise settles once; a settled one is left as it was |
| Agent.ManualOutcome | src/index.ts:612-672 | without auto-submission the bug resolves as a temporary bug; errors reject; a missing or unknown acknowledge becomes `BUG_REPORTED` |
| Agent.CaptureDone | src/index.ts:1155-1210 | every outcome of a captured error ends handled; with auto-submission the attempt is marked sent, which disarms its timer |
| Agent.Invoke | src/index.ts:1155-1210 | invoking a callback sends nothing, and a `trackBug` callback never exits the process |
| Agent.SubmitCrashReport | src/index.ts:942-1013 | disabled crash reports call back at once; the latch drops a second report; otherwise a timer is armed and the anonymous crash payload sent |
| Agent.Fault | src/index.ts:804-838 | an agent failure becomes a crash report carrying that error; with crash reports off the agent is called back with `DJATY_CRASH_REPORT_DISABLED` and error handling finishes |
| Agent.ResetTimeline | src/index.ts:1075-1094 | the reset fails exactly when the context has no timeline; otherwise only that context is reset |
| Agent.SendUserFilterError | src/index.ts:1215-1233 | without a timeline to report the agent faults; otherwise one report of the chosen timeline, titled by the arguments, whose reply goes to the user-filter continuation |
| Agent.FilterFailed | src/index.ts:851-869 | a filter failure changes only what the agent's frame allows: no configuration, initiation or settled promise |
| Agent.Filters | src/index.ts:848 | the user filters run in list order |
| Agent.Process | src/index.ts:840-879 | a submission never touches configuration, initiation or settled promises, and latches only get set |
| Agent.EffectiveCode | src/index.ts:682-684 | the error code, else the keyword of the first complaint |
| Agent.NoRetryMessage | src/index.ts:687-698 | a message exactly for the seven listed codes, never for a retryable one; a refused and an unknown host share the server-config message |
| Agent.ClassifySubmissionErr | src/index.ts:674-737 | the no-retry table first; then 400 resends diagnostics, 429 is throttled, a missing status, 0 or 500 or more is an unknown failure |
| Agent.HandleSubmissionErr | src/index.ts:674-737 | error handling keeps configuration, initiation and settled promises |
| Agent.Capture | src/index.ts:1102-1213 | a foreign domain is only marked handled; an agent error is logged without sending; the uncaught latch drops a second error; otherwise a watch timer is armed first |
| Agent.TrackBugGuard | src/index.ts:495-529 | before `init` reject `NOT_INITIATED`; tracking off, foreign domain and a missing request id without auto-submission resolve with their skip codes; other input rejects |
| Agent.OnTrackBug | src/index.ts:488-553 | each call creates exactly one promise; a guarded call settles it at once with the guard's outcome |
| Agent.TrackingLimits | src/index.ts:1020-1023 | each limit is the configured value capped at 100 |
| Agent.OnInit | src/index.ts:113-215 | a second `init` does nothing; invalid options throw; the agent is initiated exactly with valid options and both keys; the limits, tags and stage are set |
| Agent.InitWithoutTrackingLeavesLimits | src/index.ts:184-186 | an `init` with tracking off leaves the limits as they were, undefined for a fresh agent |
| Agent.OnDestroy | src/index.ts:222-244 | filters, custom data, latches and the handler flag are cleared and the current context emptied; options and pending work stay |
| Agent.OnRequest | src/index.ts:252-296 | without tracking nothing happens; after an uncaught exception with exit on, the response is 502; otherwise a new request context with its request id |
| Agent.CheckTrackedUser | src/index.ts:1346-1372 | a user is accepted exactly when it is an object with a truthy id or logon, one of them a string or number |
| Agent.OnSetUser | src/index.ts:342-366 | only the contexts change; an accepted user is stored in the domain's context |
| Agent.AddFilter | src/index.ts:371-434 | a global filter is appended to the list; a context filter to the domain's context |
| Agent.AddCustomData | src/index.ts:440-485 | global data is appended to the list; context data to the domain's context |
| Agent.ErrorStatus | src/index.ts:321 | the first non-zero of `status`, `statusCode`, `status_code`, else 500 |
| Agent.OnRouteError | src/index.ts:304-339 | the response goes out first; below 500 nothing else happens |
| Agent.OnReply | src/transport.ts:91-101 | a server error or an unknown request changes nothing |
| Agent.OnTimer | src/index.ts:1131-1143 | an unknown timer does nothing; the timer of a sent attempt only disarms |
| Agent.OnSetupEvent | src/index.ts:252-311 | `requestHandler()` throws before `init` and otherwise marks the handler installed; `errorHandler()` throws exactly when not initiated or no request handler is installed, and changes nothing |
| Agent.Step | src/index.ts:769-778 | once the process has exited, no event has any effect |
| AgentProperties.StepMonotone | src/index.ts:222-244 | every event keeps settled promises; only `destroy` clears the uncaught latch, and only `destroy` or an expiring crash timer clears the crash latch |
| AgentProperties.RunMonotone | src/index.ts:951-976 | over any run of events, settled promises stay settled; without `destroy` the uncaught latch stays set, and without `destroy` or a timer the crash latch stays set |
| AgentProperties.ServerErrorReplyChangesNothing | src/transport.ts:91-99 | a collector reply of status 500 or more leaves the agent unchanged |
| AgentScenarios.GuardedTrackBugSendsNothing | src/index.ts:495-522 | a guarded `trackBug` settles its promise and sends nothing |
| AgentScenarios.ThrownTextIsWrapped | src/index.ts:1241-1248 | a thrown string is tracked as an exception whose stack opens with `Error: <text>` |
| AgentScenarios.TrackBugBeforeInitRejects | src/index.ts:495-500 | before `init`, `trackBug` rejects with `NOT_INITIATED` |
| AgentScenarios.TrackedMessageIsSent | src/index.ts:547-549 | a message bug with auto-submission and no filter is sent at once, and its promise waits on the reply |
| AgentScenarios.ManualSuccessResolvesBugReported | src/index.ts:612-672 | a successful reply without acknowledge resolves the promise with `BUG_REPORTED` |
| AgentScenarios.NoRetryCodeRejects | src/index.ts:700-704 | a no-retry code rejects the promise with the table's message and sends nothing more |
| AgentScenarios.KeywordCodeBeatsStatus | src/index.ts:682-704 | an invalid-key complaint is not resent, even with status 400 |
| AgentScenarios.FilteredPayloadIsSent | src/index.ts:871-877 | when every filter returns, what the last one returned is sent and its reply awaited for the same domain and callback |
| AgentScenarios.ClientErrorRejects | src/index.ts:722-733 | a status below 500 other than 400 fails with "too many requests" (429) or a server-config error, and sends nothing |
| AgentScenarios.UnknownFailureReportsCrash | src/index.ts:735-736 | a failure without a no-retry code and without a status below 500 is reported as an agent crash for the same callback |
| AgentScenarios.UserFilterResendOutcome | src/index.ts:1215-1233 | a successful diagnostic resend resolves with `USER_FILTER_ERROR`; a failed one never settles |
| AgentScenarios.CrashReportCallsBackTwice | src/index.ts:961-1012 | a failed crash report calls back with the error, then the timer calls back again with the timeout |
| AgentScenarios.FailedCrashSendCallsBack | src/index.ts:1003-1007 | a failed crash-report send calls back with the request error and leaves timers and sent attempts alone |
| AgentScenarios.CrashTimeoutCallsBack | src/index.ts:961-976 | an expiring crash timer of an unsent report calls back with the timeout error and finishes error handling |
| AgentScenarios.SecondUncaughtIgnored | src/index.ts:1122-1128 | with exit on, a second captured error is neither tracked nor submitted |
| AgentScenarios.AppendTwoAfterReset | src/index.ts:564-606 | two appends after a reset never trim while the limit leaves room |
| AgentScenarios.FilterThrowReportsOnlyTheFailure | src/index.ts:851-869 | a throwing filter sends a diagnostic report holding only the reset prefix, the failure message and the filter's exception |
| AgentScenarios.FilterFailedResends | src/index.ts:851-869 | the diagnostic report replaces the original bug and the callback waits on it |
| AgentScenarios.FilterFailedIsResend | src/index.ts:851-869 | with auto-submission, a filter failure is the user-filter resend of the failure state, titled by the exception |
| AgentScenarios.FilterFailureStateShape | src/index.ts:851-869 | the failure state changes only contexts, and the domain's timeline is the reset prefix, the failure message and the exception |
| AgentScenarios.AppendFourAfterReset | src/index.ts:564-606 | four appends after a reset never trim while the limit leaves room |
| AgentScenarios.SchemaDiagnosticsAfterReset | src/index.ts:707-720 | the rejection diagnostics land untrimmed behind the reset prefix |
| AgentScenarios.SchemaRejectionResends | src/index.ts:707-720 | a rejected payload is answered by a diagnostic report of the reset prefix and the diagnostics; the callback waits on it |

## Left out

- The `hostname` format check of the schema is a parameter `isHostname`: the format's grammar belongs to the validator library.
- `Buffer` values of `ca` are only checked for their type. Their contents play no part.
- `handleSubmissionErr` reads only the first complaint's keyword from the reasons. The rest of the collector's complaint list is passed through as data.
- The collector's anti-JSON-hijacking prefix strip and JSON parsing of the response body: the body arrives as a parsed `ResponseBody`.
- Timestamps of timeline items: `Date` is outside the model, and no decision depends on it.
- `getUserFromReq` and the `parseUser` option: the user taken from a request is the parameter `reqUser`, with its `userIp` key always present (src/index.ts:1289). Only `isTrackedUserValidObj` is modelled, for `setUser`.
- Payload.PrepareSubmissionPayload: does not model the console error that `getUserFromReq` tracks when it cannot parse the request's user (src/index.ts:903, 1302-1372). The source pushes it into the request context after choosing the timeline (src/index.ts:888-895). An untrimmed context shares its array with the report, so the report then ends with that console item, which sets the bug type (src/index.ts:909), and an overflowing push trims that array in place. The model reports the timeline as chosen, and `reqUser` yields only the parsed user.
- The events a run may contain are over-approximated: `CaptureError` is handled after `destroy` and with tracking off, though the source installs the uncaught-exception listener only on a tracking `init` (src/index.ts:196-211) and removes it in `destroy` (src/index.ts:238-240). A request domain created earlier keeps its listener, so such events cannot be ruled out by the state alone.
- `parseRequest` and the HTTP timeline item's contents beyond method, URL, request id and status.
- `trackingWrappers` instrumentation (console, http, std logs, custom loggers): it is outside this core, so `initTrackingOptions` models only the limits.
- Node domains, `wrap()` and `exitStackedDomains`: the active domain is an input `Domain` of each event. A request always opens a new request domain; the reuse of an already active request domain by a nested `wrap()` (src/index.ts:1256-1261) is not modelled.
- Environment variables and the `defaultsDeep` merge of defaults: the merged options are an input of `init`.
- The browser check in `init`: the agent is taken to run under Node.
- The text appended by `ajv.errorsText` to the invalid-options message.
- Keys of `Object.prototype` looked up in the no-retry table: only the table's own codes are modelled.
- `asyncLoop` re-entry after a late callback, and the difference between synchronous and asynchronous faults: a filter either returns data or throws.
- SHA-256 and `JSON.stringify`: parameters `sha256` and `stringify`.
- The call-site frames of the errors the agent constructs: parameter `errorFrames`.
- Console output: only its effect on the timeline is modelled.
- `process.exit`: an `ErrorHandled(exits)` output.
- `setTimeout` and `unref`: a `TimerArmed` output and a `TimerFired` event.
- AgentScenarios.CrashReportCallsBackTwice: freshness of request and timer numbers is not tracked as an invariant, so the lemma requires the new number to be unused.
- `errorHandler` called with a non-object error: the route error carries its status fields as optional numbers.
- `maxStacktraceFramesNo` while undefined: it is -1, which keeps the same (empty) set of stack lines as `slice(0, NaN)`.
- Strings are sequences of Unicode code points. The source's `substr(0, 255)` and `length` count UTF-16 code units, so a text with characters outside the Basic Multilingual Plane is cut at a different place, and the source can split a surrogate pair.
- The stack of an error the agent constructs depends on its name and message only: the model does not follow call sites.
- The response `end` handler calls back without setting `cbFired` (src/transport.ts:57-102), so a request `error` after a delivered response would call back a second time. The model consumes the continuation on the first reply.
- A collector reply whose `invalidBugPatchItemList` is an empty list makes the source throw a `TypeError` when it reads the first item's errors (src/transport.ts:75-76). The model reads the reasons from `firstItemErrors` and has no such fault.
- A reset that fails on a context without timeline leaves the context unchanged. In the source, it has already cleared the trim flag, but that flag is never set on such a context.

=== FILE: agent.dfy ===
/** The agent itself (the `Djaty` class of src/index.ts) as a state machine. Each public
    call, each reply of the transport and each expiring timer is an `Event`; `Step` gives
    the next state and what the agent does in response (`Output`): requests handed to the
    transport, timers armed, callbacks invoked, promises settled, errors thrown to the
    caller, and the process exit. Callbacks that the source passes to the transport or to
    `setTimeout` are kept in the state as continuations, keyed by a fresh number. */
module Agent {
  import opened Wrappers
  import opened Text
  import opened Types
  import opened Utils
  import opened Transport
  import opened TimelineBuffer
  import opened ContextStore
  import opened Payload
  import opened ConfigValidation

  const TIMELINE_MAX_LIMIT := 100
  const STACKTRACE_MAX_LIMIT := 100
  const DJATY_NOT_VALID_API_KEY := "djaty_isApiKeyValid"
  const NOT_INITIATED := "NOT_INITIATED"
  const SUBMISSION_ERR_PREFIX := "Bug cannot be submitted! Error: "
  const INVALID_OPTIONS_MSG := "Options are not valid. Bug tracking disabled! Errors: "
  const KEYS_MISSING_MSG := "Project keys are missing. Bug tracking disabled!"
  const TRACK_BUG_NOT_INITIATED_MSG := "trackBug(): Initiate Djaty first."
  const TRACK_BUG_INPUT_MSG := "trackBug(): Input should only be a String or an Error."
  const USER_FILTER_TITLE_PREFIX := "Djaty.onBeforeSubmission() caused an error: "
  const FILTER_UNCAUGHT_EXCEPTION_MSG :=
    "One of `onBeforeSubmission` callbacks has thrown an exception so the original bug that you "
    + "were filtering its data has not been submitted. Instead, A new bug has been created for "
    + "this exception with trimmed timeline (For privacy purposes)"
  const FILTER_STRUCTURE_EXCEPTION_MSG :=
    "Cannot submit bug! The changes made by the `onBeforeSubmission` callbacks are invalid as "
    + "they changes in the bug request payload structure so the original bug that you were "
    + "filtering its data has not been submitted. Instead, a new bug has been created for this "
    + "exception with trimmed timeline (For privacy purposes)"

  /** The `Error` the crash-report timer hands to its callback. */
  function CrashTimeoutError(frames: (string, string) -> string): ErrorObj {
    MadeError("Error", "`submitDjatyCrashReport` timed out! Current error is not tracked!", frames)
  }
  /** The `TypeError` of `exception!.msg` when no exception item was tracked. */
  function NoExceptionError(frames: (string, string) -> string): ErrorObj {
    MadeError("TypeError", "Cannot read property 'msg' of undefined", frames)
  }
  /** The `TypeError` of `currCtx.timeline[0]` when a context without timeline is reset. */
  function NoTimelineResetError(frames: (string, string) -> string): ErrorObj {
    MadeError("TypeError", "Cannot read property '0' of undefined", frames)
  }

  /** What `trackBug` was given. */
  datatype Bug = BugError(e: ErrorObj) | BugText(text: string) | BugOther

  /** Whom a submission reports back to: the promise of a `trackBug` call, a `captureError`
      attempt (whose timer watches it), or the agent's own crash handling. */
  datatype Callback = ManualCb(promise: nat) | CaptureCb(attempt: nat, d: Domain) | DomainErrorCb

  /** What a submission callback receives: an error, or an acknowledge that may be absent. */
  datatype CbResult = CbError(err: Thrown) | CbAck(ack: Option<Ack>)

  /** What happens when the transport replies to a request. */
  datatype Continuation =
    | AfterProcessSend(d: Domain, cb: Callback)
    | AfterUserFilterSend(cb: Callback)
    | AfterCrashSend(attempt: nat, cb: Callback)

  /** A pending `setTimeout`, keyed by the attempt it watches. */
  datatype Timer = CaptureTimer | CrashTimer(cb: Callback)

  datatype PromiseState = Pending | Resolved(ack: Ack) | Rejected(err: Thrown)

  datatype Output =
    | Sent(request: nat, data: AgentData, isReport: bool)
    | TimerArmed(timer: nat, ms: int)
    | Invoked(cb: Callback, result: CbResult)
    | Settled(promise: nat, state: PromiseState)
    | Raised(err: Thrown)
    | Responded(status: int)
    | ErrorHandled(exits: bool)

  /** The agent's fields. `maxTimelineItems` is undefined until an `init` with tracking on
      sets it. `maxFrames` is -1 until then: `slice(0, undefined + 1)` keeps no stack line,
      and so does `slice(0, -1 + 1)`. */
  datatype AgentState = AgentState(
    isInitiated: bool,
    options: Option<Options>,
    maxTimelineItems: Option<int>,
    maxFrames: int,
    store: Store,
    handlers: seq<nat>,
    customData: seq<Value>,
    uncaughtCaught: bool,
    crashCaught: bool,
    handlerInstalled: bool,
    inFlight: map<nat, Continuation>,
    timers: map<nat, Timer>,
    sentAttempts: set<nat>,
    promises: seq<PromiseState>,
    exited: bool,
    nextId: nat)

  /** The agent as loaded: not initiated, no options, empty contexts. */
  const InitialState := AgentState(false, None, None, -1, InitialStore, [], [], false, false, false,
                                   map[], map[], {}, [], false, 0)

  datatype Flow = Flow(s: AgentState, out: seq<Output>)

  datatype Event =
    | Init(config: Json, merged: Options)
    | Destroy(d: Domain)
    | InstallRequestHandler
    | InstallErrorHandler
    | RequestStarted(verb: string, url: string, reqId: Option<string>, remoteAddr: Option<string>)
    | TrackTimeline(d: Domain, item: TimelineItem)
    | AddHandler(d: Domain, f: Option<nat>)
    | AddContextHandler(d: Domain, f: Option<nat>)
    | AddGlobalCustomData(d: Domain, v: Value)
    | AddContextCustomData(d: Domain, v: Value)
    | SetUser(d: Domain, userId: JsValue, logon: JsValue)
    | TrackBug(d: Domain, bug: Bug)
    | CaptureError(d: Domain, err: Thrown, errType: string)
    | RouteError(d: Domain, status: Option<int>, statusCode: Option<int>, statusCodeNum: Option<int>, err: Thrown)
    | AgentCrash(failure: ErrorObj)
    | TransportReply(request: nat, reply: Reply)
    | TimerFired(timer: nat)

  /** How the internal flows may change the state: configuration and initiation untouched,
      both latches and the exit only ever set, no promise created and settled promises left
      as they are. */
  ghost predicate Evolves(s: AgentState, t: AgentState) {
    && t.isInitiated == s.isInitiated && t.options == s.options
    && t.handlers == s.handlers && t.customData == s.customData
    && (s.uncaughtCaught ==> t.uncaughtCaught)
    && (s.crashCaught ==> t.crashCaught)
    && (s.exited ==> t.exited)
    && s.nextId <= t.nextId
    && |t.promises| == |s.promises|
    && (forall p :: 0 <= p < |s.promises| && !s.promises[p].Pending? ==> t.promises[p] == s.promises[p])
  }

  /** Only the contexts changed. */
  ghost predicate StoreOnly(s: AgentState, t: AgentState) {
    t == s.(store := t.store)
  }

  lemma EvolvesAfterStore(s: AgentState, m: AgentState, t: AgentState)
    requires StoreOnly(s, m) && Evolves(m, t)
    ensures Evolves(s, t)
  {
  }

  lemma EvolvesTrans(s: AgentState, m: AgentState, t: AgentState)
    requires Evolves(s, m) && Evolves(m, t)
    ensures Evolves(s, t)
  {
  }

  /** No request is handed to the transport. */
  predicate NoSend(out: seq<Output>) {
    forall i :: 0 <= i < |out| ==> !out[i].Sent?
  }

  function Prepend(x: Output, f: Flow): (r: Flow)
    ensures r.s == f.s && r.out == [x] + f.out
  {
    Flow(f.s, [x] + f.out)
  }

  /** The limit `trackTimelineItem` compares the timeline with. While `maxTimelineItems` is
      undefined, `length > undefined - 1` is false whatever the length, so no append trims;
      a limit above the context's next length has the same effect. */
  function TimelineLimit(s: AgentState, d: Domain): (max: int)
    ensures s.maxTimelineItems.Some? ==> max == s.maxTimelineItems.value
    ensures s.maxTimelineItems.None? ==> |Live(GetContext(s.store, d))| + 1 <= max - 1
  {
    match s.maxTimelineItems
    case Some(m) => m
    case None => |Live(GetContext(s.store, d))| + 2
  }

  /** `trackTimelineItem`: nothing is recorded before initiation. */
  function TrackItem(s: AgentState, d: Domain, item: TimelineItem): (r: AgentState)
    ensures r == s.(store := r.store)
    ensures !s.isInitiated ==> r == s
    ensures s.isInitiated ==> r.store == Track(s.store, d, item, TimelineLimit(s, d))
  {
    if s.isInitiated then s.(store := Track(s.store, d, item, TimelineLimit(s, d))) else s
  }

  /** While the limit is undefined (after an `init` with tracking off), an untrimmed
      timeline only grows: the item is added at the end and nothing is trimmed. */
  lemma UnsetLimitNeverTrims(s: AgentState, d: Domain, item: TimelineItem)
    requires s.isInitiated && s.maxTimelineItems.None? && d != Foreign
    requires !GetContext(s.store, d).isTimelineTrimmed
    ensures var c := GetContext(TrackItem(s, d, item).store, d);
            && !c.isTimelineTrimmed
            && c.timeline == Some(Live(GetContext(s.store, d)) + [item])
  {
  }

  /** `trackStringErrorTimelineItem`: a hashed `console.error` item, titled by the rendered
      arguments. */
  function TrackStringError(s: AgentState, d: Domain, params: seq<Value>, env: Env): (r: (AgentState, CtxArgs))
    ensures r.0 == s.(store := r.0.store)
    ensures !s.isInitiated ==> r.0 == s
    ensures s.isInitiated ==>
              r.0.store == Track(s.store, d, ConsoleItem("error", params, Some(r.1.hash)), TimelineLimit(s, d))
    ensures r.1.hash == env.sha256(AGENT_ID + CONSOLE_TRACKER_NAME + env.stringify(params))
    ensures r.1 == TitledArgs(r.1.hash, env.stringify(params))
  {
    var item := FormatConsoleItem("error", params, env.sha256, env.stringify);
    (TrackItem(s, d, item), TitledArgs(item.consoleHash.value, env.stringify(params)))
  }

  /** `trackConsoleError`: the same item, titles discarded. */
  function TrackConsoleError(s: AgentState, d: Domain, params: seq<Value>, env: Env): (r: AgentState)
    ensures r == s.(store := r.store)
    ensures !s.isInitiated ==> r == s
    ensures s.isInitiated ==>
              r.store == Track(s.store, d, FormatConsoleItem("error", params, env.sha256, env.stringify), TimelineLimit(s, d))
  {
    TrackStringError(s, d, params, env).0
  }

  /** `trackExceptionItem`: nothing when auto-submission is off and the context has no
      request id; otherwise the parsed error (a non-error wrapped first) is tracked and
      returned. */
  function TrackException(s: AgentState, o: Options, d: Domain, t: Thrown, env: Env)
    : (r: (AgentState, Option<TimelineItem>))
    ensures r.0 == s.(store := r.0.store)
    ensures r.1.Some? <==> o.allowAutoSubmission || Truthy(GetContext(s.store, d).djatyReqId)
    ensures r.1.None? ==> r.0 == s
    ensures r.1.Some? ==> r.1.value.ExceptionItem?
    ensures r.1.Some? ==> r.1.value == ParseError(t.AsError(env.errorFrames), s.maxFrames, env.sha256)
    ensures r.1.Some? ==> r.0 == TrackItem(s, d, r.1.value)
  {
    if !o.allowAutoSubmission && !Truthy(GetContext(s.store, d).djatyReqId) then (s, None)
    else
      var exc := ParseError(t.AsError(env.errorFrames), s.maxFrames, env.sha256);
      (TrackItem(s, d, exc), Some(exc))
  }

  /** The titles of an exception bug: its message cut to 255 characters. */
  function ExceptionArgs(exc: TimelineItem): CtxArgs
    requires exc.ExceptionItem?
  {
    TitledArgs(exc.hash, exc.msg)
  }

  function Prepare(s: AgentState, o: Options, d: Domain, args: CtxArgs, env: Env): Result<AgentData, ErrorObj> {
    PrepareSubmissionPayload(s.store, s.customData, o, d, args, env.reqUser, env.host, env.errorFrames)
  }

  /** `transport.send(...)` with what to do on the reply. */
  function Send(s: AgentState, data: AgentData, isReport: bool, k: Continuation): (f: Flow)
    ensures Evolves(s, f.s)
    ensures f.out == [Sent(s.nextId, data, isReport)]
    ensures f.s == s.(nextId := s.nextId + 1, inFlight := s.inFlight[s.nextId := k])
  {
    Flow(s.(nextId := s.nextId + 1, inFlight := s.inFlight[s.nextId := k]), [Sent(s.nextId, data, isReport)])
  }

  /** `onAfterErrorHandled`: the process exits when configured to exit on uncaught
      exceptions. */
  function AfterHandled(s: AgentState, o: Options): (f: Flow)
    ensures Evolves(s, f.s)
    ensures f.s == s.(exited := s.exited || o.exitOnUncaughtExceptions)
    ensures f.out == [ErrorHandled(o.exitOnUncaughtExceptions)]
  {
    Flow(s.(exited := s.exited || o.exitOnUncaughtExceptions), [ErrorHandled(o.exitOnUncaughtExceptions)])
  }

  /** Resolving or rejecting a promise: only a pending one changes, as for a JavaScript
      promise. */
  function Settle(s: AgentState, p: nat, st: PromiseState): (f: Flow)
    ensures Evolves(s, f.s)
    ensures p < |s.promises| && s.promises[p].Pending? ==>
              f.s.promises == s.promises[p := st] && f.out == [Settled(p, st)]
    ensures !(p < |s.promises| && s.promises[p].Pending?) ==> f == Flow(s, [])
  {
    if p < |s.promises| && s.promises[p].Pending? then Flow(s.(promises := s.promises[p := st]), [Settled(p, st)])
    else Flow(s, [])
  }

  /** The callback of `processManualBug`: a temporary bug when auto-submission is off, the
      error as a rejection, the three special acknowledges passed through, and a report in
      every other case, an absent acknowledge included. */
  function ManualOutcome(o: Options, res: CbResult): (st: PromiseState)
    ensures !st.Pending?
    ensures !o.allowAutoSubmission ==> st == Resolved(FrontendLinkingTempBugReported)
    ensures o.allowAutoSubmission && res.CbError? ==> st == Rejected(res.err)
    ensures o.allowAutoSubmission && res.CbAck? ==>
              st.Resolved? && (st.ack == BugReported || res.ack == Some(st.ack))
    ensures o.allowAutoSubmission && res.CbAck? && res.ack.Some? ==>
              (st == Resolved(res.ack.value) <==> res.ack.value in {UserFilterError, CrashReportSent, CrashReportDisabled, BugReported})
  {
    if !o.allowAutoSubmission then Resolved(FrontendLinkingTempBugReported)
    else match res
      case CbError(e) => Rejected(e)
      case CbAck(ack) =>
        if ack == Some(UserFilterError) || ack == Some(CrashReportSent) || ack == Some(CrashReportDisabled) then
          Resolved(ack.value)
        else Resolved(BugReported)
  }

  /** The callback of `captureError`'s submission: when auto-submission is on the attempt
      is marked sent (disarming its timer) and a known agent error is logged to the
      timeline; error handling then finishes. */
  function CaptureDone(s: AgentState, o: Options, attempt: nat, d: Domain, res: CbResult, env: Env): (f: Flow)
    ensures Evolves(s, f.s)
    ensures f.out == [ErrorHandled(o.exitOnUncaughtExceptions)]
    ensures o.allowAutoSubmission ==> f.s.sentAttempts == s.sentAttempts + {attempt}
    ensures !o.allowAutoSubmission ==> f.s.sentAttempts == s.sentAttempts
  {
    if !o.allowAutoSubmission then AfterHandled(s, o)
    else
      var s1 := s.(sentAttempts := s.sentAttempts + {attempt});
      var s2 := if res.CbError? && res.err.DjatyErr? then TrackConsoleError(s1, d, [ThrownValue(res.err)], env) else s1;
      AfterHandled(s2, o)
  }

  /** Calling a submission callback. */
  function Invoke(s: AgentState, o: Options, cb: Callback, res: CbResult, env: Env): (f: Flow)
    ensures Evolves(s, f.s)
    ensures |f.out| >= 1 && f.out[0] == Invoked(cb, res) && NoSend(f.out)
    ensures cb.ManualCb? ==> f.s.exited == s.exited
  {
    match cb
    case ManualCb(p) => Prepend(Invoked(cb, res), Settle(s, p, ManualOutcome(o, res)))
    case CaptureCb(a, d) => Prepend(Invoked(cb, res), CaptureDone(s, o, a, d, res, env))
    case DomainErrorCb => Prepend(Invoked(cb, res), AfterHandled(s, o))
  }

  /** `submitDjatyCrashReport`: an immediate acknowledge when crash reports are disabled;
      when exiting on uncaught exceptions, nothing while another crash is being reported
      and otherwise the crash latch is set; then a watch timer is armed and the anonymous
      report is sent. */
  function SubmitCrashReport(s: AgentState, o: Options, err: Thrown, cb: Callback, env: Env): (f: Flow)
    ensures Evolves(s, f.s)
    ensures !o.reportDjatyCrashes ==> f == Invoke(s, o, cb, CbAck(Some(CrashReportDisabled)), env)
    ensures o.reportDjatyCrashes && o.exitOnUncaughtExceptions && s.crashCaught ==> f == Flow(s, [])
    ensures o.reportDjatyCrashes && !(o.exitOnUncaughtExceptions && s.crashCaught) ==>
              && f.out == [TimerArmed(s.nextId, o.submissionTimeout),
                           Sent(s.nextId + 1, CrashPayload(err.AsError(env.errorFrames), s.maxFrames, env.sha256, o.apiKey, env.host), true)]
              && f.s.timers == s.timers[s.nextId := CrashTimer(cb)]
              && f.s.inFlight == s.inFlight[s.nextId + 1 := AfterCrashSend(s.nextId, cb)]
              && f.s.crashCaught == (s.crashCaught || o.exitOnUncaughtExceptions)
              && f.s.store == s.store && f.s.exited == s.exited
  {
    if !o.reportDjatyCrashes then Invoke(s, o, cb, CbAck(Some(CrashReportDisabled)), env)
    else if o.exitOnUncaughtExceptions && s.crashCaught then Flow(s, [])
    else
      var s1 := s.(crashCaught := s.crashCaught || o.exitOnUncaughtExceptions);
      var a := s1.nextId;
      var s2 := s1.(nextId := a + 1, timers := s1.timers[a := CrashTimer(cb)]);
      var data := CrashPayload(err.AsError(env.errorFrames), s.maxFrames, env.sha256, o.apiKey, env.host);
      Prepend(TimerArmed(a, o.submissionTimeout), Send(s2, data, true, AfterCrashSend(a, cb)))
  }

  /** `onDjatyDomainError`: a failure inside the agent is reported as a crash; whatever
      the outcome, error handling then finishes. */
  function Fault(s: AgentState, o: Options, err: ErrorObj, env: Env): (f: Flow)
    ensures Evolves(s, f.s)
    ensures !o.reportDjatyCrashes ==>
              f.out == [Invoked(DomainErrorCb, CbAck(Some(CrashReportDisabled))), ErrorHandled(o.exitOnUncaughtExceptions)]
    ensures o.reportDjatyCrashes && o.exitOnUncaughtExceptions && s.crashCaught ==> f == Flow(s, [])
    ensures o.reportDjatyCrashes && !(o.exitOnUncaughtExceptions && s.crashCaught) ==>
              && |f.out| == 2 && f.out[0].TimerArmed? && f.out[1].Sent? && f.out[1].isReport
              && f.out[1].data == CrashPayload(err, s.maxFrames, env.sha256, o.apiKey, env.host)
  {
    SubmitCrashReport(s, o, ErrorThrown(err), DomainErrorCb, env)
  }

  /** The reset that precedes a diagnostic resend, or the fault it raises. */
  function ResetTimeline(s: AgentState, d: Domain): (r: Option<AgentState>)
    ensures r.None? <==> ResetFaults(GetContext(s.store, d))
    ensures r.Some? ==> r.value == s.(store := SetContext(s.store, d, Reset(GetContext(s.store, d), d.ReqWrap?)))
  {
    var ctx := GetContext(s.store, d);
    if ResetFaults(ctx) then None else Some(s.(store := SetContext(s.store, d, Reset(ctx, d.ReqWrap?))))
  }

  /** `sendUserFilterError`: a new report from the current context; on success the
      callback gets `USER_FILTER_ERROR`, on failure it is never called. */
  function SendUserFilterError(s: AgentState, o: Options, d: Domain, args: CtxArgs, cb: Callback, env: Env): (f: Flow)
    ensures Evolves(s, f.s)
    ensures ChosenTimeline(s.store, d).None? || ChosenTimeline(s.store, d).value == [] ==>
              f == Fault(s, o, NoTimelineError(env.errorFrames), env)
    ensures ChosenTimeline(s.store, d).Some? && ChosenTimeline(s.store, d).value != [] ==>
              && |f.out| == 1 && f.out[0].Sent? && f.out[0].request == s.nextId && !f.out[0].isReport
              && |f.out[0].data.batch| == 1 && f.out[0].data.batch[0].timeline == ChosenTimeline(s.store, d).value
              && f.out[0].data.batch[0].shortTitle == args.shortTitle
              && f.s.inFlight == s.inFlight[s.nextId := AfterUserFilterSend(cb)]
  {
    match Prepare(s, o, d, args, env)
    case Err(e) => Fault(s, o, e, env)
    case Ok(data) => Send(s, data, false, AfterUserFilterSend(cb))
  }

  /** The `doneCb` of `process` when a user filter threw: the context is reset for
      privacy, the filter failure is logged and tracked as an exception, and that exception
      is reported instead of the original bug. */
  function FilterFailed(s: AgentState, o: Options, d: Domain, e: Thrown, cb: Callback, env: Env): (f: Flow)
    ensures Evolves(s, f.s)
  {
    match ResetTimeline(s, d)
    case None => Fault(s, o, NoTimelineResetError(env.errorFrames), env)
    case Some(s1) =>
      var s2 := TrackConsoleError(s1, d, [Text(FILTER_UNCAUGHT_EXCEPTION_MSG)], env);
      var (s3, exc) := TrackException(s2, o, d, e, env);
      assert StoreOnly(s, s3);
      var f := if exc.None? then Fault(s3, o, NoExceptionError(env.errorFrames), env)
               else SendUserFilterError(s3, o, d, ExceptionArgs(exc.value), cb, env);
      EvolvesAfterStore(s, s3, f.s);
      f
  }

  /** The user filters with the given identifiers, as functions of the payload. */
  function Filters(ids: seq<nat>, env: Env): (fs: seq<AgentData -> Result<AgentData, Thrown>>)
    ensures |fs| == |ids|
    ensures forall i :: 0 <= i < |fs| ==> fs[i] == env.filter(ids[i])
  {
    if |ids| == 0 then [] else [env.filter(ids[0])] + Filters(ids[1..], env)
  }

  /** `process`: the payload passes through the global then the context's filters; what
      comes out is sent, and a throwing filter diverts to `FilterFailed`. */
  function Process(s: AgentState, o: Options, d: Domain, data: AgentData, cb: Callback, env: Env): (f: Flow)
    ensures Evolves(s, f.s)
  {
    match AsyncLoop(Filters(FilterList(s.handlers, s.store, d), env), data)
    case Ok(filtered) => Send(s, filtered, false, AfterProcessSend(d, cb))
    case Err(e) => FilterFailed(s, o, d, e, cb, env)
  }

  /** The code `handleSubmissionErr` looks up: the error's own, else the keyword of the
      first complaint of the collector. */
  function EffectiveCode(err: RequestError): (c: Option<string>)
    ensures Truthy(err.code) ==> c == err.code
    ensures (!Truthy(err.code) && err.reasons.ReasonList? && |err.reasons.items| > 0
             && Truthy(err.reasons.items[0].keyword)) ==> c == err.reasons.items[0].keyword
  {
    if Truthy(err.code) then err.code
    else match err.reasons
      case ReasonList(items) => if |items| > 0 && Truthy(items[0].keyword) then items[0].keyword else err.code
      case _ => err.code
  }

  /** The no-retry table: the message for each code after which nothing is retried. */
  const NO_RETRY_MESSAGES: map<string, string> := map[
    DJATY_NOT_VALID_API_KEY := "`apiKey` or `apiSecret` is invalid",
    DJATY_NOT_SUPPORTED_REDIRECTION := "Redirection is not supported!",
    "EPROTO" := "Please make sure that the connection to the proxy and Djaty servers are both the same, "
                + "secured or not. Mixed state will never work!",
    "UNABLE_TO_VERIFY_LEAF_SIGNATURE" :=
      "Current connection to Djaty is secured with a self-signed certificate but the current "
      + "config has not passed the `server` object with a `ca` (Certification Authority) property!",
    "CERT_HAS_EXPIRED" := "The certificate  of the HTTPS connection to djaty has been expired!",
    "ECONNREFUSED" := "Make sure `server` config is correct.",
    "ENOTFOUND" := "Make sure `server` config is correct."]

  /** The message of the no-retry table, for the codes that have one: exactly the seven
      codes of the table, none of them a code the transport retries; a refused or unknown
      host both point at the `server` configuration. */
  function NoRetryMessage(code: Option<string>): (m: Option<string>)
    ensures m.Some? <==> (code.Some? && code.value in
                           {DJATY_NOT_VALID_API_KEY, DJATY_NOT_SUPPORTED_REDIRECTION, "EPROTO",
                            "UNABLE_TO_VERIFY_LEAF_SIGNATURE", "CERT_HAS_EXPIRED", "ECONNREFUSED", "ENOTFOUND"})
    ensures code.Some? && code.value in SERVER_ERR_RETRY_CODES ==> m.None?
    ensures code == Some("ECONNREFUSED") || code == Some("ENOTFOUND") ==>
              m == Some("Make sure `server` config is correct.")
    ensures code == Some(DJATY_NOT_VALID_API_KEY) ==> m == Some("`apiKey` or `apiSecret` is invalid")
    ensures code == Some(DJATY_NOT_SUPPORTED_REDIRECTION) ==> m == Some("Redirection is not supported!")
  {
    if code.Some? && code.value in NO_RETRY_MESSAGES then Some(NO_RETRY_MESSAGES[code.value]) else None
  }

  /** How `handleSubmissionErr` treats a failed submission, in the order it tests. */
  datatype SubmissionErrKind = NoRetry(message: string) | SchemaRejected | TooManyRequests | ConfigError | UnknownFailure

  /** The classification: the no-retry table first (by the effective code), then the
      statuses 400 and 429, then any other truthy status below 500; everything else is an
      unknown failure. */
  function ClassifySubmissionErr(err: RequestError): (k: SubmissionErrKind)
    ensures k.NoRetry? <==> NoRetryMessage(EffectiveCode(err)).Some?
    ensures k.NoRetry? ==> k.message == NoRetryMessage(EffectiveCode(err)).value
    ensures !k.NoRetry? ==>
              && (k == SchemaRejected <==> err.statusCode == Some(400))
              && (k == TooManyRequests <==> err.statusCode == Some(429))
              && (k == UnknownFailure <==> err.statusCode.None? || err.statusCode.value == 0 || err.statusCode.value >= 500)
  {
    match NoRetryMessage(EffectiveCode(err))
    case Some(m) => NoRetry(m)
    case None =>
      match err.statusCode
      case None => UnknownFailure
      case Some(n) =>
        if n == 400 then SchemaRejected
        else if n == 429 then TooManyRequests
        else if n != 0 && n < 500 then ConfigError
        else UnknownFailure
  }

  /** The `DjatyError` a known submission failure is reported with. */
  function SubmissionError(message: string): Thrown {
    DjatyErr(SUBMISSION_ERR_PREFIX + message, None)
  }

  /** The 400 branch of `handleSubmissionErr`: reset the context, log the diagnostics,
      then report a bug titled by the rejection. */
  function SchemaRejectedResend(s: AgentState, o: Options, err: RequestError, d: Domain, cb: Callback, env: Env)
    : (f: Flow)
    ensures Evolves(s, f.s)
  {
    match ResetTimeline(s, d)
    case None => Fault(s, o, NoTimelineResetError(env.errorFrames), env)
    case Some(s1) =>
      var (s5, args) := TrackSchemaDiagnostics(s1, err, d, env);
      assert StoreOnly(s, s5);
      var f := SendUserFilterError(s5, o, d, args, cb, env);
      EvolvesAfterStore(s, s5, f.s);
      f
  }

  /** The diagnostics of a rejected payload: the filter-structure message, the collector's
      message and reasons, the rejected body, and the message the report is titled by. */
  function TrackSchemaDiagnostics(s: AgentState, err: RequestError, d: Domain, env: Env): (r: (AgentState, CtxArgs))
    ensures StoreOnly(s, r.0)
  {
    var s2 := TrackConsoleError(s, d, [Text(FILTER_STRUCTURE_EXCEPTION_MSG)], env);
    var s3 := TrackConsoleError(s2, d, [Text(err.message + "."), Text("Reasons: "), ReasonsValue(err.reasons)], env);
    var s4 := TrackConsoleError(s3, d, [Text("The corrupted payload"), BodyValue(err.reqBody)], env);
    TrackStringError(s4, d, [Text(USER_FILTER_TITLE_PREFIX + err.message)], env)
  }

  /** `handleSubmissionErr`. */
  function HandleSubmissionErr(s: AgentState, o: Options, err: RequestError, d: Domain, cb: Callback, env: Env)
    : (f: Flow)
    ensures Evolves(s, f.s)
  {
    match ClassifySubmissionErr(err)
    case NoRetry(m) => Invoke(s, o, cb, CbError(SubmissionError(m)), env)
    case SchemaRejected => SchemaRejectedResend(s, o, err, d, cb, env)
    case TooManyRequests => Invoke(s, o, cb, CbError(SubmissionError("Too many requests!")), env)
    case ConfigError => Invoke(s, o, cb, CbError(SubmissionError("Make sure `server` config is correct.")), env)
    case UnknownFailure => SubmitCrashReport(s, o, RequestFailure(err), cb, env)
  }

  /** Building the payload of a tracked bug and submitting it, or the fault of an empty
      timeline. */
  function Submit(s: AgentState, o: Options, d: Domain, args: CtxArgs, cb: Callback, env: Env): (f: Flow)
    ensures Evolves(s, f.s)
  {
    match Prepare(s, o, d, args, env)
    case Err(e) => Fault(s, o, e, env)
    case Ok(data) => Process(s, o, d, data, cb, env)
  }

  /** `captureError`: errors in a foreign domain only finish error handling; the agent's
      own errors are logged, not reported; when exiting on uncaught exceptions only the
      first error is handled; otherwise a watch timer is armed and the error is tracked and
      submitted. */
  function Capture(s: AgentState, o: Options, d: Domain, t: Thrown, errType: string, env: Env): (f: Flow)
    ensures Evolves(s, f.s)
    ensures d == Foreign ==> f == AfterHandled(s, o)
    ensures d != Foreign && t.DjatyErr? ==> f.out == [] && f.s == s.(store := f.s.store)
    ensures d != Foreign && !t.DjatyErr? && o.exitOnUncaughtExceptions && s.uncaughtCaught ==> f == Flow(s, [])
    ensures d != Foreign && !t.DjatyErr? && !(o.exitOnUncaughtExceptions && s.uncaughtCaught) ==>
              |f.out| >= 1 && f.out[0] == TimerArmed(s.nextId, o.submissionTimeout)
    ensures d != Foreign && !t.DjatyErr? && o.exitOnUncaughtExceptions ==> f.s.uncaughtCaught
  {
    if d == Foreign then AfterHandled(s, o)
    else if t.DjatyErr? then Flow(TrackConsoleError(s, d, [Text(errType + ":"), ThrownValue(t)], env), [])
    else if o.exitOnUncaughtExceptions && s.uncaughtCaught then Flow(s, [])
    else
      var a := s.nextId;
      var s2 := s.(uncaughtCaught := s.uncaughtCaught || o.exitOnUncaughtExceptions,
                   nextId := a + 1, timers := s.timers[a := CaptureTimer]);
      var (s3, exc) := TrackException(s2, o, d, t, env);
      var g := if exc.None? then Fault(s3, o, NoExceptionError(env.errorFrames), env)
               else Submit(s3, o, d, ExceptionArgs(exc.value), CaptureCb(a, d), env);
      EvolvesAfterStore(s2, s3, g.s);
      EvolvesTrans(s, s2, g.s);
      Prepend(TimerArmed(a, o.submissionTimeout), g)
  }

  /** The guards of `trackBug`, in order: the settlement they force, or nothing when the
      bug goes on to be submitted. */
  function TrackBugGuard(s: AgentState, d: Domain, bug: Bug): (g: Option<PromiseState>)
    ensures !s.isInitiated ==> g == Some(Rejected(DjatyErr(TRACK_BUG_NOT_INITIATED_MSG, Some(NOT_INITIATED))))
    ensures s.isInitiated && s.options.Some? ==>
              var o := s.options.value;
              && (!o.djatyIsTracking ==> g == Some(Resolved(SkippedTrackingDisabled)))
              && (o.djatyIsTracking && d == Foreign ==> g == Some(Resolved(SkippedNestedUserDomain)))
              && ((o.djatyIsTracking && d != Foreign && !o.allowAutoSubmission
                   && !Truthy(GetContext(s.store, d).djatyReqId)) ==> g == Some(Resolved(SkippedExtensionNotDetected)))
              && (o.djatyIsTracking && d != Foreign
                  && (o.allowAutoSubmission || Truthy(GetContext(s.store, d).djatyReqId)) ==>
                    (g.None? <==> !bug.BugOther?)
                    && (bug.BugOther? ==> g == Some(Rejected(DjatyErr(TRACK_BUG_INPUT_MSG, None)))))
    ensures g.Some? ==> !g.value.Pending?
    ensures g.None? ==> s.options.Some? && !bug.BugOther?
                        && (s.options.value.allowAutoSubmission || Truthy(GetContext(s.store, d).djatyReqId))
  {
    if !s.isInitiated then Some(Rejected(DjatyErr(TRACK_BUG_NOT_INITIATED_MSG, Some(NOT_INITIATED))))
    else match s.options
      case None => Some(Rejected(DjatyErr(TRACK_BUG_NOT_INITIATED_MSG, Some(NOT_INITIATED))))
      case Some(o) =>
        if !o.djatyIsTracking then Some(Resolved(SkippedTrackingDisabled))
        else if d == Foreign then Some(Resolved(SkippedNestedUserDomain))
        else if !o.allowAutoSubmission && !Truthy(GetContext(s.store, d).djatyReqId) then
          Some(Resolved(SkippedExtensionNotDetected))
        else if bug.BugOther? then Some(Rejected(DjatyErr(TRACK_BUG_INPUT_MSG, None)))
        else None
  }

  /** What `trackBug` records before submitting: the exception item of an error, or the
      `console.error` item of a message, with the titles of the bug. */
  function TrackManualBug(s: AgentState, o: Options, d: Domain, bug: Bug, env: Env): (r: (AgentState, CtxArgs))
    requires !bug.BugOther? && (o.allowAutoSubmission || Truthy(GetContext(s.store, d).djatyReqId))
    ensures StoreOnly(s, r.0)
  {
    match bug
    case BugText(text) => TrackStringError(s, d, [Text(text)], env)
    case BugError(e) =>
      var (s2, exc) := TrackException(s, o, d, ErrorThrown(e), env);
      (s2, ExceptionArgs(exc.value))
  }

  /** `trackBug(bug)`: a new promise, settled at once when a guard applies and otherwise by
      the submission of the tracked bug. */
  function OnTrackBug(s: AgentState, d: Domain, bug: Bug, env: Env): (f: Flow)
    ensures |f.s.promises| == |s.promises| + 1
    ensures TrackBugGuard(s, d, bug).Some? ==>
              f.s.promises[|s.promises|] == TrackBugGuard(s, d, bug).value
              && f.out == [Settled(|s.promises|, TrackBugGuard(s, d, bug).value)]
  {
    var p := |s.promises|;
    var s1 := s.(promises := s.promises + [Pending]);
    match TrackBugGuard(s, d, bug)
    case Some(st) => Settle(s1, p, st)
    case None =>
      var o := s.options.value;
      var (s2, args) := TrackManualBug(s1, o, d, bug, env);
      var f := Submit(s2, o, d, args, ManualCb(p), env);
      EvolvesAfterStore(s1, s2, f.s);
      f
  }

  /** `Math.min` of the configured limits and the hard maximums. */
  function TrackingLimits(timelineLimit: int, stacktraceLimit: int): (r: (int, int))
    ensures r.0 <= TIMELINE_MAX_LIMIT && r.1 <= STACKTRACE_MAX_LIMIT
    ensures r.0 == timelineLimit || r.0 == TIMELINE_MAX_LIMIT
    ensures r.1 == stacktraceLimit || r.1 == STACKTRACE_MAX_LIMIT
    ensures timelineLimit <= TIMELINE_MAX_LIMIT ==> r.0 == timelineLimit
    ensures stacktraceLimit <= STACKTRACE_MAX_LIMIT ==> r.1 == stacktraceLimit
  {
    (if timelineLimit < TIMELINE_MAX_LIMIT then timelineLimit else TIMELINE_MAX_LIMIT,
     if stacktraceLimit < STACKTRACE_MAX_LIMIT then stacktraceLimit else STACKTRACE_MAX_LIMIT)
  }

  /** `init(options)`: `config` is what the user passed (after the environment defaults)
      and `o` the options merged with the agent's defaults. */
  function OnInit(s: AgentState, config: Json, o: Options, env: Env): (f: Flow)
    ensures s.isInitiated ==> f == Flow(s, [])
    ensures f.s == s.(isInitiated := f.s.isInitiated, options := f.s.options, maxTimelineItems := f.s.maxTimelineItems,
                      maxFrames := f.s.maxFrames, store := f.s.store, handlers := f.s.handlers)
    ensures !s.isInitiated && !ValidUserConfig(config, env.isHostname) ==>
              f == Flow(s, [Raised(DjatyErr(INVALID_OPTIONS_MSG, None))])
    ensures f.s.isInitiated <==>
              s.isInitiated || (ValidUserConfig(config, env.isHostname) && Truthy(o.apiKey) && Truthy(o.apiSecret))
    ensures !s.isInitiated && f.s.isInitiated && o.djatyIsTracking ==>
              && f.s.maxTimelineItems == Some(TrackingLimits(o.timelineLimit, o.stacktraceLimit).0)
              && f.s.maxFrames == TrackingLimits(o.timelineLimit, o.stacktraceLimit).1
              && f.s.store.global.tags == Some(o.tags) && f.s.store.global.stage == o.stage
  {
    if s.isInitiated then Flow(s, [])
    else if !ValidUserConfig(config, env.isHostname) then Flow(s, [Raised(DjatyErr(INVALID_OPTIONS_MSG, None))])
    else
      var s1 := s.(options := Some(o));
      if !Truthy(o.apiKey) || !Truthy(o.apiSecret) then Flow(s1, [Raised(DjatyErr(KEYS_MISSING_MSG, None))])
      else
        var s2 := s1.(isInitiated := true);
        if !o.djatyIsTracking then Flow(s2, [])
        else
          var limits := TrackingLimits(o.timelineLimit, o.stacktraceLimit);
          var g := s2.store.global.(tags := Some(o.tags), stage := o.stage);
          var s3 := s2.(store := s2.store.(global := g), maxTimelineItems := Some(limits.0), maxFrames := limits.1);
          match o.onBeforeBugSubmission
          case None => Flow(s3, [])
          case Some(h) => Flow(s3.(handlers := s3.handlers + [h]), [])
  }

  /** An `init` with tracking off returns before the limits are set: they stay as they
      were, undefined for a freshly loaded agent. */
  lemma InitWithoutTrackingLeavesLimits(s: AgentState, config: Json, o: Options, env: Env)
    requires !o.djatyIsTracking
    ensures OnInit(s, config, o, env).s.maxTimelineItems == s.maxTimelineItems
    ensures OnInit(s, config, o, env).s.maxFrames == s.maxFrames
    ensures OnInit(InitialState, config, o, env).s.maxTimelineItems.None?
  {
  }

  /** `destroy()`: back to not initiated, with no filters, custom data or latches; the
      active domain's context is emptied. Options and pending work are left alone. */
  function OnDestroy(s: AgentState, d: Domain): (f: Flow)
    ensures !s.isInitiated ==> f == Flow(s, [])
    ensures f.s == s.(isInitiated := f.s.isInitiated, handlers := f.s.handlers, customData := f.s.customData,
                      uncaughtCaught := f.s.uncaughtCaught, crashCaught := f.s.crashCaught,
                      handlerInstalled := f.s.handlerInstalled, store := f.s.store)
    ensures s.isInitiated ==>
              && !f.s.isInitiated && f.s.handlers == [] && f.s.customData == []
              && !f.s.uncaughtCaught && !f.s.crashCaught && !f.s.handlerInstalled
              && (d != Foreign ==> GetContext(f.s.store, d) == EmptyContext)
              && f.s.options == s.options && f.s.inFlight == s.inFlight && f.s.timers == s.timers
  {
    if !s.isInitiated then Flow(s, [])
    else Flow(s.(isInitiated := false, handlers := [], customData := [], uncaughtCaught := false,
                 crashCaught := false, handlerInstalled := false,
                 store := SetContext(s.store, d, EmptyContext)), [])
  }

  /** The request-handler middleware for one request: skipped when tracking is disabled,
      answered with 502 while an uncaught exception is being handled before exit, and
      otherwise run in a new request domain whose context gets the request id and the
      request item. */
  function OnRequest(s: AgentState, verb: string, url: string, reqId: Option<string>, remoteAddr: Option<string>)
    : (f: Flow)
    ensures s.options.None? || !s.options.value.djatyIsTracking ==> f == Flow(s, [])
    ensures (s.options.Some? && s.options.value.djatyIsTracking
             && s.options.value.exitOnUncaughtExceptions && s.uncaughtCaught) ==> f == Flow(s, [Responded(502)])
    ensures s.options.Some? && s.options.value.djatyIsTracking
            && !(s.options.value.exitOnUncaughtExceptions && s.uncaughtCaught) ==>
              && f.out == [] && f.s.nextId == s.nextId + 1
              && GetContext(f.s.store, ReqWrap(s.nextId)).djatyReqId == reqId
  {
    match s.options
    case None => Flow(s, [])
    case Some(o) =>
      if !o.djatyIsTracking then Flow(s, [])
      else if o.exitOnUncaughtExceptions && s.uncaughtCaught then Flow(s, [Responded(502)])
      else
        var d := ReqWrap(s.nextId);
        var s1 := s.(nextId := s.nextId + 1);
        var ctx := GetContext(s1.store, d).(djatyReqId := reqId);
        var s2 := s1.(store := SetContext(s1.store, d, ctx));
        Flow(TrackItem(s2, d, HttpReqItem(verb, url, reqId, remoteAddr)), [])
  }

  /** What was passed to `setUser`: always an object with both keys. */
  datatype UserArg = NotAnObject | UserObj(userId: JsValue, logon: JsValue)

  predicate StringOrNumber(v: JsValue) {
    v.Str? || v.Num?
  }

  /** `isTrackedUserValidObj`: the console message of the first failed check, or nothing
      when the user is accepted. */
  function CheckTrackedUser(u: UserArg): (m: Option<string>)
    ensures m.None? <==> u.UserObj? && (u.userId.IsTruthy() || u.logon.IsTruthy())
                         && (StringOrNumber(u.userId) || StringOrNumber(u.logon))
  {
    match u
    case NotAnObject => Some("Cannot parse the user. User must be an object.")
    case UserObj(userId, logon) =>
      if !userId.IsTruthy() && !logon.IsTruthy() then
        Some("We cannot parse the user. User object there has no `logon` or `userId` properties.")
      else if !StringOrNumber(userId) && !StringOrNumber(logon) then
        Some("`user.userId` and `user.logon` are not String or Number")
      else None
  }

  /** `setUser({userId, logon})`: an accepted user replaces the context's; a rejected one is
      logged to the timeline. */
  function OnSetUser(s: AgentState, d: Domain, userId: JsValue, logon: JsValue, env: Env): (f: Flow)
    ensures f.out == [] && f.s == s.(store := f.s.store)
    ensures s.isInitiated && s.options.Some? && s.options.value.djatyIsTracking && d != Foreign
            && CheckTrackedUser(UserObj(userId, logon)).None? ==>
              GetContext(f.s.store, d).user == User(Has(userId), Has(logon), Missing)
  {
    if !s.isInitiated then Flow(TrackConsoleError(s, d, [Text("setUser(): Initiate Djaty first.")], env), [])
    else match s.options
      case None => Flow(s, [])
      case Some(o) =>
        if !o.djatyIsTracking then Flow(s, [])
        else match CheckTrackedUser(UserObj(userId, logon))
          case Some(m) => Flow(TrackConsoleError(s, d, [Text(m)], env), [])
          case None =>
            var ctx := GetContext(s.store, d).(user := User(Has(userId), Has(logon), Missing));
            Flow(s.(store := SetContext(s.store, d, ctx)), [])
  }

  /** The adders share one shape: a console error before initiation, nothing when tracking
      is disabled, a console error for a filter that is not a function, else the update. */
  function Guarded(s: AgentState, d: Domain, notInitiatedMsg: string, updated: AgentState, env: Env): Flow {
    if !s.isInitiated then Flow(TrackConsoleError(s, d, [Text(notInitiatedMsg)], env), [])
    else match s.options
      case None => Flow(s, [])
      case Some(o) => if !o.djatyIsTracking then Flow(s, []) else Flow(updated, [])
  }

  function AddFilter(s: AgentState, d: Domain, f: Option<nat>, contextual: bool, env: Env): (r: AgentState)
    ensures r == s.(handlers := r.handlers, store := r.store)
    ensures f.Some? && !contextual ==> r == s.(handlers := s.handlers + [f.value])
    ensures f.Some? && contextual && d != Foreign ==>
              GetContext(r.store, d).handlers == GetContext(s.store, d).handlers + [f.value]
  {
    match f
    case None =>
      var msg := if contextual then "addBeforeSubmissionContextHandler(): Ensure \"cb\" parameter is a function"
                 else "addBeforeSubmissionHandler(): Ensure \"cb\" parameter is a function";
      TrackConsoleError(s, d, [Text(msg)], env)
    case Some(h) =>
      if !contextual then s.(handlers := s.handlers + [h])
      else
        var ctx := GetContext(s.store, d);
        s.(store := SetContext(s.store, d, ctx.(handlers := ctx.handlers + [h])))
  }

  function AddCustomData(s: AgentState, d: Domain, v: Value, contextual: bool): (r: AgentState)
    ensures r == s.(customData := r.customData, store := r.store)
    ensures !contextual ==> r == s.(customData := s.customData + [v])
    ensures contextual && d != Foreign ==>
              GetContext(r.store, d).customData == GetContext(s.store, d).customData + [v]
  {
    if !contextual then s.(customData := s.customData + [v])
    else
      var ctx := GetContext(s.store, d);
      s.(store := SetContext(s.store, d, ctx.(customData := ctx.customData + [v])))
  }

  /** The status the error-handler middleware answers with: `err.status`, else
      `err.statusCode`, else `Number(err.status_code)` (absent when it is not a number),
      else 500; zero counts as absent. */
  function ErrorStatus(status: Option<int>, statusCode: Option<int>, statusCodeNum: Option<int>): (r: int)
    ensures r != 0
    ensures r == 500 || Some(r) == status || Some(r) == statusCode || Some(r) == statusCodeNum
    ensures NonZero(status) ==> r == status.value
    ensures !NonZero(status) && NonZero(statusCode) ==> r == statusCode.value
    ensures !NonZero(status) && !NonZero(statusCode) && NonZero(statusCodeNum) ==> r == statusCodeNum.value
    ensures !NonZero(status) && !NonZero(statusCode) && !NonZero(statusCodeNum) ==> r == 500
  {
    if NonZero(status) then status.value
    else if NonZero(statusCode) then statusCode.value
    else if NonZero(statusCodeNum) then statusCodeNum.value
    else 500
  }

  /** A numeric property that is defined and truthy (not zero). */
  predicate NonZero(x: Option<int>) {
    x.Some? && x.value != 0
  }

  /** The error-handler middleware for one error: it answers with the computed status and
      captures the error only when tracking and the status is 500 or more. */
  function OnRouteError(s: AgentState, d: Domain, status: int, err: Thrown, env: Env): (f: Flow)
    ensures Evolves(s, f.s)
    ensures |f.out| >= 1 && f.out[0] == Responded(status)
    ensures status < 500 ==> f == Flow(s, [Responded(status)])
  {
    match s.options
    case None => Flow(s, [Responded(status)])
    case Some(o) =>
      if !o.djatyIsTracking || status < 500 then Flow(s, [Responded(status)])
      else Prepend(Responded(status), Capture(s, o, d, err, "uncaughtException", env))
  }

  /** The transport's answer to one request: the stored continuation runs once and is
      forgotten. A reply that never calls back changes nothing. */
  function OnReply(s: AgentState, req: nat, reply: Reply, env: Env): (f: Flow)
    ensures reply.NoCallback? || req !in s.inFlight ==> f == Flow(s, [])
  {
    if reply.NoCallback? || req !in s.inFlight then Flow(s, [])
    else match s.options
      case None => Flow(s, [])
      case Some(o) =>
        var s1 := s.(inFlight := s.inFlight - {req});
        match s.inFlight[req]
        case AfterProcessSend(d, cb) =>
          if reply.err.None? then Invoke(s1, o, cb, CbAck(None), env)
          else HandleSubmissionErr(s1, o, reply.err.value, d, cb, env)
        case AfterUserFilterSend(cb) =>
          if reply.err.None? then Invoke(s1, o, cb, CbAck(Some(UserFilterError)), env)
          else Flow(s1, [])
        case AfterCrashSend(a, cb) =>
          if reply.err.Some? then Invoke(s1, o, cb, CbError(RequestFailure(reply.err.value)), env)
          else Invoke(s1.(sentAttempts := s1.sentAttempts + {a}), o, cb, CbAck(Some(CrashReportSent)), env)
  }

  /** An expiring watch timer: nothing when its attempt was sent; otherwise a capture
      finishes error handling, and a crash report clears the crash latch and calls back
      with the timeout error. */
  function OnTimer(s: AgentState, t: nat, env: Env): (f: Flow)
    ensures t !in s.timers ==> f == Flow(s, [])
    ensures t in s.timers && t in s.sentAttempts ==> f == Flow(s.(timers := s.timers - {t}), [])
  {
    if t !in s.timers then Flow(s, [])
    else
      var s1 := s.(timers := s.timers - {t});
      if t in s.sentAttempts then Flow(s1, [])
      else match s.options
        case None => Flow(s1, [])
        case Some(o) =>
          match s.timers[t]
          case CaptureTimer => AfterHandled(s1, o)
          case CrashTimer(cb) => Invoke(s1.(crashCaught := false), o, cb, CbError(ErrorThrown(CrashTimeoutError(env.errorFrames))), env)
  }

  /** The setup events: `init`, `destroy` and installing the two middlewares. */
  function OnSetupEvent(s: AgentState, e: Event, env: Env): (f: Flow)
    requires e.Init? || e.Destroy? || e.InstallRequestHandler? || e.InstallErrorHandler?
    ensures f.s.promises == s.promises
    ensures !e.Destroy? ==> f.s.uncaughtCaught == s.uncaughtCaught && f.s.crashCaught == s.crashCaught
    ensures e.InstallRequestHandler? ==>
              && f.s == s.(handlerInstalled := f.s.handlerInstalled)
              && (s.isInitiated ==> f.s.handlerInstalled && f.out == [])
              && (!s.isInitiated ==> f == Flow(s, [Raised(DjatyErr("requestHandler(): Djaty is not initiated.", None))]))
    ensures e.InstallErrorHandler? ==> f.s == s && (f.out != [] <==> !s.isInitiated || !s.handlerInstalled)
    ensures e.InstallErrorHandler? && !s.isInitiated ==>
              f.out == [Raised(DjatyErr("errorHandler(): Djaty is not initiated.", None))]
    ensures e.InstallErrorHandler? && s.isInitiated && !s.handlerInstalled ==>
              f.out == [Raised(DjatyErr("Ensure Djaty.requestHandler is installed.", None))]
  {
    if e.Init? then OnInit(s, e.config, e.merged, env)
    else if e.Destroy? then OnDestroy(s, e.d)
    else if e.InstallRequestHandler? then
      if !s.isInitiated then Flow(s, [Raised(DjatyErr("requestHandler(): Djaty is not initiated.", None))])
      else Flow(s.(handlerInstalled := true), [])
    else if !s.isInitiated then Flow(s, [Raised(DjatyErr("errorHandler(): Djaty is not initiated.", None))])
    else if !s.handlerInstalled then Flow(s, [Raised(DjatyErr("Ensure Djaty.requestHandler is installed.", None))])
    else Flow(s, [])
  }

  /** The four adders of filters and custom data. */
  function OnAddEvent(s: AgentState, e: Event, env: Env): (f: Flow)
    requires e.AddHandler? || e.AddContextHandler? || e.AddGlobalCustomData? || e.AddContextCustomData?
    ensures f.out == [] && f.s == s.(handlers := f.s.handlers, customData := f.s.customData, store := f.s.store)
  {
    if e.AddHandler? || e.AddContextHandler? then OnAddFilterEvent(s, e, env) else OnAddDataEvent(s, e, env)
  }

  /** The two filter adders. */
  function OnAddFilterEvent(s: AgentState, e: Event, env: Env): (f: Flow)
    requires e.AddHandler? || e.AddContextHandler?
    ensures f.out == [] && f.s == s.(handlers := f.s.handlers, store := f.s.store)
  {
    if e.AddHandler? then
      Guarded(s, e.d, "addBeforeSubmissionHandler(): Initiate Djaty first.", AddFilter(s, e.d, e.f, false, env), env)
    else
      Guarded(s, e.d, "addBeforeSubmissionContextHandler(): Initiate Djaty first", AddFilter(s, e.d, e.f, true, env), env)
  }

  /** The two custom-data adders. */
  function OnAddDataEvent(s: AgentState, e: Event, env: Env): (f: Flow)
    requires e.AddGlobalCustomData? || e.AddContextCustomData?
    ensures f.out == [] && f.s == s.(customData := f.s.customData, store := f.s.store)
  {
    if e.AddGlobalCustomData? then
      Guarded(s, e.d, "addGlobalCustomData(): Initiate Djaty first.", AddCustomData(s, e.d, e.v, false), env)
    else
      Guarded(s, e.d, "addContextCustomData(): Initiate Djaty first", AddCustomData(s, e.d, e.v, true), env)
  }

  /** The events that only touch a request context: a new request, a timeline item, a user. */
  function OnContextEvent(s: AgentState, e: Event, env: Env): (f: Flow)
    requires e.RequestStarted? || e.TrackTimeline? || e.SetUser?
    ensures f.s == s.(nextId := f.s.nextId, store := f.s.store)
  {
    if e.RequestStarted? then OnRequest(s, e.verb, e.url, e.reqId, e.remoteAddr)
    else if e.TrackTimeline? then Flow(TrackItem(s, e.d, e.item), [])
    else OnSetUser(s, e.d, e.userId, e.logon, env)
  }

  /** The errors that reach the agent: a captured error, one routed to the error-handler
      middleware, and a failure inside the agent itself. Before `init` there are no
      options and nothing happens. */
  function OnErrorEvent(s: AgentState, e: Event, env: Env): (f: Flow)
    requires e.CaptureError? || e.RouteError? || e.AgentCrash?
    ensures Evolves(s, f.s)
  {
    if e.RouteError? then OnRouteError(s, e.d, ErrorStatus(e.status, e.statusCode, e.statusCodeNum), e.err, env)
    else match s.options
      case None => Flow(s, [])
      case Some(o) =>
        if e.CaptureError? then Capture(s, o, e.d, e.err, e.errType, env) else Fault(s, o, e.failure, env)
  }

  /** One event. After the process has exited nothing happens any more. */
  function Step(s: AgentState, e: Event, env: Env): (f: Flow)
    ensures s.exited ==> f == Flow(s, [])
  {
    if s.exited then Flow(s, [])
    else if e.Init? || e.Destroy? || e.InstallRequestHandler? || e.InstallErrorHandler? then OnSetupEvent(s, e, env)
    else if e.AddHandler? || e.AddContextHandler? || e.AddGlobalCustomData? || e.AddContextCustomData? then
      OnAddEvent(s, e, env)
    else if e.RequestStarted? || e.TrackTimeline? || e.SetUser? then OnContextEvent(s, e, env)
    else if e.CaptureError? || e.RouteError? || e.AgentCrash? then OnErrorEvent(s, e, env)
    else if e.TrackBug? then OnTrackBug(s, e.d, e.bug, env)
    else if e.TransportReply? then OnReply(s, e.request, e.reply, env)
    else OnTimer(s, e.timer, env)
  }
}

=== FILE: agent_properties.dfy ===
/** Properties of the agent's step function: what holds for every event, and the outcome of
    the submission scenarios the agent is built around. */
module AgentProperties {
  import opened Wrappers
  import opened Types
  import opened Transport
  import opened TimelineBuffer
  import opened ContextStore
  import opened Payload
  import opened Agent

  /** Settled promises stay settled with the same outcome, and promises are never dropped:
      a JavaScript promise resolves or rejects at most once. */
  ghost predicate PromisesKept(s: AgentState, t: AgentState) {
    && |s.promises| <= |t.promises|
    && forall p :: 0 <= p < |s.promises| && !s.promises[p].Pending? ==> t.promises[p] == s.promises[p]
  }

  /** Neither latch is cleared. */
  ghost predicate LatchesKept(s: AgentState, t: AgentState) {
    && (s.uncaughtCaught ==> t.uncaughtCaught)
    && (s.crashCaught ==> t.crashCaught)
  }

  ghost predicate Extends(s: AgentState, t: AgentState) {
    PromisesKept(s, t) && LatchesKept(s, t)
  }

  /** The watch timer of a crash report that was never sent expires. */
  predicate CrashTimerExpires(s: AgentState, e: Event) {
    e.TimerFired? && e.timer in s.timers && e.timer !in s.sentAttempts && s.timers[e.timer].CrashTimer?
  }

  lemma EvolvesExtends(s: AgentState, t: AgentState)
    requires Evolves(s, t)
    ensures Extends(s, t)
  {
  }

  /** What one event keeps: settled promises stay settled with the same outcome; the
      uncaught-exception latch (`isUncaughtExceptionCaught`) is cleared only by `destroy()`,
      and the crash latch (`isDjatyCrashExceptionCaught`) only by `destroy()` or by the
      expiring watch timer of an unsent crash report. */
  ghost predicate StepKeeps(s: AgentState, e: Event, t: AgentState) {
    && PromisesKept(s, t)
    && (s.uncaughtCaught && !t.uncaughtCaught ==> e.Destroy?)
    && (s.crashCaught && !t.crashCaught ==> e.Destroy? || CrashTimerExpires(s, e))
  }

  lemma StepMonotone(s: AgentState, e: Event, env: Env)
    ensures StepKeeps(s, e, Step(s, e, env).s)
  {
    if s.exited {
    } else if e.Init? || e.Destroy? || e.InstallRequestHandler? || e.InstallErrorHandler? {
      SetupKeeps(s, e, env);
    } else if e.AddHandler? || e.AddContextHandler? || e.AddGlobalCustomData? || e.AddContextCustomData? {
      AddKeeps(s, e, env);
    } else if e.RequestStarted? || e.TrackTimeline? || e.SetUser? {
      ContextKeeps(s, e, env);
    } else if e.CaptureError? || e.RouteError? || e.AgentCrash? {
      ErrorKeeps(s, e, env);
    } else if e.TrackBug? {
      TrackBugKeeps(s, e, env);
    } else if e.TransportReply? {
      ReplyKeeps(s, e, env);
    } else {
      TimerKeeps(s, e, env);
    }
  }

  // What each group of events keeps, stated on the handler the step dispatches to.

  lemma SetupKeeps(s: AgentState, e: Event, env: Env)
    requires e.Init? || e.Destroy? || e.InstallRequestHandler? || e.InstallErrorHandler?
    ensures StepKeeps(s, e, OnSetupEvent(s, e, env).s)
  {
  }

  lemma AddKeeps(s: AgentState, e: Event, env: Env)
    requires e.AddHandler? || e.AddContextHandler? || e.AddGlobalCustomData? || e.AddContextCustomData?
    ensures StepKeeps(s, e, OnAddEvent(s, e, env).s)
  {
    var t := OnAddEvent(s, e, env).s;
    assert t.promises == s.promises && t.uncaughtCaught == s.uncaughtCaught && t.crashCaught == s.crashCaught;
  }

  lemma ContextKeeps(s: AgentState, e: Event, env: Env)
    requires e.RequestStarted? || e.TrackTimeline? || e.SetUser?
    ensures StepKeeps(s, e, OnContextEvent(s, e, env).s)
  {
    var t := OnContextEvent(s, e, env).s;
    assert t.promises == s.promises && t.uncaughtCaught == s.uncaughtCaught && t.crashCaught == s.crashCaught;
  }

  lemma ErrorKeeps(s: AgentState, e: Event, env: Env)
    requires e.CaptureError? || e.RouteError? || e.AgentCrash?
    ensures StepKeeps(s, e, OnErrorEvent(s, e, env).s)
  {
    EvolvesExtends(s, OnErrorEvent(s, e, env).s);
  }

  lemma TrackBugKeeps(s: AgentState, e: Event, env: Env)
    requires e.TrackBug?
    ensures StepKeeps(s, e, OnTrackBug(s, e.d, e.bug, env).s)
  {
    OnTrackBugExtends(s, e.d, e.bug, env);
  }

  lemma ReplyKeeps(s: AgentState, e: Event, env: Env)
    requires e.TransportReply?
    ensures StepKeeps(s, e, OnReply(s, e.request, e.reply, env).s)
  {
    OnReplyExtends(s, e.request, e.reply, env);
  }

  lemma TimerKeeps(s: AgentState, e: Event, env: Env)
    requires e.TimerFired?
    ensures StepKeeps(s, e, OnTimer(s, e.timer, env).s)
  {
    OnTimerExtends(s, e.timer, env);
  }

  lemma OnTrackBugExtends(s: AgentState, d: Domain, bug: Bug, env: Env)
    ensures Extends(s, OnTrackBug(s, d, bug, env).s)
  {
    var p := |s.promises|;
    var s1 := s.(promises := s.promises + [Pending]);
    assert Extends(s, s1);
    var g := TrackBugGuard(s, d, bug);
    if g.None? {
      var o := s.options.value;
      var r := TrackManualBug(s1, o, d, bug, env);
      var f := Submit(r.0, o, d, r.1, ManualCb(p), env);
      assert OnTrackBug(s, d, bug, env) == f;
      EvolvesAfterStore(s1, r.0, f.s);
      EvolvesExtends(s1, f.s);
    }
  }

  lemma OnReplyExtends(s: AgentState, req: nat, reply: Reply, env: Env)
    ensures Extends(s, OnReply(s, req, reply, env).s)
  {
    if reply.Deliver? && req in s.inFlight && s.options.Some? {
      var o := s.options.value;
      var s1 := s.(inFlight := s.inFlight - {req});
      match s.inFlight[req]
      case AfterProcessSend(d, cb) =>
        if reply.err.None? {
          EvolvesExtends(s1, Invoke(s1, o, cb, CbAck(None), env).s);
        } else {
          EvolvesExtends(s1, HandleSubmissionErr(s1, o, reply.err.value, d, cb, env).s);
        }
      case AfterUserFilterSend(cb) =>
        if reply.err.None? {
          EvolvesExtends(s1, Invoke(s1, o, cb, CbAck(Some(UserFilterError)), env).s);
        }
      case AfterCrashSend(a, cb) =>
        if reply.err.Some? {
          EvolvesExtends(s1, Invoke(s1, o, cb, CbError(RequestFailure(reply.err.value)), env).s);
        } else {
          var s2 := s1.(sentAttempts := s1.sentAttempts + {a});
          EvolvesExtends(s2, Invoke(s2, o, cb, CbAck(Some(CrashReportSent)), env).s);
        }
    }
  }

  lemma OnTimerExtends(s: AgentState, t: nat, env: Env)
    ensures PromisesKept(s, OnTimer(s, t, env).s)
    ensures s.uncaughtCaught ==> OnTimer(s, t, env).s.uncaughtCaught
    ensures !CrashTimerExpires(s, TimerFired(t)) ==> LatchesKept(s, OnTimer(s, t, env).s)
  {
    if t !in s.timers || t in s.sentAttempts || s.options.None? {
      assert OnTimer(s, t, env).s.promises == s.promises;
    } else if s.timers[t].CaptureTimer? {
      OnCaptureTimerExtends(s, t, env);
    } else {
      OnCrashTimerExtends(s, t, env);
    }
  }

  /** The capture-timer half of `OnTimerExtends`. */
  lemma OnCaptureTimerExtends(s: AgentState, t: nat, env: Env)
    requires t in s.timers && t !in s.sentAttempts && s.options.Some? && s.timers[t].CaptureTimer?
    ensures Extends(s, OnTimer(s, t, env).s)
  {
    var s1 := s.(timers := s.timers - {t});
    assert OnTimer(s, t, env) == AfterHandled(s1, s.options.value);
    EvolvesExtends(s1, AfterHandled(s1, s.options.value).s);
  }

  /** The crash-timer half of `OnTimerExtends`: only the crash latch may be cleared. */
  lemma OnCrashTimerExtends(s: AgentState, t: nat, env: Env)
    requires t in s.timers && t !in s.sentAttempts && s.options.Some? && s.timers[t].CrashTimer?
    ensures PromisesKept(s, OnTimer(s, t, env).s)
    ensures s.uncaughtCaught ==> OnTimer(s, t, env).s.uncaughtCaught
  {
    var s2 := s.(timers := s.timers - {t}, crashCaught := false);
    var f := Invoke(s2, s.options.value, s.timers[t].cb, CbError(ErrorThrown(CrashTimeoutError(env.errorFrames))), env);
    assert OnTimer(s, t, env) == f;
    EvolvesExtends(s2, f.s);
  }

  /** A run of events, one step after the other; the outputs are concatenated. */
  function Run(s: AgentState, es: seq<Event>, env: Env): (f: Flow)
    decreases |es|
  {
    if |es| == 0 then Flow(s, [])
    else
      var f1 := Step(s, es[0], env);
      var f2 := Run(f1.s, es[1..], env);
      Flow(f2.s, f1.out + f2.out)
  }

  /** Over any run, settled promises stay settled with the same outcome; without a
      `destroy()` the uncaught-exception latch stays set, and without a `destroy()` or an
      expiring crash timer the crash latch stays set. */
  lemma {:induction false} RunMonotone(s: AgentState, es: seq<Event>, env: Env)
    ensures PromisesKept(s, Run(s, es, env).s)
    ensures s.uncaughtCaught && (forall i :: 0 <= i < |es| ==> !es[i].Destroy?) ==> Run(s, es, env).s.uncaughtCaught
    ensures (s.crashCaught && forall i :: 0 <= i < |es| ==> !es[i].Destroy? && !es[i].TimerFired?) ==>
              Run(s, es, env).s.crashCaught
    decreases |es|
  {
    if |es| > 0 {
      var t := Step(s, es[0], env).s;
      StepMonotone(s, es[0], env);
      RunMonotone(t, es[1..], env);
      assert forall i :: 0 <= i < |es| - 1 ==> es[1..][i] == es[i + 1];
    }
  }

  /** A collector reply with a status of 500 or more never reaches the agent: nothing
      changes, so a pending submission is settled only by its watch timer, if ever. */
  lemma ServerErrorReplyChangesNothing(s: AgentState, req: nat, statusCode: int, headers: ResponseHeaders,
                                       body: ResponseBody, sentBody: string, env: Env)
    requires statusCode >= 500
    ensures Step(s, TransportReply(req, ClassifyResponse(statusCode, headers, body, sentBody, env.errorFrames)), env) == Flow(s, [])
  {
  }
}

=== FILE: agent_scenarios.dfy ===
/** The submission flows of the agent, followed from the event that starts them to the
    callback or promise they settle. Each lemma is about the handler of one event. */
module AgentScenarios {
  import opened Wrappers
  import opened Text
  import opened Types
  import opened Utils
  import opened Transport
  import opened TimelineBuffer
  import opened ContextStore
  import opened Payload
  import opened Agent

  /** `trackBug` with a guard that applies settles its promise at once and hands nothing
      to the transport: in particular, without auto-submission and without a request id
      the bug is skipped with `SKIPPED_DJATY_EXTENSION_NOT_DETECTED`. */
  lemma GuardedTrackBugSendsNothing(s: AgentState, d: Domain, bug: Bug, env: Env)
    requires TrackBugGuard(s, d, bug).Some?
    ensures var f := OnTrackBug(s, d, bug, env);
            && NoSend(f.out)
            && f.s == s.(promises := s.promises + [TrackBugGuard(s, d, bug).value])
  {
    var g := TrackBugGuard(s, d, bug).value;
    var s1 := s.(promises := s.promises + [Pending]);
    assert s1.promises[|s.promises| := g] == s.promises + [g];
  }

  /** A thrown non-error (`captureError("boom")`) is wrapped in an `Error` the agent
      constructs, so the tracked exception item's stack opens with `Error: boom`, and the item
      is hashed over the first frame of that construction. */
  lemma ThrownTextIsWrapped(s: AgentState, o: Options, d: Domain, text: string, env: Env)
    requires o.allowAutoSubmission || Truthy(GetContext(s.store, d).djatyReqId)
    requires text != "" && NoneIn(text, {'\n'}) && s.maxFrames >= 0
    ensures var r := TrackException(s, o, d, NonError(text), env).1;
            && r.Some?
            && StartsWith(r.value.stack, "Error: " + text)
            && r.value.hash == env.sha256(AGENT_ID + EXCEPTION_TRACKER_NAME + "Error: " + text
                                          + StackLines(env.errorFrames("Error", text))[0])
  {
    assert NoneIn("Error", {'\n'});
    ParseAgentMadeError("Error", text, env.errorFrames, s.maxFrames, env.sha256);
    var msg := ExceptionMsg(MadeError("Error", text, env.errorFrames));
    assert msg == "Error: " + text;
    var first := StackLines(env.errorFrames("Error", text))[0];
    assert AGENT_ID + EXCEPTION_TRACKER_NAME + msg + first == AGENT_ID + EXCEPTION_TRACKER_NAME + "Error: " + text + first;
  }

  /** Before `init`, `trackBug` rejects with the `NOT_INITIATED` error. */
  lemma TrackBugBeforeInitRejects(d: Domain, bug: Bug, env: Env)
    ensures OnTrackBug(InitialState, d, bug, env).s.promises
              == [Rejected(DjatyErr(TRACK_BUG_NOT_INITIATED_MSG, Some(NOT_INITIATED)))]
  {
  }

  /** A message bug tracked with auto-submission on and no user filter is sent at once: the
      request carries the bug, and its reply is awaited by the bug's new, still pending,
      promise. */
  lemma TrackedMessageIsSent(s: AgentState, d: Domain, text: string, env: Env)
    requires s.isInitiated && s.options.Some?
    requires s.options.value.djatyIsTracking && s.options.value.allowAutoSubmission
    requires d != Foreign && s.handlers == [] && GetContext(s.store, d).handlers == []
    requires TrimConsistent(GetContext(s.store, d))
    ensures var f := OnTrackBug(s, d, BugText(text), env);
            && |f.out| == 1 && f.out[0].Sent? && f.out[0].request == s.nextId && !f.out[0].isReport
            && f.s.inFlight == s.inFlight[s.nextId := AfterProcessSend(d, ManualCb(|s.promises|))]
            && f.s.promises == s.promises + [Pending]
  {
    var o := s.options.value;
    var p := |s.promises|;
    var s1 := s.(promises := s.promises + [Pending]);
    var (s2, args) := TrackManualBug(s1, o, d, BugText(text), env);
    var item := FormatConsoleItem("error", [Text(text)], env.sha256, env.stringify);
    assert s2.store == Track(s1.store, d, item, TimelineLimit(s1, d));
    PrepareAfterAppendSucceeds(s1.store, d, item, TimelineLimit(s1, d), s2.customData, o, args, env.reqUser, env.host, env.errorFrames);
    var data := Prepare(s2, o, d, args, env).value;
    assert FilterList(s2.handlers, s2.store, d) == [];
    assert Process(s2, o, d, data, ManualCb(p), env) == Send(s2, data, false, AfterProcessSend(d, ManualCb(p)));
  }

  /** `processManualBug`: a successful submission whose reply carries no acknowledge
      resolves the bug's promise with `BUG_REPORTED`. */
  lemma ManualSuccessResolvesBugReported(s: AgentState, req: nat, d: Domain, p: nat, env: Env)
    requires s.options.Some? && s.options.value.allowAutoSubmission
    requires req in s.inFlight && s.inFlight[req] == AfterProcessSend(d, ManualCb(p))
    requires p < |s.promises| && s.promises[p].Pending?
    ensures var f := OnReply(s, req, Deliver(None), env);
            && f.s.promises == s.promises[p := Resolved(BugReported)]
            && f.out == [Invoked(ManualCb(p), CbAck(None)), Settled(p, Resolved(BugReported))]
            && req !in f.s.inFlight
  {
  }

  /** A code from the no-retry table rejects the bug's promise with the table's message and
      sends nothing more, whatever the status. */
  lemma NoRetryCodeRejects(s: AgentState, req: nat, d: Domain, p: nat, err: RequestError, env: Env)
    requires s.options.Some? && s.options.value.allowAutoSubmission
    requires req in s.inFlight && s.inFlight[req] == AfterProcessSend(d, ManualCb(p))
    requires p < |s.promises| && s.promises[p].Pending?
    requires NoRetryMessage(EffectiveCode(err)).Some?
    ensures var f := OnReply(s, req, Deliver(Some(err)), env);
            && NoSend(f.out)
            && f.s.promises == s.promises[p := Rejected(SubmissionError(NoRetryMessage(EffectiveCode(err)).value))]
  {
    var s1 := s.(inFlight := s.inFlight - {req});
    assert OnReply(s, req, Deliver(Some(err)), env)
        == Invoke(s1, s.options.value, ManualCb(p), CbError(SubmissionError(NoRetryMessage(EffectiveCode(err)).value)), env);
  }

  /** The complaint keyword stands in for a missing error code, and the no-retry table is
      consulted before the status: an invalid key reported with status 400 is not resent. */
  lemma KeywordCodeBeatsStatus(err: RequestError)
    requires !Truthy(err.code) && err.reasons.ReasonList? && |err.reasons.items| > 0
    requires err.reasons.items[0].keyword == Some(DJATY_NOT_VALID_API_KEY)
    ensures ClassifySubmissionErr(err) == NoRetry("`apiKey` or `apiSecret` is invalid")
  {
    assert EffectiveCode(err) == Some(DJATY_NOT_VALID_API_KEY);
  }

  /** `process`: when every filter returns, what the last one returned is sent, and its
      reply is awaited on behalf of the domain and the callback. */
  lemma FilteredPayloadIsSent(s: AgentState, o: Options, d: Domain, data: AgentData, cb: Callback,
                              filtered: AgentData, env: Env)
    requires AsyncLoop(Filters(FilterList(s.handlers, s.store, d), env), data) == Ok(filtered)
    ensures var f := Process(s, o, d, data, cb, env);
            && f.out == [Sent(s.nextId, filtered, false)]
            && f.s == s.(nextId := s.nextId + 1, inFlight := s.inFlight[s.nextId := AfterProcessSend(d, cb)])
  {
  }

  /** Any other status below 500 (but 400) fails the submission with a known error: too many
      requests for 429, a server misconfiguration otherwise. Nothing is sent. */
  lemma ClientErrorRejects(s: AgentState, o: Options, err: RequestError, d: Domain, cb: Callback, env: Env)
    requires NoRetryMessage(EffectiveCode(err)).None?
    requires err.statusCode.Some? && 0 < err.statusCode.value < 500 && err.statusCode.value != 400
    ensures var f := HandleSubmissionErr(s, o, err, d, cb, env);
            var m := if err.statusCode.value == 429 then "Too many requests!"
                     else "Make sure `server` config is correct.";
            && NoSend(f.out) && f.out[0] == Invoked(cb, CbError(SubmissionError(m)))
  {
  }

  /** A failure the agent cannot explain (no status, status 0, or 500 and more, without a
      no-retry code) is reported to Djaty as a crash of the agent, on behalf of the same
      callback. */
  lemma UnknownFailureReportsCrash(s: AgentState, o: Options, err: RequestError, d: Domain, cb: Callback, env: Env)
    requires NoRetryMessage(EffectiveCode(err)).None?
    requires err.statusCode.None? || err.statusCode.value == 0 || err.statusCode.value >= 500
    requires o.reportDjatyCrashes && !(o.exitOnUncaughtExceptions && s.crashCaught)
    ensures var f := HandleSubmissionErr(s, o, err, d, cb, env);
            && f.out == [TimerArmed(s.nextId, o.submissionTimeout),
                         Sent(s.nextId + 1, CrashPayload(RequestFailure(err).AsError(env.errorFrames), s.maxFrames, env.sha256,
                                                         o.apiKey, env.host), true)]
            && f.s.inFlight == s.inFlight[s.nextId + 1 := AfterCrashSend(s.nextId, cb)]
  {
  }

  /** `sendUserFilterError`: the diagnostic resend resolves the bug's promise with
      `USER_FILTER_ERROR` when it succeeds, and never settles it when it fails. */
  lemma UserFilterResendOutcome(s: AgentState, req: nat, p: nat, reply: Reply, env: Env)
    requires s.options.Some? && s.options.value.allowAutoSubmission
    requires req in s.inFlight && s.inFlight[req] == AfterUserFilterSend(ManualCb(p))
    requires p < |s.promises| && s.promises[p].Pending?
    requires reply.Deliver?
    ensures var f := OnReply(s, req, reply, env);
            && (reply.err.None? ==> f.s.promises == s.promises[p := Resolved(UserFilterError)])
            && (reply.err.Some? ==> f.s.promises[p] == Pending && f.out == [])
  {
  }

  /** The crash-report path marks its attempt sent only on success. A failed send calls the
      callback with the request error, and the watch timer, still armed, calls it a second
      time with the timeout error. */
  lemma CrashReportCallsBackTwice(s: AgentState, o: Options, err: Thrown, failure: RequestError, env: Env)
    requires o.reportDjatyCrashes && !o.exitOnUncaughtExceptions && !s.exited
    requires s.options == Some(o) && s.nextId !in s.sentAttempts
    ensures var f1 := SubmitCrashReport(s, o, err, DomainErrorCb, env);
            var f2 := OnReply(f1.s, s.nextId + 1, Deliver(Some(failure)), env);
            var f3 := OnTimer(f2.s, s.nextId, env);
            && f1.out == [TimerArmed(s.nextId, o.submissionTimeout),
                          Sent(s.nextId + 1, CrashPayload(err.AsError(env.errorFrames), s.maxFrames, env.sha256, o.apiKey, env.host), true)]
            && f2.out == [Invoked(DomainErrorCb, CbError(RequestFailure(failure))), ErrorHandled(false)]
            && f3.out == [Invoked(DomainErrorCb, CbError(ErrorThrown(CrashTimeoutError(env.errorFrames)))), ErrorHandled(false)]
  {
    var a := s.nextId;
    var f1 := SubmitCrashReport(s, o, err, DomainErrorCb, env);
    assert f1.s.sentAttempts == s.sentAttempts && f1.s.options == Some(o);
    FailedCrashSendCallsBack(f1.s, a + 1, o, a, failure, env);
    var f2 := OnReply(f1.s, a + 1, Deliver(Some(failure)), env);
    CrashTimeoutCallsBack(f2.s, a, o, env);
  }

  /** A crash report whose send fails calls the agent's crash handling back with the
      request error, and leaves the armed timers and the sent attempts alone. */
  lemma FailedCrashSendCallsBack(t: AgentState, req: nat, o: Options, a: nat, failure: RequestError, env: Env)
    requires t.options == Some(o) && !o.exitOnUncaughtExceptions
    requires req in t.inFlight && t.inFlight[req] == AfterCrashSend(a, DomainErrorCb)
    ensures var f := OnReply(t, req, Deliver(Some(failure)), env);
            && f.out == [Invoked(DomainErrorCb, CbError(RequestFailure(failure))), ErrorHandled(false)]
            && f.s.timers == t.timers && f.s.sentAttempts == t.sentAttempts && f.s.options == t.options
  {
  }

  /** An expiring crash-report timer whose attempt was not sent hands the timeout error to
      the agent's own crash handling, which then finishes error handling. */
  lemma CrashTimeoutCallsBack(s: AgentState, t: nat, o: Options, env: Env)
    requires t in s.timers && t !in s.sentAttempts && s.options == Some(o) && s.timers[t] == CrashTimer(DomainErrorCb)
    ensures OnTimer(s, t, env).out == [Invoked(DomainErrorCb, CbError(ErrorThrown(CrashTimeoutError(env.errorFrames)))),
                                       ErrorHandled(o.exitOnUncaughtExceptions)]
  {
  }

  /** With `exitOnUncaughtExceptions`, the first captured error sets the uncaught latch and
      a later one is neither tracked nor submitted. */
  lemma SecondUncaughtIgnored(s: AgentState, o: Options, d1: Domain, t1: Thrown, type1: string,
                              d2: Domain, t2: Thrown, type2: string, env: Env)
    requires o.exitOnUncaughtExceptions
    requires d1 != Foreign && !t1.DjatyErr? && d2 != Foreign && !t2.DjatyErr?
    ensures var f1 := Capture(s, o, d1, t1, type1, env);
            && f1.s.uncaughtCaught
            && Capture(f1.s, o, d2, t2, type2, env) == Flow(f1.s, [])
  {
  }

  /** The items a diagnostic resend reports from context `c` of domain `d` after `items`
      were tracked behind the reset: the reset's prefix, then those items. */
  function ResentTimeline(c: Context, d: Domain, items: seq<TimelineItem>): seq<TimelineItem>
    requires !ResetFaults(c)
  {
    Reset(c, d.ReqWrap?).timeline.value + items
  }

  /** Two appends behind a reset never trim when the limit leaves room for them. */
  lemma AppendTwoAfterReset(c: Context, reqBound: bool, x: TimelineItem, y: TimelineItem, max: int)
    requires !ResetFaults(c) && max >= 5
    ensures var r := Append(Append(Reset(c, reqBound), x, reqBound, max), y, reqBound, max);
            !r.isTimelineTrimmed && r.timeline == Some(Reset(c, reqBound).timeline.value + [x, y])
  {
    var r0 := Reset(c, reqBound);
    var r1 := Append(r0, x, reqBound, max);
    assert r1.timeline == Some(r0.timeline.value + [x]);
    assert r0.timeline.value + [x] + [y] == r0.timeline.value + [x, y];
  }

  /** A throwing user filter diverts the bug to a diagnostic report: the context is reset,
      and the report carries only the reset's prefix (the request marker at most, then the
      trimming marker), the filter-failure message and the filter's exception. Nothing else
      the context held is sent. */
  lemma FilterThrowReportsOnlyTheFailure(s: AgentState, o: Options, d: Domain, data: AgentData, cb: Callback,
                                         e: Thrown, env: Env)
    requires s.isInitiated && d != Foreign && o.allowAutoSubmission && s.maxTimelineItems.Some? && s.maxTimelineItems.value >= 5
    requires !ResetFaults(GetContext(s.store, d))
    requires AsyncLoop(Filters(FilterList(s.handlers, s.store, d), env), data) == Err(e)
    ensures var f := Process(s, o, d, data, cb, env);
            var failure := FormatConsoleItem("error", [Text(FILTER_UNCAUGHT_EXCEPTION_MSG)], env.sha256, env.stringify);
            var exc := ParseError(e.AsError(env.errorFrames), s.maxFrames, env.sha256);
            && f.out == [Sent(s.nextId, f.out[0].data, false)]
            && f.s.inFlight == s.inFlight[s.nextId := AfterUserFilterSend(cb)]
            && f.out[0].data.batch[0].timeline == ResentTimeline(GetContext(s.store, d), d, [failure, exc])
  {
    FilterFailedResends(s, o, d, e, cb, env);
  }

  lemma FilterFailedResends(s: AgentState, o: Options, d: Domain, e: Thrown, cb: Callback, env: Env)
    requires s.isInitiated && d != Foreign && o.allowAutoSubmission && s.maxTimelineItems.Some? && s.maxTimelineItems.value >= 5
    requires !ResetFaults(GetContext(s.store, d))
    ensures var f := FilterFailed(s, o, d, e, cb, env);
            var failure := FormatConsoleItem("error", [Text(FILTER_UNCAUGHT_EXCEPTION_MSG)], env.sha256, env.stringify);
            var exc := ParseError(e.AsError(env.errorFrames), s.maxFrames, env.sha256);
            && f.out == [Sent(s.nextId, f.out[0].data, false)]
            && f.s.inFlight == s.inFlight[s.nextId := AfterUserFilterSend(cb)]
            && f.out[0].data.batch[0].timeline == ResentTimeline(GetContext(s.store, d), d, [failure, exc])
  {
    FilterFailedIsResend(s, o, d, e, cb, env);
    FilterFailureStateShape(s, o, d, e, env);
  }

  /** The state a filter failure leaves behind: the reset, then the failure message and the
      filter's exception tracked in the domain. */
  function FilterFailureState(s: AgentState, o: Options, d: Domain, e: Thrown, env: Env): AgentState
    requires !ResetFaults(GetContext(s.store, d))
  {
    var s1 := ResetTimeline(s, d).value;
    TrackException(TrackConsoleError(s1, d, [Text(FILTER_UNCAUGHT_EXCEPTION_MSG)], env), o, d, e, env).0
  }

  /** With auto-submission on, a filter failure is the diagnostic resend of the failure
      state, titled by the filter's exception. */
  lemma FilterFailedIsResend(s: AgentState, o: Options, d: Domain, e: Thrown, cb: Callback, env: Env)
    requires o.allowAutoSubmission && !ResetFaults(GetContext(s.store, d))
    ensures FilterFailed(s, o, d, e, cb, env)
            == SendUserFilterError(FilterFailureState(s, o, d, e, env), o, d,
                                   ExceptionArgs(ParseError(e.AsError(env.errorFrames), s.maxFrames, env.sha256)), cb, env)
  {
  }

  /** The failure state differs from the original only in its contexts, and the domain's
      timeline is the reset prefix followed by the failure message and the exception. */
  lemma FilterFailureStateShape(s: AgentState, o: Options, d: Domain, e: Thrown, env: Env)
    requires s.isInitiated && d != Foreign && o.allowAutoSubmission && s.maxTimelineItems.Some? && s.maxTimelineItems.value >= 5
    requires !ResetFaults(GetContext(s.store, d))
    ensures var s3 := FilterFailureState(s, o, d, e, env);
            var failure := FormatConsoleItem("error", [Text(FILTER_UNCAUGHT_EXCEPTION_MSG)], env.sha256, env.stringify);
            var exc := ParseError(e.AsError(env.errorFrames), s.maxFrames, env.sha256);
            && s3.nextId == s.nextId && s3.inFlight == s.inFlight
            && ChosenTimeline(s3.store, d) == Some(ResentTimeline(GetContext(s.store, d), d, [failure, exc]))
  {
    var ctx := GetContext(s.store, d);
    var max := s.maxTimelineItems.value;
    var failure := FormatConsoleItem("error", [Text(FILTER_UNCAUGHT_EXCEPTION_MSG)], env.sha256, env.stringify);
    var exc := ParseError(e.AsError(env.errorFrames), s.maxFrames, env.sha256);
    var s1 := ResetTimeline(s, d).value;
    var s2 := TrackConsoleError(s1, d, [Text(FILTER_UNCAUGHT_EXCEPTION_MSG)], env);
    var r := TrackException(s2, o, d, e, env);
    assert r.1 == Some(exc);
    AppendTwoAfterReset(ctx, d.ReqWrap?, failure, exc, max);
    assert GetContext(r.0.store, d) == Append(Append(Reset(ctx, d.ReqWrap?), failure, d.ReqWrap?, max), exc, d.ReqWrap?, max);
  }

  /** Four appends behind a reset never trim when the limit leaves room for them. */
  lemma AppendFourAfterReset(c: Context, reqBound: bool, xs: seq<TimelineItem>, max: int)
    requires !ResetFaults(c) && max >= 7 && |xs| == 4
    ensures var r := Append(Append(Append(Append(Reset(c, reqBound), xs[0], reqBound, max), xs[1], reqBound, max),
                                   xs[2], reqBound, max), xs[3], reqBound, max);
            !r.isTimelineTrimmed && r.timeline == Some(Reset(c, reqBound).timeline.value + xs)
  {
    var p := Reset(c, reqBound).timeline.value;
    assert |p| <= 2;
    var r1 := Append(Reset(c, reqBound), xs[0], reqBound, max);
    assert r1.timeline == Some(p + [xs[0]]) && !r1.isTimelineTrimmed;
    var r2 := Append(r1, xs[1], reqBound, max);
    assert p + [xs[0]] + [xs[1]] == p + [xs[0], xs[1]];
    assert r2.timeline == Some(p + [xs[0], xs[1]]) && !r2.isTimelineTrimmed;
    var r3 := Append(r2, xs[2], reqBound, max);
    assert p + [xs[0], xs[1]] + [xs[2]] == p + [xs[0], xs[1], xs[2]];
    assert r3.timeline == Some(p + [xs[0], xs[1], xs[2]]) && !r3.isTimelineTrimmed;
    var r4 := Append(r3, xs[3], reqBound, max);
    assert p + [xs[0], xs[1], xs[2]] + [xs[3]] == p + [xs[0], xs[1], xs[2], xs[3]];
    assert r4.timeline == Some(p + [xs[0], xs[1], xs[2], xs[3]]);
    assert [xs[0], xs[1], xs[2], xs[3]] == xs;
  }

  /** The console-error items of the diagnostics of a rejected payload. */
  function SchemaDiagnosticItems(err: RequestError, env: Env): (items: seq<TimelineItem>)
    ensures |items| == 4
  {
    [FormatConsoleItem("error", [Text(FILTER_STRUCTURE_EXCEPTION_MSG)], env.sha256, env.stringify),
     FormatConsoleItem("error", [Text(err.message + "."), Text("Reasons: "), ReasonsValue(err.reasons)],
                       env.sha256, env.stringify),
     FormatConsoleItem("error", [Text("The corrupted payload"), BodyValue(err.reqBody)], env.sha256, env.stringify),
     FormatConsoleItem("error", [Text(USER_FILTER_TITLE_PREFIX + err.message)], env.sha256, env.stringify)]
  }

  /** Behind a reset, the diagnostics land untrimmed after the reset's prefix. */
  lemma SchemaDiagnosticsAfterReset(s: AgentState, err: RequestError, d: Domain, env: Env)
    requires s.isInitiated && d != Foreign && s.maxTimelineItems.Some? && s.maxTimelineItems.value >= 7
    requires !ResetFaults(GetContext(s.store, d))
    ensures var s1 := ResetTimeline(s, d).value;
            var c := GetContext(TrackSchemaDiagnostics(s1, err, d, env).0.store, d);
            !c.isTimelineTrimmed && c.timeline == Some(ResentTimeline(GetContext(s.store, d), d, SchemaDiagnosticItems(err, env)))
  {
    var ctx := GetContext(s.store, d);
    var max := s.maxTimelineItems.value;
    var rb := d.ReqWrap?;
    var items := SchemaDiagnosticItems(err, env);
    var s1 := ResetTimeline(s, d).value;
    var s2 := TrackConsoleError(s1, d, [Text(FILTER_STRUCTURE_EXCEPTION_MSG)], env);
    var s3 := TrackConsoleError(s2, d, [Text(err.message + "."), Text("Reasons: "), ReasonsValue(err.reasons)], env);
    var s4 := TrackConsoleError(s3, d, [Text("The corrupted payload"), BodyValue(err.reqBody)], env);
    var r := TrackStringError(s4, d, [Text(USER_FILTER_TITLE_PREFIX + err.message)], env);
    assert GetContext(s1.store, d) == Reset(ctx, rb);
    assert GetContext(s2.store, d) == Append(Reset(ctx, rb), items[0], rb, max);
    assert GetContext(s3.store, d) == Append(GetContext(s2.store, d), items[1], rb, max);
    assert GetContext(s4.store, d) == Append(GetContext(s3.store, d), items[2], rb, max);
    assert GetContext(r.0.store, d) == Append(GetContext(s4.store, d), items[3], rb, max);
    AppendFourAfterReset(ctx, rb, items, max);
  }

  /** The collector's rejection of a payload (status 400) is answered by a diagnostic
      report: the context is reset, and the report carries only the reset's prefix, the
      filter-structure message, the collector's reasons, the rejected body and the message
      titled by the rejection. The callback now waits on that report. */
  lemma SchemaRejectionResends(s: AgentState, o: Options, err: RequestError, d: Domain, cb: Callback, env: Env)
    requires s.isInitiated && d != Foreign && s.maxTimelineItems.Some? && s.maxTimelineItems.value >= 7
    requires !ResetFaults(GetContext(s.store, d))
    ensures var f := SchemaRejectedResend(s, o, err, d, cb, env);
            && f.out == [Sent(s.nextId, f.out[0].data, false)]
            && f.s.inFlight == s.inFlight[s.nextId := AfterUserFilterSend(cb)]
            && f.out[0].data.batch[0].timeline == ResentTimeline(GetContext(s.store, d), d, SchemaDiagnosticItems(err, env))
  {
    var s1 := ResetTimeline(s, d).value;
    var r := TrackSchemaDiagnostics(s1, err, d, env);
    SchemaDiagnosticsAfterReset(s, err, d, env);
    assert SchemaRejectedResend(s, o, err, d, cb, env) == SendUserFilterError(r.0, o, d, r.1, cb, env);
  }
}

=== FILE: config_validation.dfy ===
/** The user-configuration schema (src/userConfigValidation.ts) as a predicate over JSON-like
    values. The `format: 'hostname'` check is a parameter. */
module ConfigValidation {

  /** A configuration value as the validator sees it. Functions and `Buffer`s appear only
      for the `instanceof` keywords. */
  datatype Json =
    | JNull
    | JBool(b: bool)
    | JNumber(n: real)
    | JString(s: string)
    | JArray(items: seq<Json>)
    | JObject(fields: map<string, Json>)
    | JFunction
    | JBuffer

  const STAGES: set<string> := {"Prod", "Stag", "Dev", "Test"}
  const TAGS_LIMIT := 10
  /** The value of `AllowedCustomLoggers.winston`. */
  const ALLOWED_CUSTOM_LOGGERS: set<string> := {"winston"}

  const TOP_LEVEL_KEYS: set<string> := {
    "apiKey", "apiSecret", "djatyIsTracking", "addGlobalCustomData", "allowAutoSubmission",
    "exitOnUncaughtExceptions", "reportDjatyCrashes", "onBeforeBugSubmission", "proxy",
    "release", "server", "showDjatyLogs", "stage", "tags", "trackingOptions",
    "disableDjatyDomainErrors"}
  const PROXY_KEYS: set<string> := {"ca", "hostname", "port", "secure"}
  const SERVER_KEYS: set<string> := {"apiPath", "ca", "hostname", "port", "secure"}
  const TRACKING_KEYS: set<string> := {
    "allowedWrappers", "captureUnhandledRejections", "parseUser", "stacktraceLimit", "timelineLimit"}
  const WRAPPER_KEYS: set<string> := {"console", "customLoggers", "http", "stdLogs"}

  predicate IsBool(j: Json) { j.JBool? }

  /** `type: 'integer'`: a number without a fractional part. */
  predicate IsInteger(j: Json) {
    j.JNumber? && j.n.Floor as real == j.n
  }

  /** A string whose length lies in `lo..hi`. */
  predicate StringOfLength(j: Json, lo: nat, hi: nat) {
    j.JString? && lo <= |j.s| <= hi
  }

  /** An object whose keys all come from `allowed` (`additionalProperties: false`). */
  predicate ObjectWithKeys(j: Json, allowed: set<string>) {
    j.JObject? && j.fields.Keys <= allowed
  }

  /** A port: an integer in 1..65535. */
  predicate ValidPort(j: Json) {
    IsInteger(j) && 1.0 <= j.n <= 65535.0
  }

  /** `hostname: {type: 'string', format: 'hostname'}`. */
  predicate ValidHostname(j: Json, isHostname: string -> bool) {
    j.JString? && isHostname(j.s)
  }

  /** The `proxy` section. */
  predicate ValidProxy(j: Json, isHostname: string -> bool) {
    && ObjectWithKeys(j, PROXY_KEYS)
    && ("ca" in j.fields ==> j.fields["ca"].JBuffer?)
    && ("hostname" in j.fields ==> ValidHostname(j.fields["hostname"], isHostname))
    && ("port" in j.fields ==> ValidPort(j.fields["port"]))
    && ("secure" in j.fields ==> IsBool(j.fields["secure"]))
  }

  /** The `server` section. */
  predicate ValidServer(j: Json, isHostname: string -> bool) {
    && ObjectWithKeys(j, SERVER_KEYS)
    && ("apiPath" in j.fields ==> j.fields["apiPath"].JString?)
    && ("ca" in j.fields ==> j.fields["ca"].JBuffer?)
    && ("hostname" in j.fields ==> ValidHostname(j.fields["hostname"], isHostname))
    && ("port" in j.fields ==> ValidPort(j.fields["port"]))
    && ("secure" in j.fields ==> IsBool(j.fields["secure"]))
  }

  /** `stage`: one of the default stages. */
  predicate ValidStage(j: Json) {
    StringOfLength(j, 1, 45) && j.s in STAGES
  }

  /** `tags`: at most ten distinct strings of 1..45 characters. */
  predicate ValidTags(j: Json) {
    && j.JArray?
    && |j.items| <= TAGS_LIMIT
    && (forall i :: 0 <= i < |j.items| ==> StringOfLength(j.items[i], 1, 45))
    && (forall i, k :: 0 <= i < k < |j.items| ==> j.items[i] != j.items[k])
  }

  /** One entry of `customLoggers`: an object with exactly a `name` from the allowed set. */
  predicate ValidCustomLogger(j: Json) {
    && ObjectWithKeys(j, {"name"})
    && "name" in j.fields
    && j.fields["name"].JString? && j.fields["name"].s in ALLOWED_CUSTOM_LOGGERS
  }

  /** `allowedWrappers`: a boolean, or an object with only the listed switches. */
  predicate ValidAllowedWrappers(j: Json) {
    || IsBool(j)
    || (&& ObjectWithKeys(j, WRAPPER_KEYS)
        && ("console" in j.fields ==> IsBool(j.fields["console"]))
        && ("http" in j.fields ==> IsBool(j.fields["http"]))
        && ("stdLogs" in j.fields ==> IsBool(j.fields["stdLogs"]))
        && ("customLoggers" in j.fields ==>
              var c := j.fields["customLoggers"];
              c.JArray? && forall i :: 0 <= i < |c.items| ==> ValidCustomLogger(c.items[i])))
  }

  /** The `trackingOptions` section; the two limits need only be integers. */
  predicate ValidTrackingOptions(j: Json) {
    && ObjectWithKeys(j, TRACKING_KEYS)
    && ("allowedWrappers" in j.fields ==> ValidAllowedWrappers(j.fields["allowedWrappers"]))
    && ("captureUnhandledRejections" in j.fields ==> IsBool(j.fields["captureUnhandledRejections"]))
    && ("parseUser" in j.fields ==> j.fields["parseUser"].JFunction? || IsBool(j.fields["parseUser"]))
    && ("stacktraceLimit" in j.fields ==> IsInteger(j.fields["stacktraceLimit"]))
    && ("timelineLimit" in j.fields ==> IsInteger(j.fields["timelineLimit"]))
  }

  /** The rule for one top-level key. */
  predicate ValidTopLevel(key: string, v: Json, isHostname: string -> bool) {
    if key == "apiKey" || key == "apiSecret" then v.JString?
    else if key in {"djatyIsTracking", "allowAutoSubmission", "exitOnUncaughtExceptions",
                    "reportDjatyCrashes", "showDjatyLogs", "disableDjatyDomainErrors"} then IsBool(v)
    else if key in {"addGlobalCustomData", "onBeforeBugSubmission"} then v.JFunction?
    else if key == "proxy" then ValidProxy(v, isHostname)
    else if key == "release" then StringOfLength(v, 1, 100)
    else if key == "server" then ValidServer(v, isHostname)
    else if key == "stage" then ValidStage(v)
    else if key == "tags" then ValidTags(v)
    else if key == "trackingOptions" then ValidTrackingOptions(v)
    else false
  }

  /** `ajv.validate(userConfigSchema, options)`: an object with only the listed keys, each
      obeying its rule, and with `apiKey` and `apiSecret` present. */
  predicate ValidUserConfig(j: Json, isHostname: string -> bool)
    ensures ValidUserConfig(j, isHostname) ==>
              && j.JObject? && "submissionTimeout" !in j.fields && "apiKey" in j.fields && "apiSecret" in j.fields
              && j.fields["apiKey"].JString? && j.fields["apiSecret"].JString?
    ensures ValidUserConfig(j, isHostname) && "stage" in j.fields ==> j.fields["stage"].JString? && j.fields["stage"].s in STAGES
    ensures ValidUserConfig(j, isHostname) && "tags" in j.fields ==>
              j.fields["tags"].JArray? && |j.fields["tags"].items| <= TAGS_LIMIT
    ensures ValidUserConfig(j, isHostname) && "release" in j.fields ==> StringOfLength(j.fields["release"], 1, 100)
  {
    && ObjectWithKeys(j, TOP_LEVEL_KEYS)
    && "apiKey" in j.fields && "apiSecret" in j.fields
    && forall k :: k in j.fields ==> ValidTopLevel(k, j.fields[k], isHostname)
  }

  /** Any key outside the schema's list, `submissionTimeout` among them, makes the
      configuration invalid, whatever else it holds. */
  lemma UnknownKeyRejected(j: Json, key: string, isHostname: string -> bool)
    requires j.JObject? && key in j.fields && key !in TOP_LEVEL_KEYS
    ensures !ValidUserConfig(j, isHostname)
  {
  }

  lemma SubmissionTimeoutRejected(j: Json, isHostname: string -> bool)
    requires j.JObject? && "submissionTimeout" in j.fields
    ensures !ValidUserConfig(j, isHostname)
  {
    UnknownKeyRejected(j, "submissionTimeout", isHostname);
  }

  /** Two string keys are all a configuration needs; without either it is invalid. */
  lemma KeysRequiredAndSufficient(apiKey: string, apiSecret: string, j: Json, isHostname: string -> bool)
    ensures ValidUserConfig(JObject(map["apiKey" := JString(apiKey), "apiSecret" := JString(apiSecret)]), isHostname)
    ensures j.JObject? && ("apiKey" !in j.fields || "apiSecret" !in j.fields) ==> !ValidUserConfig(j, isHostname)
    ensures j.JObject? && "apiKey" in j.fields && !j.fields["apiKey"].JString? ==> !ValidUserConfig(j, isHostname)
  {
    var m := map["apiKey" := JString(apiKey), "apiSecret" := JString(apiSecret)];
    assert m.Keys == {"apiKey", "apiSecret"};
    forall k | k in m ensures ValidTopLevel(k, m[k], isHostname) {
    }
    if j.JObject? && "apiKey" in j.fields && !j.fields["apiKey"].JString? {
      assert !ValidTopLevel("apiKey", j.fields["apiKey"], isHostname);
    }
  }

  /** A server section holding only a port is valid exactly when the port is an integer in
      1..65535. */
  lemma ServerPortRange(port: Json, isHostname: string -> bool)
    ensures ValidServer(JObject(map["port" := port]), isHostname) <==> IsInteger(port) && 1.0 <= port.n <= 65535.0
  {
    assert map["port" := port].Keys == {"port"};
  }

  /** `timelineLimit` has no range: any integer, even a negative one, is accepted; a
      fractional number is not. */
  lemma TimelineLimitUnbounded(n: int)
    ensures ValidTrackingOptions(JObject(map["timelineLimit" := JNumber(n as real)]))
    ensures !ValidTrackingOptions(JObject(map["timelineLimit" := JNumber(n as real + 0.5)]))
  {
    assert map["timelineLimit" := JNumber(n as real)].Keys == {"timelineLimit"};
    assert (n as real + 0.5).Floor == n;
  }

  /** Tag lists are built one tag at a time: a tag can be added to a valid list exactly when
      the list is below the limit, the tag is a string of 1..45 characters and it is not
      already there. Any list longer than the limit, or with a repeated tag, is refused. */
  lemma {:induction false} TagRules(tags: seq<Json>, t: Json)
    ensures ValidTags(JArray(tags + [t])) <==>
              ValidTags(JArray(tags)) && |tags| < TAGS_LIMIT && StringOfLength(t, 1, 45) && t !in tags
    ensures |tags| > TAGS_LIMIT ==> !ValidTags(JArray(tags))
    ensures (exists i, k :: 0 <= i < k < |tags| && tags[i] == tags[k]) ==> !ValidTags(JArray(tags))
  {
    var ts := tags + [t];
    assert forall i :: 0 <= i < |tags| ==> ts[i] == tags[i];
    if ValidTags(JArray(ts)) {
      assert StringOfLength(ts[|tags|], 1, 45);
    }
    if ValidTags(JArray(tags)) && |tags| < TAGS_LIMIT && StringOfLength(t, 1, 45) && t !in tags {
      forall i, k | 0 <= i < k < |ts| ensures ts[i] != ts[k] {
        if k == |tags| {
          assert ts[i] == tags[i];
        }
      }
    }
  }

  /** `stage` accepts exactly the four default stages. */
  lemma StageValues(s: string)
    ensures ValidStage(JString(s)) <==> s == "Prod" || s == "Stag" || s == "Dev" || s == "Test"
  {
  }

  /** A custom logger must be named, and only the allowed name passes. */
  lemma CustomLoggerNeedsName(name: string)
    ensures !ValidCustomLogger(JObject(map[]))
    ensures ValidCustomLogger(JObject(map["name" := JString(name)])) <==> name in ALLOWED_CUSTOM_LOGGERS
  {
    assert map["name" := JString(name)].Keys == {"name"};
  }
}

=== FILE: context_store.dfy ===
/** Where contexts live (`getContext`/`setContext` in src/index.ts): the global context when
    no domain is active, each request domain's own context, and nothing for any other
    domain, whose reads see a fresh empty context and whose writes are dropped. */
module ContextStore {
  import opened Types
  import opened TimelineBuffer

  /** The global context and the contexts attached to request domains, by domain id. */
  datatype Store = Store(global: Context, byDomain: map<nat, Context>)

  const InitialStore := Store(EmptyContext, map[])

  /** `getContext(activeDomain)`. A request domain without a context yet reads as empty. */
  function GetContext(s: Store, d: Domain): (c: Context)
    ensures d == NoDomain ==> c == s.global
    ensures d == Foreign ==> c == EmptyContext
    ensures d.ReqWrap? && d.id !in s.byDomain ==> c == EmptyContext
  {
    match d
    case NoDomain => s.global
    case Foreign => EmptyContext
    case ReqWrap(id) => if id in s.byDomain then s.byDomain[id] else EmptyContext
  }

  /** `setContext(activeDomain, ctx)`. */
  function SetContext(s: Store, d: Domain, c: Context): (r: Store)
    ensures d == Foreign ==> r == s
    ensures d == NoDomain ==> r.byDomain == s.byDomain
    ensures d.ReqWrap? ==> r.global == s.global && r.byDomain.Keys == s.byDomain.Keys + {d.id}
  {
    match d
    case NoDomain => s.(global := c)
    case Foreign => s
    case ReqWrap(id) => s.(byDomain := s.byDomain[id := c])
  }

  /** What is written to the global context or a request domain reads back. */
  lemma GetAfterSet(s: Store, d: Domain, c: Context)
    requires d != Foreign
    ensures GetContext(SetContext(s, d, c), d) == c
  {
  }

  /** A write through one domain leaves every other domain's context as it was. */
  lemma SetIsolated(s: Store, d: Domain, e: Domain, c: Context)
    requires d != e
    ensures GetContext(SetContext(s, d, c), e) == GetContext(s, e)
  {
  }

  /** `trackTimelineItem` once the agent is initiated: the item goes to the active domain's
      context, bounded by `max`; the context is a request's only under a request domain. */
  function Track(s: Store, d: Domain, item: TimelineItem, max: int): (r: Store)
    ensures d == Foreign ==> r == s
    ensures d != Foreign ==> GetContext(r, d) == Append(GetContext(s, d), item, d.ReqWrap?, max)
  {
    SetContext(s, d, Append(GetContext(s, d), item, d.ReqWrap?, max))
  }

  /** Tracking a sequence of (domain, item) events in order, as interleaved requests do. */
  function TrackAll(s: Store, events: seq<(Domain, TimelineItem)>, max: int): Store
    decreases |events|
  {
    if |events| == 0 then s
    else
      var last := events[|events| - 1];
      Track(TrackAll(s, events[..|events| - 1], max), last.0, last.1, max)
  }

  /** The items of the events addressed to domain `d`, in order. */
  function ItemsFor(events: seq<(Domain, TimelineItem)>, d: Domain): (r: seq<TimelineItem>)
    ensures |r| <= |events|
    decreases |events|
  {
    if |events| == 0 then []
    else
      var last := events[|events| - 1];
      ItemsFor(events[..|events| - 1], d) + (if last.0 == d then [last.1] else [])
  }

  /** Context isolation: however events of different requests interleave, each context
      ends up exactly as if only its own items had been appended to it. */
  lemma {:induction false} TrackAllIsolated(s: Store, events: seq<(Domain, TimelineItem)>, max: int, d: Domain)
    requires d != Foreign
    ensures GetContext(TrackAll(s, events, max), d) == AppendAll(GetContext(s, d), ItemsFor(events, d), d.ReqWrap?, max)
    decreases |events|
  {
    if |events| > 0 {
      var prefix := events[..|events| - 1];
      var last := events[|events| - 1];
      TrackAllIsolated(s, prefix, max, d);
      var before := TrackAll(s, prefix, max);
      if last.0 == d {
        var items := ItemsFor(prefix, d);
        assert (items + [last.1])[..|items|] == items;
      } else {
        assert ItemsFor(events, d) == ItemsFor(prefix, d) + [];
        assert ItemsFor(prefix, d) + [] == ItemsFor(prefix, d);
        assert TrackAll(s, events, max)
               == SetContext(before, last.0, Append(GetContext(before, last.0), last.1, last.0.ReqWrap?, max));
        SetIsolated(before, last.0, d, Append(GetContext(before, last.0), last.1, last.0.ReqWrap?, max));
        assert GetContext(TrackAll(s, events, max), d) == GetContext(before, d);
      }
    }
  }

  /** A new request that receives at most `max - 1` items sees exactly its own items in
      order, whatever other requests did in between. */
  lemma NewRequestSeesOwnItems(s: Store, events: seq<(Domain, TimelineItem)>, max: int, id: nat)
    requires max >= 2 && id !in s.byDomain
    requires |ItemsFor(events, ReqWrap(id))| <= max - 1
    ensures var c := GetContext(TrackAll(s, events, max), ReqWrap(id));
            Live(c) == ItemsFor(events, ReqWrap(id)) && !c.isTimelineTrimmed
  {
    TrackAllIsolated(s, events, max, ReqWrap(id));
    AppendAllFromFresh(EmptyContext, ItemsFor(events, ReqWrap(id)), true, max);
  }
}

=== FILE: payload.dfy ===
/** Building what is submitted (`prepareSubmissionPayload` and the anonymous crash report
    of `submitDjatyCrashReport` in src/index.ts): pure record construction from the current
    context, the global context, the options and host facts. */
module Payload {
  import opened Wrappers
  import opened Text
  import opened Types
  import opened Utils
  import opened TimelineBuffer
  import opened ContextStore

  const TITLE_LIMIT := 255

  /** The per-bug arguments the trackers produce: a hash and the titles. */
  datatype CtxArgs = CtxArgs(hash: string, shortTitle: string, longTitle: string)

  /** Titles cut with `substr(0, 255)`; the long title repeats the short one. */
  function TitledArgs(hash: string, text: string): (a: CtxArgs)
    ensures a.hash == hash && a.longTitle == a.shortTitle
    ensures |a.shortTitle| <= TITLE_LIMIT && StartsWith(text, a.shortTitle)
    ensures |text| <= TITLE_LIMIT ==> a.shortTitle == text
    ensures |text| > TITLE_LIMIT ==> |a.shortTitle| == TITLE_LIMIT
  {
    var t := Take(text, TITLE_LIMIT);
    CtxArgs(hash, t, t)
  }

  /** The timeline a submission reports: the context's (with its trimmed prefix when
      trimmed), else the global context's. */
  function ChosenTimeline(s: Store, d: Domain): (r: Option<seq<TimelineItem>>)
    ensures GetContext(s, d).timeline.None? ==> r == s.global.timeline
    ensures GetContext(s, d).timeline.Some? && !GetContext(s, d).isTimelineTrimmed ==> r == GetContext(s, d).timeline
    ensures GetContext(s, d).timeline.Some? && GetContext(s, d).isTimelineTrimmed ==>
              r == Some(GetContext(s, d).trimmedItems + GetContext(s, d).timeline.value)
  {
    var ctx := GetContext(s, d);
    match Contents(ctx)
    case Some(tl) => Some(tl)
    case None => s.global.timeline
  }

  /** The user filters a submission passes through: the global ones, then the context's. */
  function FilterList(globalHandlers: seq<nat>, s: Store, d: Domain): (r: seq<nat>)
    ensures |r| == |globalHandlers| + |GetContext(s, d).handlers|
    ensures r[..|globalHandlers|] == globalHandlers
    ensures r[|globalHandlers|..] == GetContext(s, d).handlers
  {
    globalHandlers + GetContext(s, d).handlers
  }

  /** The user `getUserFromReq` takes from the request object, in a request domain only.
      Its `userIp` key is always set, to the request's address or to `undefined`, so that
      user is never empty. */
  function RequestUser(d: Domain, reqUser: nat -> User): (u: User)
    ensures !d.ReqWrap? ==> u == NoUser
    ensures d.ReqWrap? ==> u.userIp.Has? && !u.IsEmpty()
  {
    if !d.ReqWrap? then NoUser
    else
      var u := reqUser(d.id);
      if u.userIp.Has? then u else u.(userIp := Has(Undefined))
  }

  /** The local address as reported: the IPv6 loopback is written as `127.0.0.1`. */
  function ReportedLocalIp(ip: string): (r: string)
    ensures r != "::1"
    ensures ip != "::1" ==> r == ip
    ensures ip == "::1" ==> r == "127.0.0.1"
  {
    if ip == "::1" then "127.0.0.1" else ip
  }

  /** A request's remote address and the server's own address are normalised by the same
      loopback rule, whichever of the request's two sources supplies the address. */
  lemma LoopbackRuleShared(a: string)
    requires a != ""
    ensures GetReqIP(Some(a), None) == Some(ReportedLocalIp(a))
    ensures GetReqIP(None, Some(a)) == Some(ReportedLocalIp(a))
  {
  }

  /** The `TypeError` `_.last(timeline).itemType` raises when there is nothing to report. */
  function NoTimelineError(frames: (string, string) -> string): ErrorObj {
    MadeError("TypeError", "Cannot read property 'itemType' of undefined", frames)
  }

  /** `prepareSubmissionPayload(activeDomain, ctxArgs)`. It fails, as the source throws,
      when the chosen timeline is missing or empty. Otherwise it reports one bug whose type
      is that of the last timeline item, whose request id is the context's or else the global
      one, which is temporary exactly when auto-submission is off and there is a request id,
      whose custom data is the global list then the context's (absent when both are empty),
      and whose user merges the request's user under the context's; keys, release, stage
      and tags come from the options and the global context. */
  function PrepareSubmissionPayload(s: Store, customDataList: seq<Value>, o: Options, d: Domain,
                                    args: CtxArgs, reqUser: nat -> User, host: HostInfo,
                                    frames: (string, string) -> string)
    : (r: Result<AgentData, ErrorObj>)
    ensures var tl := ChosenTimeline(s, d);
            r.Ok? <==> tl.Some? && |tl.value| > 0
    ensures r.Err? ==> r.error == NoTimelineError(frames)
    ensures r.Ok? ==>
              var ctx := GetContext(s, d);
              var tl := ChosenTimeline(s, d).value;
              var data := r.value;
              && |data.batch| == 1
              && data.batch[0].timeline == tl
              && data.batch[0].bugType == tl[|tl| - 1].ItemType()
              && data.batch[0].djatyReqId == OrStr(ctx.djatyReqId, s.global.djatyReqId)
              && (data.batch[0].isTemp <==> !o.allowAutoSubmission && Truthy(data.batch[0].djatyReqId))
              && (data.batch[0].customData.None? <==> customDataList == [] && ctx.customData == [])
              && (data.batch[0].customData.Some? ==> data.batch[0].customData.value == customDataList + ctx.customData)
              && data.batch[0].hash == args.hash
              && data.batch[0].shortTitle == args.shortTitle && data.batch[0].longTitle == args.longTitle
              && (data.batch[0].user.None? <==> RequestUser(d, reqUser).IsEmpty() && ctx.user.IsEmpty())
              && (data.batch[0].user.Some? ==> data.batch[0].user.value == MergeUser(RequestUser(d, reqUser), ctx.user))
              && data.apiKey == o.apiKey && data.apiSecret == o.apiSecret && data.release == o.release
              && data.stage == s.global.stage && data.tags == s.global.tags
              && data.serverLocalIp != "::1"
    ensures r.Ok? && d.ReqWrap? ==> r.value.batch[0].user.Some? && r.value.batch[0].user.value.userIp.Has?
  {
    var ctx := GetContext(s, d);
    match ChosenTimeline(s, d)
    case None => Err(NoTimelineError(frames))
    case Some(tl) =>
      if |tl| == 0 then Err(NoTimelineError(frames))
      else
        var djatyReqId := OrStr(ctx.djatyReqId, s.global.djatyReqId);
        var customData := customDataList + ctx.customData;
        var user := MergeUser(RequestUser(d, reqUser), ctx.user);
        var item := BatchItem(
          tl[|tl| - 1].ItemType(),
          if |customData| > 0 then Some(customData) else None,
          djatyReqId,
          args.hash,
          !o.allowAutoSubmission && Truthy(djatyReqId),
          args.longTitle,
          args.shortTitle,
          tl,
          if user.IsEmpty() then None else Some(user));
        Ok(AgentData([item], AGENT_ID, host.agentVersion, o.apiKey, o.apiSecret, HASH_TYPE, PLATFORM,
                     host.nodeVersion, o.release, ReportedLocalIp(host.localIp), host.computerName,
                     s.global.stage, s.global.tags))
  }

  /** Once an item has been appended to a context that is consistent about its trimmed
      prefix, a submission from that context has a timeline to report. */
  lemma PrepareAfterAppendSucceeds(s: Store, d: Domain, item: TimelineItem, max: int,
                                   customDataList: seq<Value>, o: Options, args: CtxArgs,
                                   reqUser: nat -> User, host: HostInfo, frames: (string, string) -> string)
    requires d != Foreign && TrimConsistent(GetContext(s, d))
    ensures PrepareSubmissionPayload(Track(s, d, item, max), customDataList, o, d, args, reqUser, host, frames).Ok?
  {
    AppendTrimConsistent(GetContext(s, d), item, d.ReqWrap?, max);
  }

  /** A submission from a foreign domain reports the global timeline, never anything a
      request context holds. */
  lemma ForeignReportsGlobalTimeline(s: Store)
    ensures ChosenTimeline(s, Foreign) == s.global.timeline
  {
  }

  /** The anonymous crash report of an agent failure: one exception bug with the parsed
      error as its only timeline item, the project key only inside the custom data, and no
      keys, release, stage, tags, request id or user. */
  function CrashPayload(err: ErrorObj, maxFrames: int, sha256: string -> string, apiKey: Option<string>,
                        host: HostInfo): (r: AgentData)
    ensures r.apiKey.None? && r.apiSecret.None? && r.release.None? && r.stage.None? && r.tags.None?
    ensures r.serverName == "Anonymous" && r.serverLocalIp == "Anonymous"
    ensures |r.batch| == 1
    ensures var b := r.batch[0];
            && b.timeline == [ParseError(err, maxFrames, sha256)]
            && b.bugType == ExceptionType && !b.isTemp
            && b.customData == Some([KeyRecord(apiKey)])
            && b.djatyReqId.None? && b.user.None?
            && b.hash == ParseError(err, maxFrames, sha256).hash
            && |b.shortTitle| <= TITLE_LIMIT && b.longTitle == b.shortTitle
  {
    var exc := ParseError(err, maxFrames, sha256);
    var args := TitledArgs(exc.hash, exc.msg);
    var item := BatchItem(exc.ItemType(), Some([KeyRecord(apiKey)]), None, args.hash, false,
                          args.longTitle, args.shortTitle, [exc], None);
    AgentData([item], AGENT_ID, host.agentVersion, None, None, HASH_TYPE, PLATFORM, host.nodeVersion,
              None, "Anonymous", "Anonymous", None, None)
  }
}

=== FILE: text.dfy ===
/** String helpers with the semantics of the JavaScript built-ins the agent uses:
    `split` on a separator character (or a one-character class such as `/[&;]/`), `join`,
    `substr(0, n)`, the `lastIndexOf(prefix, 0) !== -1` starts-with idiom, ASCII case folding
    and decimal rendering of integers. Strings are `seq<char>`. */
module Text {

  /** No character of `s` is one of `seps`. */
  predicate NoneIn(s: string, seps: set<char>) {
    forall i :: 0 <= i < |s| ==> s[i] !in seps
  }

  /** `s` begins with `prefix`. */
  predicate StartsWith(s: string, prefix: string) {
    |prefix| <= |s| && s[..|prefix|] == prefix
  }

  /** `s.substr(0, n)`: the first `n` characters, or all of `s` when it is shorter. */
  function Take(s: string, n: nat): (r: string)
    ensures |r| == if n < |s| then n else |s|
    ensures StartsWith(s, r)
  {
    if n < |s| then s[..n] else s
  }

  /** `s.split(sep)` where `sep` matches exactly the characters in `seps`: the maximal runs
      between separators, in order; the empty string splits into `[""]`. */
  function Split(s: string, seps: set<char>): (parts: seq<string>)
    ensures |parts| >= 1
    ensures forall i :: 0 <= i < |parts| ==> NoneIn(parts[i], seps)
    ensures NoneIn(s, seps) ==> parts == [s]
    ensures |parts| == 1 ==> NoneIn(s, seps)
    decreases |s|
  {
    if |s| == 0 then [""]
    else
      var rest := Split(s[1..], seps);
      if s[0] in seps then [""] + rest
      else
        assert NoneIn(s, seps) ==> NoneIn(s[1..], seps) && [s[0]] + s[1..] == s;
        [[s[0]] + rest[0]] + rest[1..]
  }

  /** `parts.join(sep)`. */
  function Join(parts: seq<string>, sep: string): string
    decreases |parts|
  {
    if |parts| == 0 then ""
    else if |parts| == 1 then parts[0]
    else parts[0] + sep + Join(parts[1..], sep)
  }

  /** Joining with the separator character restores the split string. */
  lemma {:induction false} JoinSplit(s: string, c: char)
    ensures Join(Split(s, {c}), [c]) == s
    decreases |s|
  {
    if |s| > 0 {
      JoinSplit(s[1..], c);
      var rest := Split(s[1..], {c});
      if s[0] == c {
        assert Split(s, {c}) == [""] + rest;
        JoinCons("", rest, [c]);
      } else {
        assert Split(s, {c}) == [[s[0]] + rest[0]] + rest[1..];
        JoinHead(s[0], rest, [c]);
      }
    }
  }

  /** `Join([a] + rest, sep) == a + sep + Join(rest, sep)` for a non-empty `rest`. */
  lemma JoinCons(a: string, rest: seq<string>, sep: string)
    requires |rest| >= 1
    ensures Join([a] + rest, sep) == a + sep + Join(rest, sep)
  {
    assert ([a] + rest)[1..] == rest;
  }

  /** Prepending a character to the first part prepends it to the joined string. */
  lemma {:induction false} JoinHead(x: char, parts: seq<string>, sep: string)
    requires |parts| >= 1
    ensures Join([[x] + parts[0]] + parts[1..], sep) == [x] + Join(parts, sep)
  {
    var ps := [[x] + parts[0]] + parts[1..];
    if |parts| == 1 {
      assert ps == [[x] + parts[0]];
    } else {
      assert ps[1..] == parts[1..];
    }
  }

  /** Splitting a separator-free string followed by a separator and more text yields the
      string itself as the first part. */
  lemma {:induction false} SplitAfterPrefix(a: string, c: char, b: string, seps: set<char>)
    requires NoneIn(a, seps) && c in seps
    ensures Split(a + [c] + b, seps) == [a] + Split(b, seps)
    decreases |a|
  {
    var s := a + [c] + b;
    if |a| == 0 {
      assert s == [c] + b;
      assert s[1..] == b;
    } else {
      assert s[0] == a[0];
      assert s[1..] == a[1..] + [c] + b;
      SplitAfterPrefix(a[1..], c, b, seps);
      assert [a[0]] + a[1..] == a;
    }
  }

  /** Splitting a join undoes it when no part contains a separator. */
  lemma {:induction false} SplitJoin(parts: seq<string>, c: char, seps: set<char>)
    requires |parts| >= 1 && c in seps
    requires forall i :: 0 <= i < |parts| ==> NoneIn(parts[i], seps)
    ensures Split(Join(parts, [c]), seps) == parts
    decreases |parts|
  {
    if |parts| > 1 {
      SplitJoin(parts[1..], c, seps);
      SplitAfterPrefix(parts[0], c, Join(parts[1..], [c]), seps);
      assert [parts[0]] + parts[1..] == parts;
    }
  }

  /** When a string has a separator, its first part is the text before the first separator
      and the remaining parts rejoin to the text after it. */
  lemma SplitFirst(s: string, c: char)
    requires |Split(s, {c})| >= 2
    ensures var parts := Split(s, {c});
            s == parts[0] + [c] + Join(parts[1..], [c])
  {
    var parts := Split(s, {c});
    JoinSplit(s, c);
    JoinCons(parts[0], parts[1..], [c]);
    assert [parts[0]] + parts[1..] == parts;
  }

  /** ASCII lower-casing of one character. */
  function LowerChar(c: char): (r: char)
    ensures 'A' <= c <= 'Z' ==> 'a' <= r <= 'z'
    ensures !('A' <= c <= 'Z') ==> r == c
  {
    if 'A' <= c <= 'Z' then (c as int - 'A' as int + 'a' as int) as char else c
  }

  /** ASCII lower-casing of a string. */
  function Lower(s: string): (r: string)
    ensures |r| == |s|
    ensures forall i :: 0 <= i < |s| ==> r[i] == LowerChar(s[i])
  {
    seq(|s|, i requires 0 <= i < |s| => LowerChar(s[i]))
  }

  /** The decimal digit for `d`. */
  function DigitChar(d: nat): char
    requires d < 10
  {
    "0123456789"[d]
  }

  /** Decimal rendering of a natural number, most significant digit first. */
  function NatToString(n: nat): (r: string)
    ensures |r| >= 1
    ensures forall i :: 0 <= i < |r| ==> '0' <= r[i] <= '9'
    decreases n
  {
    if n < 10 then [DigitChar(n)] else NatToString(n / 10) + [DigitChar(n % 10)]
  }

  /** `String(n)` for an integer `n`. */
  function IntToString(n: int): string {
    if n < 0 then "-" + NatToString(-n) else NatToString(n)
  }
}

=== FILE: timeline.dfy ===
/** The bounded timeline of one context (`trackTimelineItem` and `resetCtxTimeline` in
    src/index.ts): an order-preserving list that, on its first overflow, is trimmed once and
    from then on slides, plus the privacy reset used before a diagnostic resend. */
module TimelineBuffer {
  import opened Wrappers
  import opened Types

  /** The live timeline; an undefined timeline reads as empty. */
  function Live(c: Context): seq<TimelineItem> {
    c.timeline.GetOr([])
  }

  /** `Array.prototype.shift` for its effect: drops the first element of a non-empty list. */
  function Shift<T>(s: seq<T>): (r: seq<T>)
    ensures |s| > 0 ==> r == s[1..]
    ensures |s| == 0 ==> r == []
  {
    if |s| == 0 then s else s[1..]
  }

  /** The items a submission reports for this context, when it has a timeline: the trimmed
      prefix followed by the live items once the timeline was trimmed. */
  function Contents(c: Context): Option<seq<TimelineItem>> {
    if c.timeline.Some? && c.isTimelineTrimmed then Some(c.trimmedItems + c.timeline.value) else c.timeline
  }

  /** Appending one item (the part of `trackTimelineItem` after the `isInitiated` guard).
      `reqBound` says the context belongs to a request domain; `max` is `maxTimelineItems`.
      Only the three timeline fields change, a trimmed timeline stays trimmed and keeps its
      length, and an append that does not overflow just adds the item at the end. */
  function Append(c: Context, item: TimelineItem, reqBound: bool, max: int): (r: Context)
    ensures r == c.(timeline := r.timeline, isTimelineTrimmed := r.isTimelineTrimmed, trimmedItems := r.trimmedItems)
    ensures r.timeline.Some?
    ensures c.isTimelineTrimmed ==> r.isTimelineTrimmed && r.trimmedItems == c.trimmedItems
    ensures c.isTimelineTrimmed ==> |Live(r)| == |Live(c)|
    ensures !c.isTimelineTrimmed && |Live(c)| + 1 <= max - 1 ==> r == c.(timeline := Some(Live(c) + [item]))
    ensures !c.isTimelineTrimmed && |Live(c)| + 1 > max - 1 ==>
              r.isTimelineTrimmed && r.trimmedItems == (if reqBound then [(Live(c) + [item])[0], TrimmingItem]
                                                        else [TrimmingItem])
  {
    var tl := Live(c) + [item];
    if c.isTimelineTrimmed then
      c.(timeline := Some(Shift(tl)))
    else if |tl| > max - 1 then
      var trimmed := if reqBound then [tl[0], TrimmingItem] else [TrimmingItem];
      var rest := if reqBound then Shift(Shift(tl)) else Shift(tl);
      c.(timeline := Some(rest), isTimelineTrimmed := true, trimmedItems := trimmed)
    else
      c.(timeline := Some(tl))
  }

  /** Appending a list of items one after the other. */
  function AppendAll(c: Context, xs: seq<TimelineItem>, reqBound: bool, max: int): Context
    decreases |xs|
  {
    if |xs| == 0 then c
    else Append(AppendAll(c, xs[..|xs| - 1], reqBound, max), xs[|xs| - 1], reqBound, max)
  }

  /** The size bound of a timeline under the limit `max`: the live list leaves one place
      free, and once trimmed the reported items fit in `max`. */
  predicate Bounded(c: Context, max: int) {
    && |Live(c)| <= max - 1
    && (c.isTimelineTrimmed ==> |c.trimmedItems| + |Live(c)| <= max)
  }

  /** A trimmed timeline reports a non-empty prefix ending in the trimming marker. */
  predicate TrimConsistent(c: Context) {
    c.isTimelineTrimmed ==> |c.trimmedItems| >= 1 && c.trimmedItems[|c.trimmedItems| - 1] == TrimmingItem
  }

  /** One append keeps the bound when the limit is at least 2, keeps the trimmed prefix
      consistent, and always leaves something to report. */
  lemma AppendBounded(c: Context, item: TimelineItem, reqBound: bool, max: int)
    requires max >= 2 && Bounded(c, max)
    ensures Bounded(Append(c, item, reqBound, max), max)
  {
  }

  /** The live part alone stays below the limit for every limit of at least 1. */
  lemma AppendLiveBounded(c: Context, item: TimelineItem, reqBound: bool, max: int)
    requires |Live(c)| <= max - 1
    ensures |Live(Append(c, item, reqBound, max))| <= max - 1
  {
  }

  /** A limit of 1 keeps the live part empty, yet a request context then reports its first
      item and the trimming marker: two items, one more than the limit. */
  lemma UnitLimitReportsTwo(x: TimelineItem)
    ensures var r := Append(EmptyContext, x, true, 1);
            && Live(r) == [] && Contents(r) == Some([x, TrimmingItem])
            && !Bounded(r, 1)
  {
    assert Live(EmptyContext) + [x] == [x];
    var r := Append(EmptyContext, x, true, 1);
    assert r.timeline == Some([]) && r.trimmedItems == [x, TrimmingItem];
    assert r.trimmedItems + r.timeline.value == [x, TrimmingItem];
  }

  lemma AppendTrimConsistent(c: Context, item: TimelineItem, reqBound: bool, max: int)
    requires TrimConsistent(c)
    ensures TrimConsistent(Append(c, item, reqBound, max))
    ensures var r := Append(c, item, reqBound, max);
            Contents(r).Some? && |Contents(r).value| >= 1
  {
  }

  /** Any sequence of appends keeps the bound. */
  lemma {:induction false} AppendAllBounded(c: Context, xs: seq<TimelineItem>, reqBound: bool, max: int)
    requires max >= 2 && Bounded(c, max)
    ensures Bounded(AppendAll(c, xs, reqBound, max), max)
    ensures AppendAll(c, xs, reqBound, max).timeline.Some? || xs == []
    decreases |xs|
  {
    if |xs| > 0 {
      AppendAllBounded(c, xs[..|xs| - 1], reqBound, max);
      AppendBounded(AppendAll(c, xs[..|xs| - 1], reqBound, max), xs[|xs| - 1], reqBound, max);
    }
  }

  /** Appends change nothing outside the three timeline fields. */
  lemma {:induction false} AppendAllFrame(c: Context, xs: seq<TimelineItem>, reqBound: bool, max: int)
    ensures var r := AppendAll(c, xs, reqBound, max);
            r == c.(timeline := r.timeline, isTimelineTrimmed := r.isTimelineTrimmed, trimmedItems := r.trimmedItems)
    decreases |xs|
  {
    if |xs| > 0 {
      AppendAllFrame(c, xs[..|xs| - 1], reqBound, max);
    }
  }

  /** The append that first overflows an untrimmed timeline of `max - 1` items. */
  lemma FirstOverflow(p: Context, x: TimelineItem, reqBound: bool, max: int)
    requires max >= 2 && !p.isTimelineTrimmed && |Live(p)| == max - 1
    ensures var r := Append(p, x, reqBound, max);
            var tl := Live(p) + [x];
            && r.isTimelineTrimmed
            && r.trimmedItems == (if reqBound then [tl[0], TrimmingItem] else [TrimmingItem])
            && Live(r) == (if reqBound then tl[2..] else tl[1..])
  {
  }

  /** An append to a trimmed timeline slides it by one. */
  lemma Slide(p: Context, x: TimelineItem, reqBound: bool, max: int)
    requires p.isTimelineTrimmed
    ensures var r := Append(p, x, reqBound, max);
            r.isTimelineTrimmed && r.trimmedItems == p.trimmedItems && Live(r) == (Live(p) + [x])[1..]
  {
  }

  /** The exact state after appending `xs` to a context with an empty, untrimmed timeline,
      for a limit of at least 2. Up to `max - 1` items are kept as they are. From the first
      overflow on, the trimmed prefix is `[first item, TRIMMING]` in a request context and
      `[TRIMMING]` elsewhere, and the live items are the newest `w` appended items in
      insertion order, with `w` the room the prefix leaves. */
  lemma {:induction false} AppendAllFromFresh(c: Context, xs: seq<TimelineItem>, reqBound: bool, max: int)
    requires max >= 2 && Live(c) == [] && !c.isTimelineTrimmed
    ensures var r := AppendAll(c, xs, reqBound, max);
            var w := if reqBound then max - 2 else max - 1;
            && (|xs| <= max - 1 ==> !r.isTimelineTrimmed && Live(r) == xs)
            && (|xs| >= max ==> && r.isTimelineTrimmed
                                && r.trimmedItems == (if reqBound then [xs[0], TrimmingItem] else [TrimmingItem])
                                && Live(r) == xs[|xs| - w..])
    decreases |xs|
  {
    if |xs| > 0 {
      var n := |xs|;
      var ys := xs[..n - 1];
      var x := xs[n - 1];
      AppendAllFromFresh(c, ys, reqBound, max);
      var p := AppendAll(c, ys, reqBound, max);
      var r := Append(p, x, reqBound, max);
      assert AppendAll(c, xs, reqBound, max) == r;
      assert ys + [x] == xs;
      var w := if reqBound then max - 2 else max - 1;
      if n <= max - 1 {
        assert Live(r) == Live(p) + [x];
      } else if n == max {
        FirstOverflow(p, x, reqBound, max);
        assert Live(p) + [x] == xs;
      } else {
        Slide(p, x, reqBound, max);
        assert Live(p) == ys[|ys| - w..];
        if w > 0 {
          assert Live(p) + [x] == xs[n - 1 - w..];
          assert xs[n - 1 - w..][1..] == xs[n - w..];
        } else {
          assert xs[n - w..] == [];
        }
        assert ys[0] == xs[0];
      }
    }
  }

  /** `resetCtxTimeline`: clears the trimmed flag and replaces the timeline with the
      trimming marker, keeping the first item in front of it exactly when the context is a
      request's and that item is the request marker with a request id. The trimmed prefix is
      left as it was. An undefined timeline makes the source throw after the flag is
      cleared; `ResetFaults` reports that case. */
  function Reset(c: Context, reqBound: bool): (r: Context)
    ensures !r.isTimelineTrimmed && r.trimmedItems == c.trimmedItems
    ensures r == c.(timeline := r.timeline, isTimelineTrimmed := false)
    ensures c.timeline.None? ==> r.timeline.None?
    ensures c.timeline.Some? ==>
              var tl := c.timeline.value;
              && (reqBound && |tl| > 0 && tl[0].IsRequestMarker() ==> r.timeline == Some([tl[0], TrimmingItem]))
              && (!(reqBound && |tl| > 0 && tl[0].IsRequestMarker()) ==> r.timeline == Some([TrimmingItem]))
  {
    var cleared := c.(isTimelineTrimmed := false);
    match c.timeline
    case None => cleared
    case Some(tl) =>
      if |tl| == 0 || !reqBound || !tl[0].IsRequestMarker() then cleared.(timeline := Some([TrimmingItem]))
      else cleared.(timeline := Some([tl[0], TrimmingItem]))
  }

  /** The source throws a `TypeError` when it resets a context without a timeline. */
  predicate ResetFaults(c: Context) {
    c.timeline.None?
  }

  /** Resetting twice is resetting once. */
  lemma ResetIdempotent(c: Context, reqBound: bool)
    ensures Reset(Reset(c, reqBound), reqBound) == Reset(c, reqBound)
  {
  }

  /** A reset leaves at most two live items, so it keeps the bound for limits of 3 or more. */
  lemma ResetBounded(c: Context, reqBound: bool, max: int)
    requires max >= 3
    ensures Bounded(Reset(c, reqBound), max)
    ensures TrimConsistent(Reset(c, reqBound))
  {
  }

  /** After a trim in a request context the request marker sits in the trimmed prefix, not in
      the live timeline. A later reset therefore keeps only the trimming marker, and, the
      flag being cleared, the next report no longer shows the request. This holds for every
      limit and every run of appends that overflows it, as long as only the first appended
      item is a request marker. */
  lemma ResetAfterTrimLosesRequest(xs: seq<TimelineItem>, max: int)
    requires max >= 2 && |xs| >= max
    requires xs[0].IsRequestMarker()
    requires forall i :: 1 <= i < |xs| ==> !xs[i].IsRequestMarker()
    ensures var c := AppendAll(EmptyContext, xs, true, max);
            && c.isTimelineTrimmed && c.trimmedItems == [xs[0], TrimmingItem]
            && Live(c) == xs[|xs| - (max - 2)..]
            && Reset(c, true).timeline == Some([TrimmingItem])
            && Contents(Reset(c, true)) == Some([TrimmingItem])
  {
    AppendAllFromFresh(EmptyContext, xs, true, max);
    var c := AppendAll(EmptyContext, xs, true, max);
    AppendAllFrame(EmptyContext, xs, true, max);
    if |Live(c)| > 0 {
      assert Live(c)[0] == xs[|xs| - (max - 2)];
    }
  }

  /** A request marker appended after the trim is what a reset keeps: it heads the live
      timeline, so the reset reports it with the trimming marker, not the trimmed first one. */
  lemma LaterMarkerSurvivesReset(m1: TimelineItem, x: TimelineItem, m2: TimelineItem)
    requires m1.IsRequestMarker() && m2.IsRequestMarker()
    ensures var c := AppendAll(EmptyContext, [m1, x, m2], true, 3);
            && c.isTimelineTrimmed && c.trimmedItems == [m1, TrimmingItem] && Live(c) == [m2]
            && Reset(c, true).timeline == Some([m2, TrimmingItem])
  {
    AppendAllFromFresh(EmptyContext, [m1, x, m2], true, 3);
    var c := AppendAll(EmptyContext, [m1, x, m2], true, 3);
    assert Live(c) == [m1, x, m2][2..] == [m2];
  }

  /** With a limit of 2 a request context keeps nothing live after its first overflow:
      every newer item is dropped as soon as it is appended. */
  lemma TightLimitDropsNewItems(xs: seq<TimelineItem>)
    requires |xs| >= 2
    ensures var r := AppendAll(EmptyContext, xs, true, 2);
            Live(r) == [] && Contents(r) == Some([xs[0], TrimmingItem])
  {
    AppendAllFromFresh(EmptyContext, xs, true, 2);
    var r := AppendAll(EmptyContext, xs, true, 2);
    assert Live(r) == xs[|xs|..] == [];
    AppendAllBounded(EmptyContext, xs, true, 2);
    assert r.trimmedItems + [] == [xs[0], TrimmingItem];
  }
}

=== FILE: transport.dfy ===
/** The decision logic of the collector transport (src/transport.ts) without sockets:
    request options, header lookup, the server-error rule, and how a response or a request
    error becomes a callback, or none. */
module Transport {
  import opened Wrappers
  import opened Text
  import opened Types

  const DJATY_NOT_SUPPORTED_REDIRECTION := "DJATY_NOT_SUPPORTED_REDIRECTION"
  const CRASH_REPORT_QUERY := "?reportedAgent=nodeJsBackendAgent"

  /** The socket error codes treated as a transient server failure. `ECONNREFUSED` is
      deliberately not among them. */
  const SERVER_ERR_RETRY_CODES: seq<string> := ["ESOCKETTIMEDOUT", "EHOSTUNREACH", "ECONNRESET", "ETIMEDOUT"]

  /** Response headers, in `Object.keys` order. */
  type ResponseHeaders = seq<(string, string)>

  /** Request headers; a value may be `undefined`. */
  type RequestHeaders = seq<(string, Option<string>)>

  // ---------------------------------------------------------------------------------------
  // findHeaderVal

  /** The index of the first header whose name equals `lowerTarget` ignoring ASCII case. */
  function FindIndexIgnoringCase(headers: ResponseHeaders, lowerTarget: string): (i: int)
    ensures -1 <= i < |headers|
    ensures i >= 0 ==> Lower(headers[i].0) == lowerTarget
    ensures i >= 0 ==> forall j :: 0 <= j < i ==> Lower(headers[j].0) != lowerTarget
    ensures i == -1 <==> forall j :: 0 <= j < |headers| ==> Lower(headers[j].0) != lowerTarget
    decreases |headers|
  {
    if |headers| == 0 then -1
    else if Lower(headers[0].0) == lowerTarget then 0
    else
      var k := FindIndexIgnoringCase(headers[1..], lowerTarget);
      if k == -1 then -1 else k + 1
  }

  /** `headerMap[key]`: the value stored under exactly `key`, if any. */
  function HeaderByKey(headers: ResponseHeaders, key: string): (r: Option<string>)
    ensures r.Some? ==> exists j :: 0 <= j < |headers| && headers[j] == (key, r.value)
    ensures r.None? <==> forall j :: 0 <= j < |headers| ==> headers[j].0 != key
    decreases |headers|
  {
    if |headers| == 0 then None
    else if headers[0].0 == key then Some(headers[0].1)
    else HeaderByKey(headers[1..], key)
  }

  /** `findHeaderVal(target, headerMap)`: the value of the first header whose name equals the
      target ignoring case. When there is none, `headerList[-1]` is `undefined` and the
      lookup reads the key "undefined". */
  function FindHeaderVal(target: string, headers: ResponseHeaders): (r: Option<string>)
    ensures (exists j :: 0 <= j < |headers| && Lower(headers[j].0) == Lower(target)) ==>
              exists j :: 0 <= j < |headers| && Lower(headers[j].0) == Lower(target)
                          && r == Some(headers[j].1)
                          && forall m :: 0 <= m < j ==> Lower(headers[m].0) != Lower(target)
    ensures (forall j :: 0 <= j < |headers| ==> Lower(headers[j].0) != Lower(target)) ==>
              r == HeaderByKey(headers, "undefined")
  {
    var i := FindIndexIgnoringCase(headers, Lower(target));
    if i >= 0 then Some(headers[i].1) else HeaderByKey(headers, "undefined")
  }

  /** A header that is not there reads as `undefined` unless some header is literally named
      "undefined". */
  lemma FindHeaderValAbsent(target: string, headers: ResponseHeaders)
    requires forall j :: 0 <= j < |headers| ==> Lower(headers[j].0) != Lower(target) && headers[j].0 != "undefined"
    ensures FindHeaderVal(target, headers) == None
  {
  }

  // ---------------------------------------------------------------------------------------
  // isServerErr

  /** `isServerErr(err)`: a retryable socket code or an HTTP status of 500 or more. */
  predicate IsServerErr(code: Option<string>, statusCode: Option<int>)
    ensures IsServerErr(code, statusCode) <==>
              || code in {Some("ESOCKETTIMEDOUT"), Some("EHOSTUNREACH"), Some("ECONNRESET"), Some("ETIMEDOUT")}
              || (statusCode.Some? && statusCode.value >= 500)
  {
    (code.Some? && code.value in SERVER_ERR_RETRY_CODES) || (statusCode.Some? && statusCode.value >= 500)
  }

  /** A refused connection is not a server error, whatever status below 500 it carries. */
  lemma ConnRefusedIsNotServerErr(statusCode: Option<int>)
    requires statusCode.None? || statusCode.value < 500
    ensures !IsServerErr(Some("ECONNREFUSED"), statusCode)
  {
  }

  // ---------------------------------------------------------------------------------------
  // Request options

  /** The value stored under `key` in request headers: `None` when absent. */
  function RequestHeader(headers: RequestHeaders, key: string): Option<Option<string>>
    decreases |headers|
  {
    if |headers| == 0 then None
    else if headers[0].0 == key then Some(headers[0].1)
    else RequestHeader(headers[1..], key)
  }

  /** `{...headers, [key]: v}`: an existing key keeps its place and takes the new value, a new
      key goes last. */
  function SetRequestHeader(headers: RequestHeaders, key: string, v: Option<string>): (r: RequestHeaders)
    ensures RequestHeader(r, key) == Some(v)
    ensures forall k :: k != key ==> RequestHeader(r, k) == RequestHeader(headers, k)
    decreases |headers|
  {
    if |headers| == 0 then [(key, v)]
    else if headers[0].0 == key then [(key, v)] + headers[1..]
    else [headers[0]] + SetRequestHeader(headers[1..], key, v)
  }

  /** The options `http.request` receives. */
  datatype ReqOptions = ReqOptions(
    path: string,
    headers: RequestHeaders,
    verb: string,
    port: Option<int>,
    hostname: Option<string>,
    host: Option<string>,
    secure: Option<bool>)

  /** The part of the options the proxy section contributes. */
  datatype ProxyReqOptions = ProxyReqOptions(headers: RequestHeaders, host: Option<string>,
                                             secure: Option<bool>, port: Option<int>)

  /** `getProxyReqOptions(headers, proxy)`: the `Host` header becomes the proxy's hostname and a
      missing (or zero) port becomes 443 for a secure proxy and 80 otherwise. */
  function GetProxyReqOptions(headers: RequestHeaders, proxy: Endpoint): (r: ProxyReqOptions)
    ensures RequestHeader(r.headers, "Host") == Some(proxy.hostname)
    ensures forall k :: k != "Host" ==> RequestHeader(r.headers, k) == RequestHeader(headers, k)
    ensures r.host == proxy.hostname && r.secure == proxy.secure
    ensures proxy.port.Some? && proxy.port.value != 0 ==> r.port == proxy.port
    ensures (proxy.port.None? || proxy.port.value == 0) ==>
              r.port == Some(if proxy.secure == Some(true) then 443 else 80)
  {
    var port := if proxy.port.Some? && proxy.port.value != 0 then proxy.port
                else if proxy.secure == Some(true) then Some(443)
                else Some(80);
    ProxyReqOptions(SetRequestHeader(headers, "Host", proxy.hostname), proxy.hostname, proxy.secure, port)
  }

  /** A template literal renders `undefined` as the word. */
  function Render(s: Option<string>): string {
    s.GetOr("undefined")
  }

  /** The transport constructor: `Object.assign({}, initOpts, server, reqProxy)` where the
      server section overrides the keys it has and the proxy part, when configured, overrides
      headers, host, secure and port (even with `undefined`). A configured proxy's `secure`
      defaults to true. */
  function BuildReqOptions(server: Endpoint, proxy: Option<Endpoint>): (r: ReqOptions)
    ensures r.path == Render(server.apiPath) + BUGS_PATH
    ensures r.verb == "POST" && r.hostname == server.hostname
    ensures proxy.None? ==> r.headers == [("Content-Type", Some("application/json"))]
                            && r.port == server.port && r.host.None? && r.secure == server.secure
    ensures proxy.Some? ==> r.host == proxy.value.hostname
                            && RequestHeader(r.headers, "Host") == Some(proxy.value.hostname)
                            && RequestHeader(r.headers, "Content-Type") == Some(Some("application/json"))
  {
    var headers := [("Content-Type", Some("application/json"))];
    var init := ReqOptions(Render(server.apiPath) + BUGS_PATH, headers, "POST", server.port, None, None, None);
    var withServer := init.(hostname := server.hostname, secure := server.secure,
                            port := if server.port.Some? then server.port else init.port);
    match proxy
    case None => withServer
    case Some(p) =>
      var p1 := p.(secure := if p.secure.Some? then p.secure else Some(true));
      var pr := GetProxyReqOptions(headers, p1);
      withServer.(headers := pr.headers, host := pr.host, secure := pr.secure, port := pr.port)
  }

  /** `getReqOptions(isCrashReport)`: crash reports go to the same path with the reporting
      agent in the query; other sends use the options unchanged. */
  function GetReqOptions(o: ReqOptions, isCrashReport: bool): (r: ReqOptions)
    ensures r == o.(path := r.path)
    ensures StartsWith(r.path, o.path)
    ensures isCrashReport <==> r.path != o.path
    ensures isCrashReport ==> r.path[|o.path|..] == CRASH_REPORT_QUERY
  {
    if isCrashReport then o.(path := o.path + CRASH_REPORT_QUERY) else o
  }

  /** Both kinds of send target the collector's bug path; the crash path extends it. */
  lemma RequestPaths(server: Endpoint, proxy: Option<Endpoint>)
    ensures var o := BuildReqOptions(server, proxy);
            && GetReqOptions(o, false).path == Render(server.apiPath) + BUGS_PATH
            && GetReqOptions(o, true).path == Render(server.apiPath) + BUGS_PATH + CRASH_REPORT_QUERY
            && StartsWith(GetReqOptions(o, true).path, GetReqOptions(o, false).path)
  {
    var o := BuildReqOptions(server, proxy);
    assert (o.path + CRASH_REPORT_QUERY)[..|o.path|] == o.path;
  }

  // ---------------------------------------------------------------------------------------
  // Response classification

  /** A response body after `JSONParse(resBody) || resBody`: text, or an object whose
      `invalidBugPatchItemList[0].errors`, `errors`, `code` and `message` the agent reads. */
  datatype ResponseBody =
    | TextBody(text: string)
    | JsonBody(firstItemErrors: Option<seq<Reason>>, errors: Option<seq<Reason>>,
               code: Option<string>, message: Option<string>)

  /** What the transport does with the send's callback. */
  datatype Reply = Deliver(err: Option<RequestError>) | NoCallback

  /** The errors the body reports, if any (arrays are truthy even when empty). */
  function ResponseErrors(body: ResponseBody): Option<seq<Reason>> {
    match body
    case TextBody(_) => None
    case JsonBody(first, errors, _, _) => if first.Some? then first else errors
  }

  /** The `reasons` of an HTTP error: the reported errors, else `code (message)`, else a
      fixed text. */
  function ResponseReasons(body: ResponseBody): (r: Reasons)
    ensures ResponseErrors(body).Some? ==> r == ReasonList(ResponseErrors(body).value)
    ensures ResponseErrors(body).None? ==> r.ReasonText?
  {
    match ResponseErrors(body)
    case Some(errs) => ReasonList(errs)
    case None =>
      if body.JsonBody? && Truthy(body.code) then ReasonText(body.code.value + " (" + Render(body.message) + ")")
      else ReasonText("No reason specified!")
  }

  /** A status code is truthy when it is not 0. */
  function HttpErrorMessage(statusCode: int): string {
    "HTTP Error " + (if statusCode != 0 then "(" + IntToString(statusCode) + ")" else "")
  }

  /** The `end` handler of a response: a redirect with a location is refused with its own
      code; a 2xx response without reported errors succeeds; a server error (5xx) never calls
      back; anything else is an HTTP error carrying the status, the reasons and the body that
      was sent. Both refusals are `RequestError`s the agent constructs, so their stacks are
      the ones V8 records there, with the call-site frames taken from `frames`. */
  function ClassifyResponse(statusCode: int, headers: ResponseHeaders, body: ResponseBody,
                            sentBody: string, frames: (string, string) -> string): (r: Reply)
    ensures 300 <= statusCode < 400 && Truthy(FindHeaderVal("location", headers)) ==>
              r.Deliver? && r.err.Some? && r.err.value.code == Some(DJATY_NOT_SUPPORTED_REDIRECTION)
    ensures r == Deliver(None) <==>
              200 <= statusCode < 300 && ResponseErrors(body).None?
    ensures r == NoCallback <==>
              statusCode >= 500
    ensures r.Deliver? && r.err.Some? && r.err.value.code.None? ==>
              && r.err.value.statusCode == Some(statusCode)
              && r.err.value.reasons == ResponseReasons(body)
              && r.err.value.reqBody == Some(sentBody)
              && statusCode < 500
    ensures r.Deliver? && r.err.Some? ==>
              r.err.value.stack == MadeError("Error", r.err.value.message, frames).stack
  {
    var location := FindHeaderVal("location", headers);
    if statusCode != 0 && 300 <= statusCode < 400 && Truthy(location) then
      var msg := "Cannot redirect to " + location.value + ". Redirections are not supported";
      Deliver(Some(RequestError(msg, Some(DJATY_NOT_SUPPORTED_REDIRECTION), None, NoReasons, None,
                                MadeError("Error", msg, frames).stack)))
    else if statusCode != 0 && 200 <= statusCode < 300 && ResponseErrors(body).None? then
      Deliver(None)
    else
      var err := RequestError(HttpErrorMessage(statusCode), None, Some(statusCode), ResponseReasons(body),
                              Some(sentBody), MadeError("Error", HttpErrorMessage(statusCode), frames).stack);
      if IsServerErr(err.code, err.statusCode) then NoCallback else Deliver(Some(err))
  }

  // ---------------------------------------------------------------------------------------
  // Request errors

  /** A socket-level error of the request (`err.message`, `err.code`, `err.stack`). */
  datatype NetError = NetError(message: string, code: Option<string>, stack: Option<string>)

  /** The `error` listener of the request, given whether the callback already fired: a
      retryable code is swallowed, any other error is delivered once as a `RequestError`. */
  function OnRequestError(cbFired: bool, e: NetError): (r: (bool, Reply))
    ensures cbFired ==> r == (true, NoCallback)
    ensures !cbFired && IsServerErr(e.code, None) ==> r == (false, NoCallback)
    ensures !cbFired && !IsServerErr(e.code, None) ==>
              r.0 && r.1.Deliver? && r.1.err.Some? && r.1.err.value.message == e.message
              && r.1.err.value.statusCode.None?
  {
    if cbFired then (true, NoCallback)
    else if IsServerErr(e.code, None) then (false, NoCallback)
    else
      var formatted := RequestError(e.message, if Truthy(e.code) then e.code else None, None, NoReasons, None, e.stack);
      (true, Deliver(Some(formatted)))
  }

  /** The replies the listener produces for a sequence of errors on one request. */
  function RequestErrorReplies(cbFired: bool, errs: seq<NetError>): (r: seq<Reply>)
    ensures |r| == |errs|
    decreases |errs|
  {
    if |errs| == 0 then []
    else
      var (fired, reply) := OnRequestError(cbFired, errs[0]);
      [reply] + RequestErrorReplies(fired, errs[1..])
  }

  /** How many replies call the callback. */
  function Delivered(replies: seq<Reply>): nat
    decreases |replies|
  {
    if |replies| == 0 then 0 else (if replies[0].Deliver? then 1 else 0) + Delivered(replies[1..])
  }

  /** However many errors a request emits, the callback fires at most once, and never after
      it fired; no delivered error carries a retryable code. */
  lemma {:induction false} RequestErrorsCallBackAtMostOnce(cbFired: bool, errs: seq<NetError>)
    ensures Delivered(RequestErrorReplies(cbFired, errs)) <= (if cbFired then 0 else 1)
    ensures forall i :: 0 <= i < |RequestErrorReplies(cbFired, errs)| && RequestErrorReplies(cbFired, errs)[i].Deliver? ==>
              !IsServerErr(errs[i].code, None)
    decreases |errs|
  {
    if |errs| > 0 {
      var (fired, reply) := OnRequestError(cbFired, errs[0]);
      RequestErrorsCallBackAtMostOnce(fired, errs[1..]);
      var rs := RequestErrorReplies(cbFired, errs);
      assert rs == [reply] + RequestErrorReplies(fired, errs[1..]);
      assert rs[1..] == RequestErrorReplies(fired, errs[1..]);
      forall i | 0 <= i < |rs| && rs[i].Deliver? ensures !IsServerErr(errs[i].code, None) {
        if i > 0 {
          assert rs[i] == RequestErrorReplies(fired, errs[1..])[i - 1];
          assert errs[i] == errs[1..][i - 1];
        }
      }
    }
  }

  /** When some error of the request is not retryable, the callback does fire, exactly once,
      with the first such error. */
  lemma {:induction false} RequestErrorsDeliverFirstFatal(errs: seq<NetError>, i: nat)
    requires i < |errs| && !IsServerErr(errs[i].code, None)
    requires forall j :: 0 <= j < i ==> IsServerErr(errs[j].code, None)
    ensures Delivered(RequestErrorReplies(false, errs)) == 1
    ensures RequestErrorReplies(false, errs)[i].Deliver?
    ensures RequestErrorReplies(false, errs)[i].err.Some?
    ensures RequestErrorReplies(false, errs)[i].err.value.message == errs[i].message
    decreases i
  {
    RequestErrorsCallBackAtMostOnce(false, errs);
    var rs := RequestErrorReplies(false, errs);
    if i == 0 {
      assert rs[0].Deliver?;
      assert Delivered(rs) >= 1;
    } else {
      RequestErrorsDeliverFirstFatal(errs[1..], i - 1);
      assert rs[1..] == RequestErrorReplies(false, errs[1..]);
    }
  }
}

=== FILE: types.dfy ===
/** The agent's shared data model: errors, timeline items, per-request contexts, the
    submission envelope, acknowledge codes and the merged configuration. The shapes follow
    the agent's interfaces (the files under src/interfaces) with JavaScript's `undefined`
    written as `Option.None`. Timestamps are not modelled. */
module Types {
  import opened Wrappers

  const AGENT_ID := "backendAgent"
  const EXCEPTION_TRACKER_NAME := "exceptionTracker"
  const CONSOLE_TRACKER_NAME := "consoleTracker"
  const PLATFORM := "node"
  const HASH_TYPE := "sha256"
  const BUGS_PATH := "/bugs"
  const DJATY_REQ_WRAP_DOMAIN := "djatyReqWrapDomain"

  /** A JavaScript string is truthy exactly when it is defined and not empty. */
  predicate Truthy(s: Option<string>) {
    s.Some? && s.value != ""
  }

  /** The source's `a || b` on two optional strings. */
  function OrStr(a: Option<string>, b: Option<string>): Option<string> {
    if Truthy(a) then a else b
  }

  /** An `Error` object as the agent reads it. */
  datatype ErrorObj = ErrorObj(name: string, message: string, stack: Option<string>)

  /** The first line of the stack V8 records for an `Error`: the name, then `: ` and the
      message when there is one. */
  function StackHeader(name: string, message: string): string {
    if message == "" then name else name + ": " + message
  }

  /** An `Error` constructed inside the agent (`new Error(...)`, a `DjatyError`, a
      `RequestError`, or a `TypeError` the runtime raises in agent code). V8 records its stack
      at construction: the header line, then the frame lines of the call site. The model does
      not follow call sites, so `frames` supplies those lines. */
  function MadeError(name: string, message: string, frames: (string, string) -> string): ErrorObj {
    ErrorObj(name, message, Some(StackHeader(name, message) + "\n" + frames(name, message)))
  }

  /** One schema-validation complaint of the collector (an ajv error object). */
  datatype Reason = Reason(keyword: Option<string>)

  /** The `reasons` property of a failed request: absent, a list of complaints, or text. */
  datatype Reasons = NoReasons | ReasonList(items: seq<Reason>) | ReasonText(text: string)

  /** A failed request to the collector (`RequestError`); `reqBody` echoes the sent body. */
  datatype RequestError = RequestError(
    message: string,
    code: Option<string>,
    statusCode: Option<int>,
    reasons: Reasons,
    reqBody: Option<string>,
    stack: Option<string>)

  /** A value thrown by user code or by the agent. */
  datatype Thrown =
    | ErrorThrown(error: ErrorObj)
    | DjatyErr(message: string, code: Option<string>)
    | RequestFailure(req: RequestError)
    | NonError(text: string)
  {
    /** `err instanceof Error`. */
    predicate IsError() {
      !NonError?
    }

    /** The `Error` the agent parses: non-errors are wrapped as `new Error(String(value))`,
        and a `DjatyError` carries the stack of its construction in the agent. Classes derived
        from `Error` keep the inherited name "Error". */
    function AsError(frames: (string, string) -> string): (e: ErrorObj)
      ensures NonError? ==> e == MadeError("Error", text, frames)
      ensures DjatyErr? ==> e == MadeError("Error", message, frames)
      ensures RequestFailure? ==> e.name == "Error" && e.message == req.message && e.stack == req.stack
    {
      match this
      case ErrorThrown(e) => e
      case DjatyErr(m, _) => MadeError("Error", m, frames)
      case RequestFailure(r) => ErrorObj("Error", r.message, r.stack)
      case NonError(t) => MadeError("Error", t, frames)
    }
  }

  /** A console argument or custom-data entry. */
  datatype Value =
    | Text(s: string)
    | ThrownValue(t: Thrown)
    | ReasonsValue(r: Reasons)
    | BodyValue(body: Option<string>)
    | KeyRecord(apiKey: Option<string>)
    | UserValue(id: nat)

  /** A JavaScript value where the agent inspects its type (user identifiers). */
  datatype JsValue = Undefined | Null | Bool(b: bool) | Num(n: int) | Str(s: string) | Obj {
    predicate IsTruthy() {
      match this
      case Undefined => false
      case Null => false
      case Bool(b) => b
      case Num(n) => n != 0
      case Str(s) => s != ""
      case Obj => true
    }
  }

  /** One own property of a plain object: missing, or present with some value. */
  datatype Prop = Missing | Has(v: JsValue)

  /** A tracked user `{userId, logon, userIp}` as a plain object whose keys may be missing. */
  datatype User = User(userId: Prop, logon: Prop, userIp: Prop) {
    /** lodash `_.isEmpty`: no own key at all. */
    predicate IsEmpty() {
      userId.Missing? && logon.Missing? && userIp.Missing?
    }
  }

  const NoUser := User(Missing, Missing, Missing)

  /** `Object.assign` on one key: the right-hand object's key wins when present. */
  function MergeProp(a: Prop, b: Prop): Prop {
    if b.Has? then b else a
  }

  /** `Object.assign({}, a, b)` for tracked users. */
  function MergeUser(a: User, b: User): (r: User)
    ensures r.IsEmpty() <==> a.IsEmpty() && b.IsEmpty()
    ensures b.userId.Has? ==> r.userId == b.userId
    ensures b.userId.Missing? ==> r.userId == a.userId
  {
    User(MergeProp(a.userId, b.userId), MergeProp(a.logon, b.logon), MergeProp(a.userIp, b.userIp))
  }

  /** The `itemType` tag of a timeline item. */
  datatype ItemType = ConsoleType | HttpReqType | ExceptionType | TrimmingType

  /** An entry of a context's timeline. */
  datatype TimelineItem =
    | ConsoleItem(methodName: string, params: seq<Value>, consoleHash: Option<string>)
    | HttpReqItem(verb: string, url: string, djatyReqId: Option<string>, remoteAddr: Option<string>)
    | ExceptionItem(typeName: string, msg: string, stack: string, hash: string)
    | TrimmingItem
  {
    function ItemType(): ItemType {
      match this
      case ConsoleItem(_, _, _) => ConsoleType
      case HttpReqItem(_, _, _, _) => HttpReqType
      case ExceptionItem(_, _, _, _) => ExceptionType
      case TrimmingItem => TrimmingType
    }

    /** An inbound-request marker that carries a request id: the item a reset keeps. */
    predicate IsRequestMarker() {
      HttpReqItem? && Truthy(djatyReqId)
    }
  }

  /** The per-request (or global) context: `ContextArgs` as stored on a domain. The user
      filters of the context are identified by number. */
  datatype Context = Context(
    timeline: Option<seq<TimelineItem>>,
    isTimelineTrimmed: bool,
    trimmedItems: seq<TimelineItem>,
    djatyReqId: Option<string>,
    user: User,
    handlers: seq<nat>,
    customData: seq<Value>,
    tags: Option<seq<string>>,
    stage: Option<string>)

  /** The `{}` context a request domain starts with. */
  const EmptyContext := Context(None, false, [], None, NoUser, [], [], None, None)

  /** The active domain when the agent is called: none, one of the agent's request domains,
      or a domain created by someone else (a nested user domain or an internal one). */
  datatype Domain = NoDomain | ReqWrap(id: nat) | Foreign

  /** The submission acknowledge codes, in the order of their numeric values. */
  datatype Ack =
    | UserFilterError
    | CrashReportSent
    | BugReported
    | FrontendLinkingTempBugReported
    | CrashReportDisabled
    | SkippedNestedUserDomain
    | SkippedTrackingDisabled
    | SkippedExtensionNotDetected

  /** The numeric value of an acknowledge code. */
  function AckCode(a: Ack): (n: nat)
    ensures n < 8
  {
    match a
    case UserFilterError => 0
    case CrashReportSent => 1
    case BugReported => 2
    case FrontendLinkingTempBugReported => 3
    case CrashReportDisabled => 4
    case SkippedNestedUserDomain => 5
    case SkippedTrackingDisabled => 6
    case SkippedExtensionNotDetected => 7
  }

  /** One bug of a submission (`AgentBatchItem`). */
  datatype BatchItem = BatchItem(
    bugType: ItemType,
    customData: Option<seq<Value>>,
    djatyReqId: Option<string>,
    hash: string,
    isTemp: bool,
    longTitle: string,
    shortTitle: string,
    timeline: seq<TimelineItem>,
    user: Option<User>)

  /** The submission envelope (`AgentData`); keys are absent only in crash reports. */
  datatype AgentData = AgentData(
    batch: seq<BatchItem>,
    agentId: string,
    agentVersion: string,
    apiKey: Option<string>,
    apiSecret: Option<string>,
    hashType: string,
    platform: string,
    platformVersion: Option<string>,
    release: Option<string>,
    serverLocalIp: string,
    serverName: string,
    stage: Option<string>,
    tags: Option<seq<string>>)

  /** The server or proxy section of the configuration. */
  datatype Endpoint = Endpoint(
    hostname: Option<string>,
    port: Option<int>,
    secure: Option<bool>,
    apiPath: Option<string>)

  /** The merged configuration the agent runs with. */
  datatype Options = Options(
    apiKey: Option<string>,
    apiSecret: Option<string>,
    djatyIsTracking: bool,
    allowAutoSubmission: bool,
    exitOnUncaughtExceptions: bool,
    reportDjatyCrashes: bool,
    submissionTimeout: int,
    release: Option<string>,
    tags: seq<string>,
    stage: Option<string>,
    timelineLimit: int,
    stacktraceLimit: int,
    onBeforeBugSubmission: Option<nat>,
    server: Endpoint,
    proxy: Option<Endpoint>)

  /** Facts about the host the payload reports (the `ip` and `computer-name` packages, the
      Node version and the agent's package version). */
  datatype HostInfo = HostInfo(localIp: string, computerName: string, nodeVersion: Option<string>,
                               agentVersion: string)

  /** Everything outside the agent that its decisions depend on: SHA-256 and
      `JSON.stringify` as uninterpreted functions, the behaviour of each user filter, host
      facts, the user each request's framework object yields, the hostname format check
      of the configuration schema, and the call-site frames of the errors the agent
      constructs. */
  datatype Env = Env(
    sha256: string -> string,
    stringify: seq<Value> -> string,
    filter: nat -> (AgentData -> Result<AgentData, Thrown>),
    host: HostInfo,
    reqUser: nat -> User,
    isHostname: string -> bool,
    errorFrames: (string, string) -> string)
}

=== FILE: utils.dfy ===
/** The pure helpers of src/utils.ts: URL parameter removal, the filter-chain runner
    (`asyncLoop`), error and console-call parsing into timeline items, client-address
    normalisation and the request-domain tag test. */
module Utils {
  import opened Wrappers
  import opened Text
  import opened Types

  // ---------------------------------------------------------------------------------------
  // encodeURIComponent

  /** The characters `encodeURIComponent` leaves alone. */
  predicate Unreserved(c: char) {
    ('A' <= c <= 'Z') || ('a' <= c <= 'z') || ('0' <= c <= '9') || c in "-_.!~*'()"
  }

  /** An upper-case hexadecimal digit. */
  predicate UpperHex(c: char) {
    ('0' <= c <= '9') || ('A' <= c <= 'F')
  }

  function HexDigit(d: nat): (c: char)
    requires d < 16
    ensures UpperHex(c)
  {
    "0123456789ABCDEF"[d]
  }

  /** The UTF-8 encoding of one Unicode scalar value. */
  function Utf8(c: char): (bytes: seq<nat>)
    ensures 1 <= |bytes| <= 4
    ensures forall i :: 0 <= i < |bytes| ==> bytes[i] < 256
    ensures (c as int) < 0x80 ==> bytes == [c as int]
  {
    var n := c as int;
    if n < 0x80 then [n]
    else if n < 0x800 then [0xC0 + n / 64, 0x80 + n % 64]
    else if n < 0x10000 then [0xE0 + n / 4096, 0x80 + (n / 64) % 64, 0x80 + n % 64]
    else [0xF0 + n / 262144, 0x80 + (n / 4096) % 64, 0x80 + (n / 64) % 64, 0x80 + n % 64]
  }

  /** `%XX` escapes of a byte sequence. */
  function PercentBytes(bytes: seq<nat>): (r: string)
    requires forall i :: 0 <= i < |bytes| ==> bytes[i] < 256
    ensures |r| == 3 * |bytes|
    ensures forall i :: 0 <= i < |r| ==> r[i] == '%' || UpperHex(r[i])
  {
    if |bytes| == 0 then ""
    else ['%', HexDigit(bytes[0] / 16), HexDigit(bytes[0] % 16)] + PercentBytes(bytes[1..])
  }

  /** `encodeURIComponent(s)`: unreserved characters are kept, every other character becomes
      the percent-escapes of its UTF-8 bytes. Dafny characters are scalar values, so the
      lone-surrogate `URIError` cannot arise. */
  function EncodeUriComponent(s: string): (r: string)
    ensures forall i :: 0 <= i < |r| ==> Unreserved(r[i]) || r[i] == '%' || UpperHex(r[i])
    ensures (forall i :: 0 <= i < |s| ==> Unreserved(s[i])) ==> r == s
    decreases |s|
  {
    if |s| == 0 then ""
    else
      var head := if Unreserved(s[0]) then [s[0]] else PercentBytes(Utf8(s[0]));
      assert (forall i :: 0 <= i < |s| ==> Unreserved(s[i])) ==> [s[0]] + s[1..] == s;
      head + EncodeUriComponent(s[1..])
  }

  // ---------------------------------------------------------------------------------------
  // removeUrlParameter

  const QUERY_SEPARATORS: set<char> := {'&', ';'}

  /** The prefix a query part must start with to be removed: the encoded name and `=`. */
  function ParamPrefix(parameter: string): (p: string)
    ensures |p| >= 1 && p[|p| - 1] == '='
  {
    EncodeUriComponent(parameter) + "="
  }

  /** The text before the first `?`. */
  function UrlBase(url: string): (b: string)
    ensures NoneIn(b, {'?'})
  {
    Split(url, {'?'})[0]
  }

  /** The text after the first `?` (the other `?` characters kept). */
  function QueryString(url: string): string {
    Join(Split(url, {'?'})[1..], "?")
  }

  /** The query string cut at `&` and `;`. */
  function QueryParts(url: string): seq<string> {
    Split(QueryString(url), QUERY_SEPARATORS)
  }

  /** The parts that do not start with `prefix`, in their original order. */
  function KeepParts(parts: seq<string>, prefix: string): (r: seq<string>)
    ensures |r| <= |parts|
    ensures forall i :: 0 <= i < |r| ==> !StartsWith(r[i], prefix)
    ensures forall p :: p in r <==> p in parts && !StartsWith(p, prefix)
    decreases |parts|
  {
    if |parts| == 0 then []
    else if StartsWith(parts[0], prefix) then KeepParts(parts[1..], prefix)
    else [parts[0]] + KeepParts(parts[1..], prefix)
  }

  /** The source's removal loop: a backwards scan that splices out every part starting with
      the prefix. It leaves exactly the parts `KeepParts` keeps, in the same order. */
  method SpliceOutPrefixed(parts: seq<string>, prefix: string) returns (kept: seq<string>)
    ensures kept == KeepParts(parts, prefix)
  {
    kept := parts;
    var i := |parts|;
    while i > 0
      invariant 0 <= i <= |parts|
      invariant kept == parts[..i] + KeepParts(parts[i..], prefix)
      decreases i
    {
      i := i - 1;
      SpliceStep(parts, prefix, i, kept);
      if StartsWith(kept[i], prefix) {
        kept := kept[..i] + kept[i + 1..];
      }
    }
    assert parts[0..] == parts;
  }

  /** One iteration of the removal loop keeps its invariant. */
  lemma SpliceStep(parts: seq<string>, prefix: string, i: nat, kept: seq<string>)
    requires i < |parts| && kept == parts[..i + 1] + KeepParts(parts[i + 1..], prefix)
    ensures i < |kept| && kept[i] == parts[i]
    ensures (if StartsWith(kept[i], prefix) then kept[..i] + kept[i + 1..] else kept)
              == parts[..i] + KeepParts(parts[i..], prefix)
  {
    assert parts[i..][1..] == parts[i + 1..];
    var rest := KeepParts(parts[i + 1..], prefix);
    assert parts[..i + 1] == parts[..i] + [parts[i]];
    assert kept == parts[..i] + ([parts[i]] + rest);
    if StartsWith(parts[i], prefix) {
      assert kept[..i] == parts[..i] && kept[i + 1..] == rest;
    }
  }

  /** `removeUrlParameter(url, parameter)`: drops every query part that starts with the
      encoded parameter name followed by `=`; a url without `?` is returned as it is. */
  function RemoveUrlParameter(url: string, parameter: string): (r: string)
    ensures NoneIn(url, {'?'}) ==> r == url
    ensures !NoneIn(url, {'?'}) ==>
              r == UrlBase(url) + "?" + Join(KeepParts(QueryParts(url), ParamPrefix(parameter)), "&")
  {
    var urlParts := Split(url, {'?'});
    if |urlParts| >= 2 then
      var kept := KeepParts(Split(Join(urlParts[1..], "?"), QUERY_SEPARATORS), ParamPrefix(parameter));
      urlParts[0] + "?" + Join(kept, "&")
    else
      url
  }

  /** The parts of a query string rebuilt by `removeUrlParameter` are read back unchanged;
      an empty rebuilt query reads back as the single empty part. */
  lemma RebuiltQueryParts(base: string, kept: seq<string>)
    requires NoneIn(base, {'?'})
    requires forall i :: 0 <= i < |kept| ==> NoneIn(kept[i], QUERY_SEPARATORS)
    ensures UrlBase(base + "?" + Join(kept, "&")) == base
    ensures QueryParts(base + "?" + Join(kept, "&")) == if kept == [] then [""] else kept
  {
    var q := Join(kept, "&");
    SplitAfterPrefix(base, '?', q, {'?'});
    assert base + "?" + q == base + ['?'] + q;
    assert Split(base + "?" + q, {'?'})[1..] == Split(q, {'?'});
    JoinSplit(q, '?');
    if kept != [] {
      SplitJoin(kept, '&', QUERY_SEPARATORS);
    }
  }

  /** The url's text before the first `?` survives the removal, no remaining query part
      starts with the removed prefix, and the surviving parts are exactly the original parts
      that do not, in their original order. */
  lemma RemoveUrlParameterQuery(url: string, parameter: string)
    requires !NoneIn(url, {'?'})
    ensures var r := RemoveUrlParameter(url, parameter);
            var kept := KeepParts(QueryParts(url), ParamPrefix(parameter));
            && UrlBase(r) == UrlBase(url)
            && QueryParts(r) == (if kept == [] then [""] else kept)
            && forall i :: 0 <= i < |QueryParts(r)| ==> !StartsWith(QueryParts(r)[i], ParamPrefix(parameter))
  {
    var kept := KeepParts(QueryParts(url), ParamPrefix(parameter));
    forall i | 0 <= i < |kept| ensures NoneIn(kept[i], QUERY_SEPARATORS) {
      assert kept[i] in QueryParts(url);
    }
    RebuiltQueryParts(UrlBase(url), kept);
    var p := ParamPrefix(parameter);
    assert !StartsWith("", p);
  }

  /** Removing the same parameter twice is the same as removing it once. */
  lemma RemoveUrlParameterIdempotent(url: string, parameter: string)
    ensures RemoveUrlParameter(RemoveUrlParameter(url, parameter), parameter)
            == RemoveUrlParameter(url, parameter)
  {
    if !NoneIn(url, {'?'}) {
      var p := ParamPrefix(parameter);
      var r := RemoveUrlParameter(url, parameter);
      var kept := KeepParts(QueryParts(url), p);
      RemoveUrlParameterQuery(url, parameter);
      assert r[|UrlBase(url)|] == '?';
      assert !NoneIn(r, {'?'});
      KeepAllUnprefixed(QueryParts(r), p);
      if kept == [] {
        assert !StartsWith("", p);
        assert KeepParts([""], p) == [""];
        assert Join([""], "&") == "" == Join(kept, "&");
      }
    }
  }

  /** Parts none of which starts with the prefix are all kept. */
  lemma {:induction false} KeepAllUnprefixed(parts: seq<string>, prefix: string)
    requires forall i :: 0 <= i < |parts| ==> !StartsWith(parts[i], prefix)
    ensures KeepParts(parts, prefix) == parts
    decreases |parts|
  {
    if |parts| > 0 {
      KeepAllUnprefixed(parts[1..], prefix);
      assert [parts[0]] + parts[1..] == parts;
    }
  }

  // ---------------------------------------------------------------------------------------
  // asyncLoop

  /** `asyncLoop(funcArr, initArgs, ctx, doneCb)` with the `next` arguments as one value of
      type `T`: each function receives what the previous one passed to `next`; `doneCb`
      receives `Ok` of the last arguments, or `Err` of the first synchronous throw, after
      which no further function runs. */
  function AsyncLoop<T, E>(fs: seq<T -> Result<T, E>>, x: T): (r: Result<T, E>)
    ensures |fs| == 0 ==> r == Ok(x)
    ensures |fs| > 0 && fs[0](x).Err? ==> r == Err(fs[0](x).error)
    decreases |fs|
  {
    if |fs| == 0 then Ok(x)
    else
      match fs[0](x)
      case Ok(y) => AsyncLoop(fs[1..], y)
      case Err(e) => Err(e)
  }

  /** Running two lists one after the other is running their concatenation: the second
      list starts from what the first one passed to `doneCb`, unless the first one failed. */
  lemma {:induction false} AsyncLoopConcat<T, E>(fs: seq<T -> Result<T, E>>, gs: seq<T -> Result<T, E>>, x: T)
    ensures AsyncLoop(fs + gs, x) == match AsyncLoop(fs, x)
                                    case Ok(y) => AsyncLoop(gs, y)
                                    case Err(e) => Err(e)
    decreases |fs|
  {
    if |fs| == 0 {
      assert fs + gs == gs;
    } else {
      assert (fs + gs)[0] == fs[0];
      assert (fs + gs)[1..] == fs[1..] + gs;
      match fs[0](x)
      case Ok(y) => AsyncLoopConcat(fs[1..], gs, y);
      case Err(_) =>
    }
  }

  /** A throw in the function at index `i` stops the chain: `doneCb` receives only that
      error, whatever the later functions would do. */
  lemma AsyncLoopStopsAtThrow<T, E>(fs: seq<T -> Result<T, E>>, x: T, i: nat, y: T, e: E)
    requires i < |fs|
    requires AsyncLoop(fs[..i], x) == Ok(y)
    requires fs[i](y) == Err(e)
    ensures AsyncLoop(fs, x) == Err(e)
  {
    assert fs == fs[..i] + fs[i..];
    AsyncLoopConcat(fs[..i], fs[i..], x);
  }

  /** The source's `next` counter: functions are called one at a time in list order until
      one throws or the counter reaches the end. */
  method RunChain<T, E>(fs: seq<T -> Result<T, E>>, x: T) returns (r: Result<T, E>)
    ensures r == AsyncLoop(fs, x)
  {
    var i := 0;
    var args := x;
    while i < |fs|
      invariant 0 <= i <= |fs|
      invariant AsyncLoop(fs, x) == AsyncLoop(fs[i..], args)
      decreases |fs| - i
    {
      assert fs[i..][1..] == fs[i + 1..];
      match fs[i](args)
      case Ok(y) =>
        args := y;
        i := i + 1;
      case Err(e) =>
        return Err(e);
    }
    return Ok(args);
  }

  // ---------------------------------------------------------------------------------------
  // parseError

  const AGENT_DIST_PATH := "/djaty-nodejs-agent/dist/"

  /** The number of spaces `s` starts with. */
  function LeadingSpaces(s: string): (k: nat)
    ensures k <= |s|
    ensures forall i :: 0 <= i < k ==> s[i] == ' '
    ensures k < |s| ==> s[k] != ' '
    decreases |s|
  {
    if |s| > 0 && s[0] == ' ' then 1 + LeadingSpaces(s[1..]) else 0
  }

  /** A JavaScript line terminator (what `.` in a regular expression does not match). */
  predicate LineTerminator(c: char) {
    c == '\n' || c == '\r' || c == '\U{2028}' || c == '\U{2029}'
  }

  /** The agent's own install path starts at index `j` of `s`. */
  predicate DistPathAt(s: string, j: nat) {
    j + |AGENT_DIST_PATH| <= |s| && s[j..j + |AGENT_DIST_PATH|] == AGENT_DIST_PATH
  }

  /** `/^ +at .*\/djaty-nodejs-agent\/dist\//` matches `frame`: a stack line of the agent's
      own compiled code. */
  predicate IsAgentFrame(frame: string)
    ensures IsAgentFrame(frame) ==> |frame| > 0 && frame[0] == ' ' && exists j :: DistPathAt(frame, j)
  {
    var k := LeadingSpaces(frame);
    && k >= 1
    && StartsWith(frame[k..], "at ")
    && exists j :: k + 3 <= j <= |frame| && DistPathAt(frame, j)
                   && forall m :: k + 3 <= m < j ==> !LineTerminator(frame[m])
  }

  /** The end index `Array.prototype.slice(0, end)` uses on a list of length `n`. */
  function SliceEnd(n: nat, end: int): (e: nat)
    ensures e <= n
    ensures end >= 0 ==> e == if end < n then end else n
    ensures end < 0 ==> e == if n + end > 0 then n + end else 0
  {
    if end >= 0 then (if end < n then end else n)
    else if n + end > 0 then n + end else 0
  }

  /** The stack lines of a stack string. */
  function StackLines(stack: string): seq<string> {
    Split(stack, {'\n'})
  }

  /** The lines `parseError` keeps: the first `maxFramesNo + 1` lines (with `slice`'s
      negative-end rule) without the agent's own frames. */
  function KeptFrames(stack: string, maxFramesNo: int): (r: seq<string>)
    ensures |r| <= SliceEnd(|StackLines(stack)|, maxFramesNo + 1)
    ensures forall i :: 0 <= i < |r| ==> !IsAgentFrame(r[i])
  {
    var lines := StackLines(stack);
    FilterFrames(lines[..SliceEnd(|lines|, maxFramesNo + 1)])
  }

  /** The non-agent frames of `frames`, in order. */
  function FilterFrames(frames: seq<string>): (r: seq<string>)
    ensures |r| <= |frames|
    ensures forall i :: 0 <= i < |r| ==> !IsAgentFrame(r[i])
    ensures forall f :: f in r <==> f in frames && !IsAgentFrame(f)
    decreases |frames|
  {
    if |frames| == 0 then []
    else if IsAgentFrame(frames[0]) then FilterFrames(frames[1..])
    else [frames[0]] + FilterFrames(frames[1..])
  }

  /** The text the exception hash is computed from, after the message: the second stack
      line, the string "undefined" for a one-line stack, and nothing without a stack. */
  function FirstFrame(e: ErrorObj): string {
    if Truthy(e.stack) then
      var lines := StackLines(e.stack.value);
      if |lines| >= 2 then lines[1] else "undefined"
    else ""
  }

  /** The `msg` of an exception item. */
  function ExceptionMsg(e: ErrorObj): string {
    e.name + ": " + (if e.message != "" then e.message else "[no message]")
  }

  /** `parseError(err, maxFramesNo)` with SHA-256 as the parameter `sha256`. */
  function ParseError(e: ErrorObj, maxFramesNo: int, sha256: string -> string): (r: TimelineItem)
    ensures r.ExceptionItem? && r.typeName == e.name
    ensures r.msg == ExceptionMsg(e)
    ensures r.hash == sha256(AGENT_ID + EXCEPTION_TRACKER_NAME + r.msg + FirstFrame(e))
    ensures Truthy(e.stack) ==> r.stack == Join(KeptFrames(e.stack.value, maxFramesNo), "\n")
    ensures !Truthy(e.stack) ==> r.stack == ""
  {
    var stack := if Truthy(e.stack) then Join(KeptFrames(e.stack.value, maxFramesNo), "\n") else "";
    var msg := ExceptionMsg(e);
    ExceptionItem(e.name, msg, stack, sha256(AGENT_ID + EXCEPTION_TRACKER_NAME + msg + FirstFrame(e)))
  }

  /** The reported stack reads back as exactly the kept frames: at most `maxFramesNo + 1`
      original lines, none of them an agent frame, and every non-agent line among the first
      `maxFramesNo + 1` lines is there. */
  lemma ParseErrorStack(e: ErrorObj, maxFramesNo: int, sha256: string -> string)
    requires Truthy(e.stack)
    ensures var kept := KeptFrames(e.stack.value, maxFramesNo);
            var lines := StackLines(e.stack.value);
            var window := lines[..SliceEnd(|lines|, maxFramesNo + 1)];
            && (kept != [] ==> StackLines(ParseError(e, maxFramesNo, sha256).stack) == kept)
            && |kept| <= SliceEnd(|lines|, maxFramesNo + 1)
            && (forall f :: f in kept <==> f in window && !IsAgentFrame(f))
  {
    var kept := KeptFrames(e.stack.value, maxFramesNo);
    var lines := StackLines(e.stack.value);
    if kept != [] {
      forall i | 0 <= i < |kept| ensures NoneIn(kept[i], {'\n'}) {
        assert kept[i] in lines[..SliceEnd(|lines|, maxFramesNo + 1)];
      }
      SplitJoin(kept, '\n', {'\n'});
    }
  }

  /** The hash of an exception item depends only on its message and the second stack line:
      errors that agree on those hash alike whatever their other frames and frame limits. */
  lemma ParseErrorHashDeterminants(e1: ErrorObj, m1: int, e2: ErrorObj, m2: int, sha256: string -> string)
    requires ExceptionMsg(e1) == ExceptionMsg(e2) && FirstFrame(e1) == FirstFrame(e2)
    ensures ParseError(e1, m1, sha256).hash == ParseError(e2, m2, sha256).hash
  {
  }

  /** An error the agent constructs is parsed with its `name: message` line as the first
      reported stack line whenever at least that line is kept, and is hashed over the first
      line of its call-site frames. */
  lemma {:induction false} ParseAgentMadeError(name: string, message: string, frames: (string, string) -> string,
                                               maxFramesNo: int, sha256: string -> string)
    requires |name| > 0 && name[0] != ' '
    requires NoneIn(name, {'\n'}) && NoneIn(message, {'\n'})
    requires maxFramesNo >= 0
    ensures var r := ParseError(MadeError(name, message, frames), maxFramesNo, sha256);
            && StartsWith(r.stack, StackHeader(name, message))
            && r.hash == sha256(AGENT_ID + EXCEPTION_TRACKER_NAME + ExceptionMsg(MadeError(name, message, frames))
                                + StackLines(frames(name, message))[0])
  {
    var e := MadeError(name, message, frames);
    var header := StackHeader(name, message);
    var rest := frames(name, message);
    assert NoneIn(header, {'\n'}) by {
      if message != "" {
        assert header == name + ": " + message;
        forall i | 0 <= i < |header| ensures header[i] !in {'\n'} {
          if i >= |name| + 2 { assert header[i] == message[i - |name| - 2]; }
        }
      }
    }
    assert e.stack.value == header + ['\n'] + rest;
    SplitAfterPrefix(header, '\n', rest, {'\n'});
    var lines := StackLines(e.stack.value);
    assert lines == [header] + StackLines(rest);
    assert FirstFrame(e) == StackLines(rest)[0];
    var window := lines[..SliceEnd(|lines|, maxFramesNo + 1)];
    assert |window| >= 1 && window[0] == header;
    assert !IsAgentFrame(header) by {
      assert LeadingSpaces(header) == 0;
    }
    var kept := FilterFrames(window);
    assert kept == [header] + FilterFrames(window[1..]);
    if |kept| > 1 {
      JoinCons(header, FilterFrames(window[1..]), "\n");
    }
  }

  // ---------------------------------------------------------------------------------------
  // formatConsoleItem, getReqIP, isDjatyReqWrapDomain

  /** `formatConsoleItem(method, params)` with SHA-256 and `JSON.stringify` as parameters:
      only `console.error` calls are hashed, from the rendered arguments alone. */
  function FormatConsoleItem(methodName: string, params: seq<Value>, sha256: string -> string,
                             stringify: seq<Value> -> string): (r: TimelineItem)
    ensures r.ConsoleItem? && r.methodName == methodName && r.params == params
    ensures r.consoleHash.Some? <==> methodName == "error"
  {
    ConsoleItem(methodName, params,
                if methodName == "error" then Some(sha256(AGENT_ID + CONSOLE_TRACKER_NAME + stringify(params)))
                else None)
  }

  /** Two `console.error` items whose arguments render alike get the same hash. */
  lemma ConsoleHashByRendering(p1: seq<Value>, p2: seq<Value>, sha256: string -> string,
                               stringify: seq<Value> -> string)
    requires stringify(p1) == stringify(p2)
    ensures FormatConsoleItem("error", p1, sha256, stringify).consoleHash
            == FormatConsoleItem("error", p2, sha256, stringify).consoleHash
    ensures FormatConsoleItem("error", p1, sha256, stringify).consoleHash.Some?
  {
  }

  /** `getReqIP(req)`: the framework's `ip`, else the socket's remote address; the IPv6
      loopback `::1` is reported as `127.0.0.1`. */
  function GetReqIP(ip: Option<string>, remoteAddress: Option<string>): (r: Option<string>)
    ensures r != Some("::1")
    ensures var chosen := OrStr(ip, remoteAddress);
            (chosen == Some("::1") ==> r == Some("127.0.0.1")) && (chosen != Some("::1") ==> r == chosen)
  {
    var remoteAddr := OrStr(ip, remoteAddress);
    if remoteAddr == Some("::1") then Some("127.0.0.1") else remoteAddr
  }

  /** `isDjatyReqWrapDomain(activeDomain)`. */
  predicate IsDjatyReqWrapDomain(name: string) {
    name == DJATY_REQ_WRAP_DOMAIN
  }

  /** How the context store sees the active domain (`domain.active` with its `__name`):
      none, one of the agent's request domains, or any other domain. */
  function ClassifyDomain(active: Option<(string, nat)>): (d: Domain)
    ensures d == NoDomain <==> active.None?
    ensures d.ReqWrap? <==> active.Some? && IsDjatyReqWrapDomain(active.value.0)
    ensures d.ReqWrap? ==> d.id == active.value.1
    ensures d == Foreign <==> active.Some? && active.value.0 != "djatyReqWrapDomain"
  {
    match active
    case None => NoDomain
    case Some((name, id)) => if IsDjatyReqWrapDomain(name) then ReqWrap(id) else Foreign
  }
}

=== FILE: wrappers.dfy ===
/** Failure-compatible wrappers shared by every module of the model: `Option` for the
    source's `undefined`-able values and `Result` for operations that either produce a value
    or raise an error. */
module Wrappers {

  /** A value that may be absent (`undefined` in the source). */
  datatype Option<+T> = None | Some(value: T) {

    /** The wrapped value, or `default` when absent. */
    function GetOr(default: T): T {
      match this
      case Some(v) => v
      case None => default
    }

    /** `this` when present, otherwise `other` (the source's `a || b` on optional values). */
    function OrElse(other: Option<T>): Option<T> {
      if Some? then this else other
    }
  }

  /** Either a value or the error an operation raised. */
  datatype Result<+R, +E> = Ok(value: R) | Err(error: E) {

    predicate IsFailure() {
      Err?
    }

    function PropagateFailure<U>(): Result<U, E>
      requires Err?
    {
      Err(error)
    }

    function Extract(): R
      requires Ok?
    {
      value
    }
  }
}
